=== FILE: README.md ===
# The Beautiful Game Oracle: the producer side, in Dafny

This project models the Python producer side of The Beautiful Game Oracle,
a football match-prediction pipeline. The producer side:

- cleans the raw Understat league results (`cleanLeagueResults.py`);
- derives the version-2 training table of pre-match form, rest and target
  features (`analysis/build_league_results_v2.py`);
- keeps a feature store that resolves which dataset version it reads,
  which features the models need, and how a fixture becomes a cached
  feature vector (`pipelines/feature_store.py`);
- finds the newest training-notebook run and its `metrics.json`
  (`pipelines/notebook_catalog.py`);
- writes per-league team roster caches (`pipelines/team_cache.py`);
- emits and patches the model manifest that deployments read
  (`scripts/publish_model.py`, `scripts/update_manifest.py`).

Every module is pure. Files, directories, the environment, the clock and
the Python parsers the code calls are parameters: `stat`, `fileExists`,
`existing`, `literalEval`, `parseIso`, `resolve`, `now`. A pandas frame is
a sequence of records, and a `groupby` is a scan over the earlier rows of
the same key, in table order.

Modules, one per source file plus three helpers:

| file | module | models |
|---|---|---|
| `wrappers.dfy` | `Wrappers` | `Option`, `Result`, and `MapAll` (a list comprehension whose first raise aborts) |
| `text.dfy` | `Text` | the `str` methods used (`strip`, `lower`, `upper`, `split`, `join`, `isdigit`), `sorted`, insertion-ordered de-duplication, `cumcount` |
| `json.dfy` | `Json` | JSON values as `json.load`/`json.dump` see them, without numbers other than integers |
| `publish_model.dfy` | `PublishModel` | `scripts/publish_model.py` |
| `update_manifest.dfy` | `UpdateManifest` | `scripts/update_manifest.py` |
| `notebook_catalog.dfy` | `NotebookCatalog` | `pipelines/notebook_catalog.py` |
| `feature_store.dfy` | `FeatureStore` | `pipelines/feature_store.py`, except its pandas feature engineering |
| `team_cache.dfy` | `TeamCache` | `pipelines/team_cache.py` |
| `clean_league_results.dfy` | `CleanLeagueResults` | `cleanLeagueResults.py` |
| `league_results_v2.dfy` | `LeagueResultsV2` | `analysis/build_league_results_v2.py` |

## Model

| member | source | states |
|---|---|---|
| PublishModel.RelativeTo | scripts/publish_model.py:64 | `relative_to` succeeds exactly when the root's components are a prefix of the path's; the root followed by the result is the path |
| PublishModel.PathStringRoundTrip | scripts/publish_model.py:61 | reading `str(path)` of a resolved path back gives the same path |
| PublishModel.ComputeLocalPath | scripts/publish_model.py:58-68 | the absolute path without a root, with a path outside the root, or in absolute mode; otherwise the text of the components below the root |
| PublishModel.LocalPathLocatesResource | scripts/publish_model.py:58-68 | a relative `local_path` joined back onto the root is the resource's path (`.` means the root itself); otherwise `local_path` parses back to the resource's path |
| PublishModel.EntryUri | scripts/publish_model.py:89-91 | the uri is the base URL with its trailing slashes removed, one `/`, and the file name |
| PublishModel.EntryUriIgnoresTrailingSlashes | scripts/publish_model.py:91 | any number of trailing slashes on the base URL gives the same uri |
| PublishModel.WhenSet | scripts/publish_model.py:85-88 | an optional field is emitted exactly when it is set and non-empty, with its own value |
| PublishModel.ToManifestEntry | scripts/publish_model.py:44-92 | a missing path fails with not-found, a directory with is-a-directory, and a regular file gives an entry with its id, path, local path, digest, size, format, view and uri |
| PublishModel.EntryJsonKeys | scripts/publish_model.py:78-92 | the entry object has the five mandatory keys with the entry's values, and each optional key exactly when the entry carries it |
| PublishModel.ParseResourceArg | scripts/publish_model.py:95-103 | an argument without `=` is rejected; otherwise the name is the stripped text before the first `=`, the path and format come from the rest, and there is no view |
| PublishModel.SpecOfRest | scripts/publish_model.py:99-103 | with formats allowed and a `:` present, the path is the text before the last `:` and the format the text after it; otherwise the whole rest is the path |
| PublishModel.ResourceArgRoundTrip | scripts/publish_model.py:95-103 | writing `name=path:format` and parsing it gives back the name, the resolved path and the format |
| PublishModel.ResourceArgWithoutFormat | scripts/publish_model.py:99-102 | without formats, everything after the first `=`, colons included, is the path |
| PublishModel.Entries | scripts/publish_model.py:121-128 | one entry per spec in input order when all are regular files; otherwise the error of the first spec that is not |
| PublishModel.BuildManifest | scripts/publish_model.py:106-167 | no models fails; success exactly when every listed path is a regular file; the lists describe their specs in order and the options are carried over |
| PublishModel.BuildManifestReportsFirstFailure | scripts/publish_model.py:121-147 | models are checked first, then preprocessing, then attribution, and the error is the first failing resource of the first failing list |
| PublishModel.EntriesJson | scripts/publish_model.py:154-156 | a resource list is a JSON array with one object per entry, in order |
| PublishModel.ManifestJsonMandatory | scripts/publish_model.py:149-157 | the manifest object always holds the run id, dataset version, training time and the three lists |
| PublishModel.ManifestJsonOptional | scripts/publish_model.py:158-165 | metrics, notes, base URL and schema version appear exactly when set, and no other key appears |
| PublishModel.IdsOfList | scripts/publish_model.py:78-80 | the ids of a written list are the identifiers of its specs, in order |
| PublishModel.ManifestListsFollowInput | scripts/publish_model.py:149-157 | every list of a built manifest names its resources in input order |
| Json.Objects | scripts/update_manifest.py:10-36 | a list of objects is an array of the same length holding each object |
| Json.ObjectsRoundTrip | scripts/update_manifest.py:10-36 | the objects read back from the array they were written as are the same objects, and an array of objects is rebuilt from them |
| UpdateManifest.PatchManifest | scripts/update_manifest.py:7-60 | a non-object document is rejected; otherwise `run_id`, `models` and `preprocessing` are set, every other key keeps its value, and no other key is added |
| UpdateManifest.PlaceholderJson | scripts/update_manifest.py:11-18 | a placeholder entry has digest `PLACEHOLDER` and size 0, its id and path, and a format only when it has one |
| UpdateManifest.ModelsJson | scripts/update_manifest.py:10-36 | the k-th model entry is the k-th export's id with its `model.onnx` path and format `onnx` |
| UpdateManifest.PreprocessingJson | scripts/update_manifest.py:37-59 | the k-th preprocessing entry is the k-th export's id plus `_preprocessing`, with its `preprocessing.json` path and no format |
| UpdateManifest.PatchedModels | scripts/update_manifest.py:10-36 | the patched `models` are three ONNX placeholders with the expected ids and paths |
| UpdateManifest.PatchedPreprocessing | scripts/update_manifest.py:36-59 | every patched entry is a placeholder, and each preprocessing entry pairs with the model at the same index |
| UpdateManifest.PairedIndex | scripts/update_manifest.py:10-59 | at each index the preprocessing id is the model id plus `_preprocessing`, in the same export directory |
| UpdateManifest.PatchTwice | scripts/update_manifest.py:7-60 | patching twice is patching once with the second run id |
| NotebookCatalog.ExtractDatasetVersion | pipelines/notebook_catalog.py:29-35 | `None` exactly for a missing or empty label or one without digits; otherwise the first maximal run of digits |
| NotebookCatalog.FirstDigitRunUnique | pipelines/notebook_catalog.py:32-34 | the first maximal digit run of a text is unique |
| NotebookCatalog.ExtractFindsDigitRun | pipelines/notebook_catalog.py:32-34 | a label of digit-free text, a digit run, then text not starting with a digit yields that run |
| NotebookCatalog.ResolveDatasetVersion | pipelines/notebook_catalog.py:137-152 | the explicit version first, then the label's digits, then the first non-empty fallback; never an empty version |
| NotebookCatalog.FirstNonEmpty | pipelines/notebook_catalog.py:148-151 | the first non-empty fallback, or `None` when all are empty |
| NotebookCatalog.ResolveNoneIff | pipelines/notebook_catalog.py:137-152 | resolution yields nothing exactly when nothing explicit is set, the label has no digits and every fallback is empty |
| NotebookCatalog.DictPut | pipelines/notebook_catalog.py:117 | assigning a key keeps the dictionary's key order, replaces the value of a present key in place, and appends a new key |
| NotebookCatalog.LoadModelSpec | pipelines/notebook_catalog.py:89-103 | a spec exactly for a directory with `metrics.json`, named after it, with its label, and its feature list or `[]` when that is not a list |
| NotebookCatalog.Child | pipelines/notebook_catalog.py:112-114 | the child of the run named `name`, or none when no child has that name |
| NotebookCatalog.DirNames | pipelines/notebook_catalog.py:110 | the names of exactly the sub-directories of the listing |
| NotebookCatalog.LoadModelsSpec | pipelines/notebook_catalog.py:109-117 | the loaded models are exactly the requested names that have a spec, each with that spec |
| NotebookCatalog.LoadRun | pipelines/notebook_catalog.py:106-118 | listing a run that is not a directory fails; otherwise the run is named after its directory and its model names are distinct |
| NotebookCatalog.LoadNotebookRun | pipelines/notebook_catalog.py:107-108 | a run directory that does not exist fails with not-found |
| NotebookCatalog.LoadedModels | pipelines/notebook_catalog.py:106-118 | the models are the given names (or, without names, the sub-directories) that have a spec, each with its own spec |
| NotebookCatalog.KnownVersions | pipelines/notebook_catalog.py:59-61 | the extractable dataset versions of the models, in model order |
| NotebookCatalog.DatasetVersionsSpec | pipelines/notebook_catalog.py:56-63 | the versions are distinct digit strings, exactly the models' versions, in order of first appearance |
| NotebookCatalog.FeatureColumns | pipelines/notebook_catalog.py:65-67 | one entry per model name, holding that model's feature list |
| NotebookCatalog.RequiredFeaturesSpec | pipelines/notebook_catalog.py:69-76 | every feature of every model exactly once, nothing else, in order of first appearance |
| NotebookCatalog.RunDirsOf | pipelines/notebook_catalog.py:79-84 | exactly the directories of the listing whose name starts with `run_` |
| NotebookCatalog.SortedRunDirs | pipelines/notebook_catalog.py:83-86 | a permutation of the `run_` directories, sorted by name, newest (greatest) first |
| NotebookCatalog.FirstWithModels | pipelines/notebook_catalog.py:128-134 | the first run, in the given order, that loads any model; none when no run does |
| NotebookCatalog.DiscoverLatestNotebookRun | pipelines/notebook_catalog.py:121-134 | none without a root; a root that is not a directory fails, as `iterdir` raises; otherwise the first run with models among the run directories sorted newest first |
| NotebookCatalog.DiscoveredIsNewestWithModels | pipelines/notebook_catalog.py:121-134 | the discovered run is a run directory with models, and no run directory with a later name has any |
| NotebookCatalog.DiscoveredNothing | pipelines/notebook_catalog.py:121-134 | when nothing is discovered in a directory, no run directory of it has a model |
| FeatureStore.NormalizeName | pipelines/feature_store.py:139-140 | the normalised name has no upper-case letter, no space at either end, and is no longer than the input |
| FeatureStore.NormalizeFixed | pipelines/feature_store.py:139-140 | a stripped lower-case name is its own normal form |
| FeatureStore.NormalizeIgnoresCase | pipelines/feature_store.py:139-140 | names that differ only in ASCII case have the same normal form |
| FeatureStore.NormalizeRecovers | pipelines/feature_store.py:139-140 | a stripped lower-case name with blanks around it normalises back to itself |
| FeatureStore.NormalizeIdempotent | pipelines/feature_store.py:139-140 | normalising twice is normalising once |
| FeatureStore.NormalizeIgnoresPadding | pipelines/feature_store.py:139-140 | surrounding whitespace does not change the normalised name |
| FeatureStore.FirstDigitToken | pipelines/feature_store.py:435-438 | the first all-digit token, or none when there is none |
| FeatureStore.GuessVersionFromName | pipelines/feature_store.py:434-438 | none exactly when no `_`-separated token is all digits; otherwise the first such token |
| FeatureStore.GuessMissesTemplateName | pipelines/feature_store.py:434-438 | the guess finds nothing in a name made from the dataset template, because its version token keeps the `.csv` |
| FeatureStore.GuessFindsDigitToken | pipelines/feature_store.py:434-438 | a name of non-digit tokens, a digit token, and more tokens yields that digit token |
| FeatureStore.GuessOfJoin | pipelines/feature_store.py:435 | splitting the `_`-join of `_`-free parts gives the parts back |
| FeatureStore.FileName | pipelines/feature_store.py:276 | the name is the part after the last `/`: a suffix of the path with no `/` |
| FeatureStore.ResolveStoreVersion | pipelines/feature_store.py:255-278 | the argument, the environment, the first model's label digits, the run's first version, the file-name token, then `7`, in that order of priority |
| FeatureStore.FallbacksNonEmpty | pipelines/feature_store.py:261-263 | the fallbacks are non-empty, so the first non-empty fallback is the first one |
| FeatureStore.GuessResolves | pipelines/feature_store.py:273-277 | resolving a digit token found in the file name gives that token back |
| FeatureStore.ModelFeatures | pipelines/feature_store.py:257-259 | the run's feature lists, model by model, or the built-in fallback lists without a run |
| FeatureStore.OpenStore | pipelines/feature_store.py:255-293 | the dataset path is the given path or the templated path of the resolved version; a missing file fails with not-found naming that path |
| FeatureStore.OpenStoreIn | pipelines/feature_store.py:255-258 | the store discovers the run of its three models: an experiments root that is not a directory fails first; a missing root gives the fallback feature lists; otherwise the lists of the first run with models, newest first |
| FeatureStore.OpenStoreUsesNewestRun | pipelines/feature_store.py:255-258 | with a run of its models present, the store takes the feature lists of the newest run directory that has models |
| FeatureStore.RequiredFeaturesSpec | pipelines/feature_store.py:328-336 | every model feature exactly once, nothing else, in order of first appearance |
| FeatureStore.FeatureLineage | pipelines/feature_store.py:338-350 | each required feature, in order, is direct when a baseline column, derived when a derived column only, unknown otherwise |
| FeatureStore.CacheGet | pipelines/feature_store.py:188-211 | a payload exactly when the key is stored with the same dataset time |
| FeatureStore.CacheSet | pipelines/feature_store.py:213-240 | the key maps to the new payload, and every other key is unchanged |
| FeatureStore.CacheGetAfterSet | pipelines/feature_store.py:188-240 | reading after writing gives the new payload for that key and time, nothing for another time, and the old answer for other keys |
| FeatureStore.CacheSetReplaces | pipelines/feature_store.py:226 | a second write to the same key replaces the first |
| FeatureStore.FeatureVector | pipelines/feature_store.py:394-408 | exactly the required features; a number passes through and a missing value becomes 0 |
| FeatureStore.RowKey | pipelines/feature_store.py:375 | the key is the dataset version with the normalised season and team names |
| FeatureStore.BuildFeaturesFromRow | pipelines/feature_store.py:371-425 | a non-empty cached vector for the same dataset time is returned; otherwise the vector is computed and stored under the row's key; the fixture keeps the row's raw names |
| FeatureStore.BuildAgainAgrees | pipelines/feature_store.py:371-425 | building the same row again against the updated cache gives the same fixture and cache |
| FeatureStore.FirstRow | pipelines/feature_store.py:353-369 | the index of the first matching row, or none when no row matches |
| Text.MaxString | pipelines/feature_store.py:313-318 | the greatest string of a non-empty list, and a member of it |
| FeatureStore.LatestSeason | pipelines/feature_store.py:312-326 | when some row has a non-empty season, the season of some row that no row's season exceeds; when every season is empty or there are no rows, `7` |
| FeatureStore.GetFixture | pipelines/feature_store.py:358-369 | an unset season means the latest one; the first row matching season and case-folded names is built, and no match fails naming the fixture |
| FeatureStore.GetFixtureById | pipelines/feature_store.py:352-356 | the row built is one with the id before which no row has it; no row with the id fails naming the id |
| FeatureStore.RecentGamesFrac | pipelines/feature_store.py:458-464 | the earlier games of the team, capped at the window, over the window: between 0 and 1, and 1 exactly from the window-th game on |
| FeatureStore.RecentGamesFractions | pipelines/feature_store.py:457-464 | the fraction of every row from the count of earlier rows with the same season and team |
| TeamCache.ReplaceRunsSpec | pipelines/team_cache.py:20 | the result uses only `[a-z0-9_]` without `__`, starts with `_` exactly when the text starts with another character, is empty only for empty text, and keeps every `[a-z0-9]` character in order |
| TeamCache.ReplaceRunsWord | pipelines/team_cache.py:20 | a word of `[a-z0-9]` characters is kept unchanged in front of the rest |
| TeamCache.ReplaceRunsRun | pipelines/team_cache.py:20 | a non-empty run of other characters before a word becomes exactly one `_` |
| TeamCache.Slugify | pipelines/team_cache.py:19-20 | a slug uses only `[a-z0-9_]`, has no `_` at either end, never two in a row, and is no longer than the name |
| TeamCache.SlugifyWords | pipelines/team_cache.py:19-20 | two lower-case words with blanks between them slugify to the words joined by one `_` |
| TeamCache.SlugifyIgnoresCase | pipelines/team_cache.py:19-20 | names that differ only in ASCII case have the same slug |
| TeamCache.SlugFixed | pipelines/team_cache.py:19-20 | a slug is its own slug |
| TeamCache.SlugifyIdempotent | pipelines/team_cache.py:19-20 | slugifying twice is slugifying once |
| TeamCache.KeepNameChars | pipelines/team_cache.py:24 | only letters and spaces remain |
| TeamCache.KeepNameCharsIdempotent | pipelines/team_cache.py:24 | removing the other characters twice is removing them once |
| TeamCache.ShortName | pipelines/team_cache.py:23-30 | at most three characters: without letters the first three characters upper-cased, otherwise the short name of the words |
| TeamCache.WordsShortName | pipelines/team_cache.py:27-30 | one word gives its first three letters upper-cased; several give the upper-cased initials of the first three |
| TeamCache.ShortNameLetters | pipelines/team_cache.py:23-30 | a name with letters has a non-empty short name of upper-case letters |
| TeamCache.ShortNameIgnoresOtherChars | pipelines/team_cache.py:24 | characters other than letters and spaces do not change a short name |
| TeamCache.LeagueTagChars | pipelines/team_cache.py:34 | a league tag uses only `[A-Z0-9_]` and has no `_` at either end |
| TeamCache.TeamCacheFileNameParts | pipelines/team_cache.py:33-35 | the cache file name splits at its last `_` into the league tag and the season with `.json` |
| TeamCache.TeamCachePathOfWords | pipelines/team_cache.py:33-35 | a league named by two words is cached at `understat_data/team_cache/<WORD1>_<WORD2>_<season>.json`, under the cache directory |
| TeamCache.Fixtures | pipelines/team_cache.py:46-49 | exactly the rows of the league and season |
| TeamCache.TeamNamesOf | pipelines/team_cache.py:53-55 | exactly the names that play at home or away in the rows |
| TeamCache.SortedTeamNamesSpec | pipelines/team_cache.py:53-55 | the roster names are sorted, distinct, and exactly the teams of the rows |
| TeamCache.RosterOf | pipelines/team_cache.py:56-67 | one entry per name, in order, with its slug and short name |
| TeamCache.EnsureTeamCache | pipelines/team_cache.py:38-69 | an existing cache is returned untouched; otherwise no fixtures fails, and fixtures give the roster of their sorted names |
| TeamCache.WrittenRoster | pipelines/team_cache.py:53-67 | a written roster lists each team of the league and season once, in sorted order, with its slug and short name |
| TeamCache.SeasonsOf | pipelines/team_cache.py:78-82 | exactly the seasons of the league's rows |
| TeamCache.LatestByLeague | pipelines/team_cache.py:78-82 | one pair per league in sorted order, with a season of that league that no row of the league exceeds |
| TeamCache.LatestSeasonOf | pipelines/team_cache.py:78-82 | a season the league plays that no row of the league exceeds |
| TeamCache.LeaguesPresent | pipelines/team_cache.py:80 | the grouped leagues are sorted, distinct, and exactly those of the rows |
| TeamCache.EnsureCaches | pipelines/team_cache.py:83-88 | every produced path is cached afterwards, earlier caches stay, and there is at most one path per pair |
| TeamCache.EnsureLatestTeamCaches | pipelines/team_cache.py:76-77 | without a league or season column nothing is produced and nothing is cached |
| TeamCache.EnsureTeamCacheSucceeds | pipelines/team_cache.py:42-51 | a league and season with fixtures never fails, and gives their cache path |
| TeamCache.EnsureCachesOfPresentPairs | pipelines/team_cache.py:83-88 | when every pair has fixtures, no pair is skipped: one path per pair, in order |
| TeamCache.LatestCachesPerLeague | pipelines/team_cache.py:72-88 | the produced paths are the caches of the leagues in sorted order, each for its greatest season |
| CleanLeagueResults.ComputeOutcome | cleanLeagueResults.py:35-40 | a home win exactly when the home side scored more, an away win exactly when it scored less, a draw exactly on equal goals |
| CleanLeagueResults.OutcomeSwap | cleanLeagueResults.py:35-40 | swapping the scores mirrors the outcome |
| CleanLeagueResults.OutcomeCode | cleanLeagueResults.py:106 | the code is `H`, `D` or `A` exactly for a home win, a draw or an away win |
| CleanLeagueResults.OutcomeCodeRoundTrip | cleanLeagueResults.py:106 | the code names its outcome again, and only the three codes name one |
| CleanLeagueResults.ResultFlags | cleanLeagueResults.py:161-163 | each flag is 0 or 1, and 1 exactly when the code is its letter |
| CleanLeagueResults.FlagsExactlyOne | cleanLeagueResults.py:159-163 | exactly one flag is set, the one of the outcome |
| CleanLeagueResults.ParseInt | cleanLeagueResults.py:100-112 | `int` succeeds exactly on an optionally signed run of digits after stripping, and fails naming the text otherwise |
| CleanLeagueResults.ParseShowInt | cleanLeagueResults.py:100-101 | the decimal text of every integer parses back to it |
| CleanLeagueResults.ParseNested | cleanLeagueResults.py:12-32 | a missing or blank value is `{}`, a mapping is kept, and other text goes to the literal parser stripped |
| CleanLeagueResults.BlankParsesEmpty | cleanLeagueResults.py:14-23 | a blank or missing value parses to `{}` |
| CleanLeagueResults.IntField | cleanLeagueResults.py:100-125 | an empty mapping or a missing key gives 0; otherwise `int` of the value, which fails on `None` as `int(None)` raises `TypeError` |
| CleanLeagueResults.ScoreOf | cleanLeagueResults.py:105-163 | the result columns: the goals, their total and difference, the outcome, its code and the flags of the code |
| CleanLeagueResults.ScoreConsistent | cleanLeagueResults.py:143-163 | the goals are recovered from total and difference, the outcome follows the sign of the difference, and exactly one flag is set |
| CleanLeagueResults.IsResult | cleanLeagueResults.py:124 | `is_result` needs an `isResult` cell holding four characters once stripped |
| CleanLeagueResults.IsResultIgnoresCaseAndPadding | cleanLeagueResults.py:124 | any ASCII casing of `true` with blanks around it is a result |
| CleanLeagueResults.IsResultUpperPadded | cleanLeagueResults.py:124 | `TRUE` padded with blanks is a result |
| CleanLeagueResults.IsResultRejects | cleanLeagueResults.py:124 | a missing cell, an empty cell and `false` are not results |
| CleanLeagueResults.TeamOf | cleanLeagueResults.py:125-142 | empty metadata gives empty team columns; otherwise it fails exactly when `id` holds `None` or text that is not an integer, naming the text, and the team carries `int` of its `id` (0 when missing), its title and its short title |
| CleanLeagueResults.GoalsOf | cleanLeagueResults.py:100-101 | empty goals metadata gives 0–0; otherwise the row fails exactly when one of the two goal values is not an integer, the home value's error first; the pair is the `h` value then the `a` value, a missing side counting 0 |
| CleanLeagueResults.GoalsOfWritten | cleanLeagueResults.py:100-101 | goals written as integer texts under `h` and `a` read back as (home, away) |
| CleanLeagueResults.FloatField | cleanLeagueResults.py:102-103 | `float()` of a metadata value fails exactly on `None` and on text it does not accept, naming the text; a missing key or empty metadata gives 0.0 |
| CleanLeagueResults.FloatsOf | cleanLeagueResults.py:150-158 | the conversions of the keys succeed exactly when each does, and otherwise fail with the first failing key's error |
| CleanLeagueResults.IdsOf | cleanLeagueResults.py:110-142 | `match_id` is `int` of the `id` text (0 when missing), `season` is `int` of its text or empty when the text is, and the teams are as TeamOf gives them; it fails exactly when one of these conversions raises, with the error of the first in the order match id, season, home team, away team |
| CleanLeagueResults.IdsOfWritten | cleanLeagueResults.py:110-142 | the decimal texts of a match id, a season and two team ids are read back as those integers |
| CleanLeagueResults.Convert | cleanLeagueResults.py:100-158 | a row's conversions fail exactly when a goal, xG, id or forecast conversion raises; otherwise they give the goals and ids of GoalsOf and IdsOf |
| CleanLeagueResults.CleanRow | cleanLeagueResults.py:87-165 | a row fails exactly when its conversions do, with their error; otherwise the score columns are those of the converted goals, and the ids, season, league and `is_result` follow the row; a kick-off time that parses once stripped gives the timestamp, date and time columns, and one that does not keeps the raw text with empty date and time |
| CleanLeagueResults.CleanRowStampPadding | cleanLeagueResults.py:95-121 | blanks around the kick-off time do not change the parsed timestamp columns; an unparsed time is kept with its blanks |
| CleanLeagueResults.CleanRowFails | cleanLeagueResults.py:100-158 | a row fails exactly when one of its `int()` or `float()` conversions raises |
| CleanLeagueResults.CleanRowEmptyGoals | cleanLeagueResults.py:100-101 | empty goals metadata is cleaned as 0–0 |
| CleanLeagueResults.BadXgFails | cleanLeagueResults.py:102-103 | a non-numeric xG text aborts a row whose goals convert, naming the text |
| CleanLeagueResults.NoneGoalsAbort | cleanLeagueResults.py:100-101 | goals metadata holding `None` for the home side (a fixture not yet played) aborts the row with the `TypeError` of `int(None)` |
| CleanLeagueResults.NoneXgAborts | cleanLeagueResults.py:102-103 | `None` under an xG key aborts a row whose goals convert |
| CleanLeagueResults.MissingGoalsIsDraw | cleanLeagueResults.py:100-163 | a row without goals is cleaned as a 0–0 draw with code `D` and only the draw flag |
| CleanLeagueResults.ProcessLeagueResults | cleanLeagueResults.py:43-165 | a missing input fails; otherwise one cleaned record per row in order, or the error of the first row that fails |
| LeagueResultsV2.OutcomePoints | analysis/build_league_results_v2.py:56-61 | three points for the home side on `H`, three for the away side on `A`, one each otherwise |
| LeagueResultsV2.OutcomePointsShare | analysis/build_league_results_v2.py:56-61 | a decided match shares 3 points and a draw 2, and swapping the winner swaps the points |
| LeagueResultsV2.AddTargets | analysis/build_league_results_v2.py:237-244 | an unmapped code fails; otherwise the label is the code, the id is 2, 1 or 0 exactly for `H`, `D` or `A`, and the points are three per win flag plus the draw flag |
| LeagueResultsV2.TargetsAgreeWithPoints | analysis/build_league_results_v2.py:237-244 | for every cleaned code the actual points of the targets agree with `outcome_points` |
| LeagueResultsV2.OutcomeIdOrders | analysis/build_league_results_v2.py:239-241 | the outcome id orders the outcomes from the home side's view: away win 0, draw 1, home win 2 |
| LeagueResultsV2.AddAllTargets | analysis/build_league_results_v2.py:237-244 | the frame succeeds exactly when every code is mapped, with the targets of each row |
| LeagueResultsV2.TeamView | analysis/build_league_results_v2.py:63-91 | two rows per match: the home rows of all matches, then their away rows |
| LeagueResultsV2.TeamViewMirrors | analysis/build_league_results_v2.py:66-94 | the two rows of a match swap goals for and against, have opposite goal differences, and share the match's points |
| LeagueResultsV2.PriorLength | analysis/build_league_results_v2.py:96 | a team's history before a row is as long as its count of earlier rows |
| LeagueResultsV2.LastBefore | analysis/build_league_results_v2.py:98-103 | the team's last earlier row, with no row of the team between it and the current one; none exactly when the team has no earlier row |
| LeagueResultsV2.MatchNumberIsHistoryLength | analysis/build_league_results_v2.py:96 | `match_number` is the length of the team's history, and 0 exactly at its first row |
| LeagueResultsV2.PriorWindowSums | analysis/build_league_results_v2.py:118-126 | the rolling feature of every row is the sum of the team's last `w` earlier values |
| LeagueResultsV2.SingleTeamPrior | analysis/build_league_results_v2.py:119-126 | for a single team the history is the table prefix |
| LeagueResultsV2.PointsPct | analysis/build_league_results_v2.py:133-138 | the window's points over three per window match; 0 when the team has no earlier match |
| LeagueResultsV2.PointsPctBounds | analysis/build_league_results_v2.py:133-136 | with points from `outcome_points` the points share lies between 0 and 1 |
| LeagueResultsV2.RestDays | analysis/build_league_results_v2.py:98-103 | the rest days are missing exactly at the team's first row |
| LeagueResultsV2.RestDaysPrevLagsTwo | analysis/build_league_results_v2.py:98-129 | shifting `rest_days` again gives the gap between the team's two previous matches, and 0 for its first two |
| LeagueResultsV2.RestNotNegative | analysis/build_league_results_v2.py:91-130 | in a table sorted by team and time no gap is negative, and the capped gap lies between 0 and 28 |
| LeagueResultsV2.RestCapped | analysis/build_league_results_v2.py:130 | the capped gap is the gap or 28, whichever is smaller |
| LeagueResultsV2.ResetImpliesCapped | analysis/build_league_results_v2.py:130-131 | a gap over 35 days is always capped at 28, and a gap up to 28 is kept |
| LeagueResultsV2.FeaturesAt | analysis/build_league_results_v2.py:107-139 | the match number is the team's earlier-row count and the previous rest is `rest_days_prev`; the reset flag holds exactly for a previous rest over 35 days, and such a row is capped; a team's first row has no form and a zero points share; its first two rows have no previous rest; the capped rest is the previous rest clipped at 28, the points and goal-difference sums are the team's last five earlier rows, and the points share divides the points by three times the match number clipped at five |
| LeagueResultsV2.WindowSumsAreFeatures | analysis/build_league_results_v2.py:119-126 | the one-pass sums are the rolling features each row receives |
| LeagueResultsV2.SeasonPhase | analysis/build_league_results_v2.py:195-200 | matches played over 38, between 0 and 1, and 1 exactly from 38 matches on |
| LeagueResultsV2.SeasonPhaseMonotone | analysis/build_league_results_v2.py:195-200 | more matches played never lowers the season phase |
| LeagueResultsV2.Pair | analysis/build_league_results_v2.py:177-200 | the played counts are the two match numbers; the form, form-share and rest differences are home minus away; the pair flag is set exactly when either side's is; each phase is SeasonPhase of its side's played count |
| LeagueResultsV2.PairOfRows | analysis/build_league_results_v2.py:177-200 | for a home and an away row of the long table, the form difference is the difference of their last-five points, the pair flag holds exactly when either previous rest exceeds 35 days, and the home phase is its played count over 38 up to a full season |
| LeagueResultsV2.PairSwap | analysis/build_league_results_v2.py:180-194 | swapping the sides negates every difference and keeps the pair flag |
| LeagueResultsV2.RestDiffBounded | analysis/build_league_results_v2.py:189-191 | with gaps in [0, 28] the rest difference lies in [-28, 28] |
| LeagueResultsV2.RemainingCols | analysis/build_league_results_v2.py:299 | exactly the frame's columns that are neither fixed nor performance columns, without duplicates |
| LeagueResultsV2.ReorderColumns | analysis/build_league_results_v2.py:247-301 | fails exactly when a fixed column is missing, naming only missing fixed columns; otherwise fixed, then performance, then remaining columns |
| LeagueResultsV2.PerfColsSpec | analysis/build_league_results_v2.py:290-298 | the performance columns are sorted and are exactly the frame's prefixed columns outside the base and result lists |
| LeagueResultsV2.MarketNotPerf | analysis/build_league_results_v2.py:279-298 | no market column has a performance prefix |
| LeagueResultsV2.FixedDistinct | analysis/build_league_results_v2.py:249-289 | the base, result and market columns are distinct |
| LeagueResultsV2.PerfNotFixed | analysis/build_league_results_v2.py:249-298 | no performance column is a fixed column |
| LeagueResultsV2.ReorderIsPermutation | analysis/build_league_results_v2.py:247-301 | for distinct frame columns the reordering is a permutation: every column exactly once |
| Text.StripBySpec | pipelines/feature_store.py:140 | `strip` removes exactly the leading and trailing whitespace |
| Text.SplitThenJoin | pipelines/feature_store.py:435 | joining the pieces of `split` with the separator gives the text back |
| Text.SortSpec | pipelines/team_cache.py:53 | `sorted` returns a sorted permutation of its input |
| Text.DedupSpec | pipelines/feature_store.py:331-335 | insertion-ordered de-duplication keeps each element once, in order of first appearance |

## Left out

- File and process I/O: reading and writing CSV and JSON, `mkdir`, `print`, logging, `argparse` and every `main`. The operations take and return values instead.
- SHA-256 and `stat` are the parameter `stat`. `Path.expanduser().resolve()` is the parameter `resolve`. A resolved path is its list of components.
- The wall clock is the parameter `now`. `os.getenv("FEATURE_DATASET_VERSION")` is the parameter `envVersion`. Directory listings are the given runs and children.
- `validate_manifest` (`jsonschema` validation against a schema file) is a foreign call and is not modelled.
- `json.dump(..., sort_keys=True)`: key order is not modelled, because a JSON object is a map.
- Character classes are ASCII only: `str.isspace`, `str.isdigit`, `str.lower`/`str.upper` and the letters of `short_name`. Unicode digits and case mappings are not modelled.
- CleanLeagueResults.ParseInt: `int()` also accepts `_` between digits and non-ASCII digits; the model rejects both.
- CleanLeagueResults.ParseNested: `ast.literal_eval` and its JSON fallback are the parameter `literalEval`, which returns a mapping whose values are integers, texts or `None`. A literal that is not a dict (Python would fail later on `.get`), and values of other types (floats, booleans, nested containers), are not modelled.
- CleanLeagueResults.CleanRow: `datetime.fromisoformat` and the rendering of the timestamp, date and time are the parameter `parseIso`. Which texts `float()` accepts is the parameter `floatOk`, so a row fails where `float()` raises; the values of the `float` columns (xG, forecasts, their rounding) and float-valued goals are left out, because the model has no floating point.
- The pandas loading of the version-1 table (`load_v1`: dtype conversion and row filtering) is not modelled.
- The sort of the long table by team and kick-off is not modelled: the table is taken in its sorted order, in which rows that tie keep their input order.
- The column naming of the rolling features, the `add_prefix` join in `pivot_features` and the `xg_*` rolling columns (floating point) are not modelled. The modelled integer columns stand for them.
- `add_market_features` is floating-point arithmetic (clipping, normalising, logs, entropy) and is not modelled.
- LeagueResultsV2.MatchNumberIsHistoryLength: `match_number` counts a team's rows across all seasons, as the code does, so `season_phase` saturates after 38 matches in total rather than per season.
- LeagueResultsV2.RestDaysPrevLagsTwo: `rest_days` is already a gap to the previous match and the code shifts it once more, so `rest_days_prev` is the gap before the previous match, with 0 for a team's first two matches. The model follows the code.
- The pandas feature engineering of the feature store (`_augment_dataframe`, `_prepare_smoothed_form`, `_prepare_shot_features`, `_prior_rolling_mean`, `_season_zscore`, `_smoothed_avg`, `export_fixture_features`) is floating-point work and is not modelled, except the recent-games fraction.
- FeatureStore.CacheGet: the cache compares dataset times for equality, while the code accepts a difference up to 1e-6. Times are reals here, not floats.
- FeatureStore.LatestSeason: for an empty dataset pandas' `.max()` is NaN, which is truthy, so the source returns NaN there; the model returns `7`, as it does for an empty greatest season. The code also converts seasons to `int` and back before taking the maximum, which drops leading zeros and padding; the model takes the maximum of the season texts as given.
- FeatureStore.RecentGamesFractions: the source sorts the table by `match_datetime_utc` before counting (pipelines/feature_store.py lines 302-303 and 455-456); the model takes the rows in the given order, which is assumed to be that sorted order.
- PublishModel.ComputeLocalPath: a resolved path is always absolute here, so a `--local-root` given as a relative path is not modelled. The source resolves only the option's default. With `--local-root .`, `relative_to` raises on the resolved artefact path, and the source falls back to the absolute path even in relative mode.
- FeatureStore.RecentGamesFrac: a window of 0 gives a division by zero, which is `None` here rather than NaN or infinity.
- FeatureStore.FileName: `Path.name` is the text after the last `/`, with no handling of `.` or `..` components and none of trailing slashes: `Path` drops a trailing `/` first, so `d/2024_x.csv/` has the name `2024_x.csv` where the model gives the empty text. The dataset path names a file, so it does not end with `/`.
- The unknown-feature warning of `_build_features_from_row` only logs; it is not modelled.
- TeamCache.EnsureTeamCache: writing the JSON file and creating the cache directory are not modelled. `existing` is the set of cache paths already on disk.
- `notebook_catalog.py`: a `metrics.json` with non-string feature names or a non-string label is not modelled. Reading `metrics.json` is I/O: a file that is not valid JSON, or whose top level is not an object, makes `discover` raise, and the parsed-metrics parameter cannot express that.
- Several lemmas follow from the definitions and the contracts of the members they mention, so Dafny proves them with little or no help: CleanLeagueResults.OutcomeSwap, OutcomeCodeRoundTrip, FlagsExactlyOne, BlankParsesEmpty, ScoreConsistent, IsResultRejects, CleanRowFails, BadXgFails; FeatureStore.NormalizeIdempotent, NormalizeFixed, CacheGetAfterSet, CacheSetReplaces; LeagueResultsV2.OutcomePointsShare, TargetsAgreeWithPoints, OutcomeIdOrders, TeamViewMirrors, RestNotNegative, ResetImpliesCapped, WindowSumsAreFeatures, SeasonPhaseMonotone, PairSwap, PairOfRows, RestDiffBounded; NotebookCatalog.ResolveNoneIff; PublishModel.EntryJsonKeys, BuildManifestReportsFirstFailure, ManifestJsonMandatory, ManifestJsonOptional, IdsOfList; TeamCache.EnsureTeamCacheSucceeds; UpdateManifest.PlaceholderJson, ModelsJson, PreprocessingJson, PatchedModels. They are kept because each states a promise of the source.

=== FILE: clean_league_results.dfy ===
/** The league-results cleaner (`cleanLeagueResults.py`): turns each raw
    Understat row into a cleaned record with goals, the match outcome, its
    one-letter code and the three result flags. Reading and writing the CSV
    files, the `float` fields (xG and forecasts) and the parsing of
    timestamps are left out or passed in. */
module CleanLeagueResults {
  import opened Wrappers
  import opened Text

  // ---------------------------------------------------------------------
  // Outcomes

  datatype Outcome = HomeWin | Draw | AwayWin

  /** `compute_outcome`: the result from the home side's point of view. */
  function ComputeOutcome(homeGoals: int, awayGoals: int): (r: Outcome)
    ensures r == HomeWin <==> homeGoals > awayGoals
    ensures r == AwayWin <==> homeGoals < awayGoals
    ensures r == Draw <==> homeGoals == awayGoals
  {
    if homeGoals > awayGoals then HomeWin
    else if homeGoals < awayGoals then AwayWin
    else Draw
  }

  /** The same match seen from the other side. */
  function Mirror(o: Outcome): Outcome {
    match o
    case HomeWin => AwayWin
    case AwayWin => HomeWin
    case Draw => Draw
  }

  /** Swapping the scores mirrors the outcome. */
  lemma OutcomeSwap(homeGoals: int, awayGoals: int)
    ensures ComputeOutcome(awayGoals, homeGoals) == Mirror(ComputeOutcome(homeGoals, awayGoals))
    ensures Mirror(Mirror(ComputeOutcome(homeGoals, awayGoals))) == ComputeOutcome(homeGoals, awayGoals)
  {
  }

  /** The text written to `match_outcome`. */
  function OutcomeLabel(o: Outcome): string {
    match o
    case HomeWin => "Home Win"
    case Draw => "Draw"
    case AwayWin => "Away Win"
  }

  /** The table that turns a label into `match_outcome_code`. */
  const CodeOfLabel: map<string, string> := map["Home Win" := "H", "Draw" := "D", "Away Win" := "A"]

  /** `match_outcome_code`: the label looked up in the code table. Every
      label is a key of the table, and the three codes are distinct. */
  function OutcomeCode(o: Outcome): (c: string)
    ensures c == "H" <==> o == HomeWin
    ensures c == "D" <==> o == Draw
    ensures c == "A" <==> o == AwayWin
  {
    assert OutcomeLabel(o) in CodeOfLabel;
    CodeOfLabel[OutcomeLabel(o)]
  }

  /** The reverse lookup: the outcome named by a code. */
  function OutcomeOfCode(c: string): Option<Outcome> {
    if c == "H" then Some(HomeWin)
    else if c == "D" then Some(Draw)
    else if c == "A" then Some(AwayWin)
    else None
  }

  /** The code names its outcome again, and only the three codes name one. */
  lemma OutcomeCodeRoundTrip(o: Outcome, c: string)
    ensures OutcomeOfCode(OutcomeCode(o)) == Some(o)
    ensures OutcomeOfCode(c).Some? ==> OutcomeCode(OutcomeOfCode(c).value) == c
  {
  }

  /** `home_win_flag`, `draw_flag`, `away_win_flag`: 1 where the code
      matches the flag's letter. */
  datatype Flags = Flags(homeWin: int, draw: int, awayWin: int)

  function ResultFlags(code: string): (f: Flags)
    ensures f.homeWin in {0, 1} && f.draw in {0, 1} && f.awayWin in {0, 1}
    ensures f.homeWin == 1 <==> code == "H"
    ensures f.draw == 1 <==> code == "D"
    ensures f.awayWin == 1 <==> code == "A"
  {
    Flags(if code == "H" then 1 else 0, if code == "D" then 1 else 0, if code == "A" then 1 else 0)
  }

  /** For every outcome exactly one flag is set, and it is the flag of the
      outcome's code. */
  lemma FlagsExactlyOne(o: Outcome)
    ensures var f := ResultFlags(OutcomeCode(o));
      && f.homeWin + f.draw + f.awayWin == 1
      && (f.homeWin == 1 <==> o == HomeWin)
      && (f.draw == 1 <==> o == Draw)
      && (f.awayWin == 1 <==> o == AwayWin)
  {
  }

  // ---------------------------------------------------------------------
  // Python's int() on text

  datatype CleanError =
    | InputNotFound
    | NotAnInteger(text: string)
    | NotAFloat(text: string)
    | NoneValue

  function DigitValue(c: char): nat
    requires IsDigit(c)
  {
    c as int - '0' as int
  }

  /** The value of a string of decimal digits. */
  function DigitsValue(s: string): nat
    requires AllDigits(s)
  {
    if s == [] then 0 else DigitsValue(s[..|s| - 1]) * 10 + DigitValue(s[|s| - 1])
  }

  /** Text `int()` accepts: an optional sign followed by digits. */
  predicate IsIntText(t: string) {
    || IsDigitString(t)
    || (t != [] && (t[0] == '-' || t[0] == '+') && IsDigitString(t[1..]))
  }

  /** `int(text)`: surrounding whitespace is ignored; anything else than an
      optionally signed run of digits raises. */
  function ParseInt(text: string): (r: Result<int, CleanError>)
    ensures r.Success? <==> IsIntText(Strip(text))
    ensures r.Failure? ==> r.error == NotAnInteger(text)
    ensures r.Success? && IsDigitString(Strip(text)) ==> r.value >= 0
  {
    var t := Strip(text);
    if IsDigitString(t) then Success(DigitsValue(t))
    else if t != [] && (t[0] == '-' || t[0] == '+') && IsDigitString(t[1..]) then
      var v: int := DigitsValue(t[1..]);
      Success(if t[0] == '-' then -v else v)
    else Failure(NotAnInteger(text))
  }

  function DigitChar(d: nat): (c: char)
    requires d < 10
    ensures IsDigit(c) && DigitValue(c) == d
  {
    ('0' as int + d) as char
  }

  /** `str(n)` for a natural number. */
  function ShowNat(n: nat): (s: string)
    ensures IsDigitString(s)
  {
    if n < 10 then [DigitChar(n)] else ShowNat(n / 10) + [DigitChar(n % 10)]
  }

  /** `str(n)`. */
  function ShowInt(n: int): string {
    if n < 0 then "-" + ShowNat(-n) else ShowNat(n)
  }

  lemma {:induction false} DigitsOfShowNat(n: nat)
    ensures DigitsValue(ShowNat(n)) == n
  {
    if n >= 10 {
      var s := ShowNat(n);
      assert s[..|s| - 1] == ShowNat(n / 10);
      DigitsOfShowNat(n / 10);
    }
  }

  /** `int(str(n)) == n`: the integers the cleaner writes read back as the
      same integers. */
  lemma ParseShowInt(n: int)
    ensures ParseInt(ShowInt(n)) == Success(n)
  {
    var s := ShowInt(n);
    var digits := ShowNat(if n < 0 then -n else n);
    DigitsOfShowNat(if n < 0 then -n else n);
    assert !IsSpace(s[0]) && !IsSpace(s[|s| - 1]) by {
      assert s[|s| - 1] == digits[|digits| - 1];
    }
    StripByUnpadded(s, IsSpace);
    if n < 0 {
      assert s[1..] == digits;
      assert !IsDigit(s[0]);
    }
  }

  // ---------------------------------------------------------------------
  // Nested metadata

  /** A value of a nested metadata dictionary: Understat stores numbers as
      text, but `int()` also accepts an integer; `Null` is Python's `None`,
      which a fixture not yet played carries as its goals and xG. */
  datatype Scalar = Int(i: int) | Str(s: string) | Null

  type Nested = map<string, Scalar>

  /** A cell as `parse_nested` receives it. */
  datatype Cell = Missing | Literal(text: string) | Mapping(fields: Nested)

  /** `parse_nested`. What `ast.literal_eval` and its JSON fallback make of
      non-blank text is the parameter `literalEval`. */
  function ParseNested(value: Cell, literalEval: string -> Nested): (r: Nested)
    ensures value.Missing? ==> r == map[]
    ensures value.Mapping? ==> r == value.fields
    ensures value.Literal? ==> (Strip(value.text) == [] ==> r == map[])
    ensures value.Literal? && Strip(value.text) != [] ==> r == literalEval(Strip(value.text))
  {
    match value
    case Missing => map[]
    case Mapping(fields) => fields
    case Literal(text) =>
      var t := Strip(text);
      if t == [] then map[] else literalEval(t)
  }

  /** Text made only of whitespace strips to nothing. */
  lemma {:induction false} BlankStripsToEmpty(s: string)
    requires forall i :: 0 <= i < |s| ==> IsSpace(s[i])
    ensures Strip(s) == []
  {
    if s != [] {
      BlankStripsToEmpty(s[1..]);
      assert DropWhile(s, IsSpace) == DropWhile(s[1..], IsSpace);
    }
  }

  /** `None`, `""` and whitespace-only text all parse to the empty dict,
      whatever the literal parser does. */
  lemma BlankParsesEmpty(s: string, literalEval: string -> Nested)
    requires forall i :: 0 <= i < |s| ==> IsSpace(s[i])
    ensures ParseNested(Literal(s), literalEval) == map[]
    ensures ParseNested(Missing, literalEval) == map[]
  {
    BlankStripsToEmpty(s);
  }

  /** `int(value)`: `int(None)` raises `TypeError`. */
  function IntOf(x: Scalar): (r: Result<int, CleanError>)
    ensures x.Int? ==> r == Success(x.i)
    ensures x.Str? ==> r == ParseInt(x.s)
    ensures x.Null? ==> r == Failure(NoneValue)
  {
    match x
    case Int(i) => Success(i)
    case Str(s) => ParseInt(s)
    case Null => Failure(NoneValue)
  }

  /** `int(meta.get(key, 0)) if meta else 0`. */
  function IntField(meta: Nested, key: string): (r: Result<int, CleanError>)
    ensures meta == map[] || key !in meta ==> r == Success(0)
    ensures meta != map[] && key in meta ==> r == IntOf(meta[key])
  {
    if meta == map[] then Success(0)
    else if key in meta then IntOf(meta[key])
    else Success(0)
  }

  /** `meta.get(key, "")`. */
  function TextField(meta: Nested, key: string): Scalar {
    if key in meta then meta[key] else Str("")
  }

  // ---------------------------------------------------------------------
  // One row

  /** A row of the raw CSV: the columns it has, by header. */
  type RawRow = map<string, string>

  /** `row.get(key)`. */
  function Get(row: RawRow, key: string): Cell {
    if key in row then Literal(row[key]) else Missing
  }

  /** `row.get(key, "")`. */
  function GetText(row: RawRow, key: string): string {
    if key in row then row[key] else ""
  }

  /** The parsed nested cells of a row: `h`, `a`, `goals`, `xG` and
      `forecast`. */
  function MetaOf(row: RawRow, column: string, literalEval: string -> Nested): Nested {
    ParseNested(Get(row, column), literalEval)
  }

  /** What `datetime.fromisoformat` yields, rendered: the timestamp with a
      space separator, the date and the time. */
  datatype Stamp = Stamp(dateTime: string, date: string, time: string)

  /** A team's id, title and short title, present when its metadata is. */
  datatype TeamMeta = TeamMeta(id: int, name: Scalar, short: Scalar)

  /** The result columns: goals, their total and difference, the outcome
      label and code, and the three flags. */
  datatype Score = Score(
    homeGoals: int,
    awayGoals: int,
    totalGoals: int,
    goalDifference: int,
    outcome: string,
    outcomeCode: string,
    flags: Flags)

  datatype Cleaned = Cleaned(
    matchId: int,
    league: string,
    season: Option<int>,
    matchDateTimeUtc: string,
    matchDate: string,
    matchTime: string,
    isResult: bool,
    home: Option<TeamMeta>,
    away: Option<TeamMeta>,
    score: Score)

  /** The result columns of a match with the given goals. */
  function ScoreOf(homeGoals: int, awayGoals: int): (s: Score)
    ensures s.homeGoals == homeGoals && s.awayGoals == awayGoals
    ensures s.totalGoals == homeGoals + awayGoals
    ensures s.goalDifference == homeGoals - awayGoals
    ensures s.outcome == OutcomeLabel(ComputeOutcome(homeGoals, awayGoals))
    ensures s.outcomeCode == OutcomeCode(ComputeOutcome(homeGoals, awayGoals))
    ensures s.flags == ResultFlags(s.outcomeCode)
  {
    var outcome := ComputeOutcome(homeGoals, awayGoals);
    var code := OutcomeCode(outcome);
    Score(homeGoals, awayGoals, homeGoals + awayGoals, homeGoals - awayGoals, OutcomeLabel(outcome), code, ResultFlags(code))
  }

  /** The goals can be read back from the total and the difference, the
      sign of the difference decides the outcome, and exactly one flag is
      set. */
  lemma ScoreConsistent(homeGoals: int, awayGoals: int)
    ensures var s := ScoreOf(homeGoals, awayGoals);
      && (s.totalGoals + s.goalDifference) % 2 == 0
      && s.homeGoals == (s.totalGoals + s.goalDifference) / 2
      && s.awayGoals == (s.totalGoals - s.goalDifference) / 2
      && (s.outcome == "Home Win" <==> s.goalDifference > 0)
      && (s.outcome == "Away Win" <==> s.goalDifference < 0)
      && (s.outcome == "Draw" <==> s.goalDifference == 0)
      && s.flags.homeWin + s.flags.draw + s.flags.awayWin == 1
  {
    var s := ScoreOf(homeGoals, awayGoals);
    assert s.totalGoals + s.goalDifference == 2 * homeGoals;
    assert s.totalGoals - s.goalDifference == 2 * awayGoals;
    FlagsExactlyOne(ComputeOutcome(homeGoals, awayGoals));
  }

  /** `row.get("isResult", "").strip().lower() == "true"`. */
  function IsResult(row: RawRow): (b: bool)
    ensures b <==> Lower(Strip(GetText(row, "isResult"))) == "true"
    ensures b ==> "isResult" in row && |Strip(row["isResult"])| == 4
  {
    Lower(Strip(GetText(row, "isResult"))) == "true"
  }

  /** Understat writes `true`; blanks around it and the ASCII case of its
      letters do not matter. */
  lemma IsResultIgnoresCaseAndPadding(pre: string, t: string, post: string, row: RawRow)
    requires forall i :: 0 <= i < |pre| ==> IsSpace(pre[i])
    requires forall i :: 0 <= i < |post| ==> IsSpace(post[i])
    requires Lower(t) == "true"
    requires "isResult" in row && row["isResult"] == pre + t + post
    ensures IsResult(row)
  {
    var s := pre + t + post;
    StripIgnoresPadding(pre, t, post);
    LowerKeepsSpaces(t);
    assert !IsSpace(Lower(t)[0]) && !IsSpace(Lower(t)[3]);
    StripByUnpadded(t, IsSpace);
    assert Strip(GetText(row, "isResult")) == t;
  }

  /** `TRUE` with blanks around it is a result. */
  lemma IsResultUpperPadded(pre: string, post: string)
    requires forall i :: 0 <= i < |pre| ==> IsSpace(pre[i])
    requires forall i :: 0 <= i < |post| ==> IsSpace(post[i])
    ensures IsResult(map["isResult" := pre + "TRUE" + post])
  {
    IsResultIgnoresCaseAndPadding(pre, "TRUE", post, map["isResult" := pre + "TRUE" + post]);
  }

  /** A missing column, an empty cell and `false` are not results. */
  lemma IsResultRejects()
    ensures !IsResult(map[])
    ensures !IsResult(map["isResult" := ""])
    ensures !IsResult(map["isResult" := "false"])
  {
    StripByUnpadded("false", IsSpace);
  }

  /** `int(meta.get("id", 0))` fails exactly on `None` and on text that is
      not an optionally signed run of digits. */
  predicate BadIntField(meta: Nested, key: string) {
    key in meta && (meta[key].Null? || (meta[key].Str? && !IsIntText(Strip(meta[key].s))))
  }

  /** The id, title and short title of a team, or `None` (written as empty
      cells) when its metadata is empty. */
  function TeamOf(meta: Nested): (r: Result<Option<TeamMeta>, CleanError>)
    ensures meta == map[] ==> r == Success(None)
    ensures meta != map[] ==> (r.Failure? <==> BadIntField(meta, "id"))
    ensures r.Failure? ==> r.error == (if meta["id"].Null? then NoneValue else NotAnInteger(meta["id"].s))
    ensures meta != map[] && r.Success? ==>
              && r.value.Some?
              && r.value.value.id == (if "id" in meta then IntOf(meta["id"]).value else 0)
              && r.value.value.name == TextField(meta, "title")
              && r.value.value.short == TextField(meta, "short_title")
  {
    if meta == map[] then Success(None)
    else
      var id :- IntField(meta, "id");
      Success(Some(TeamMeta(id, TextField(meta, "title"), TextField(meta, "short_title"))))
  }

  /** `home_goals` and `away_goals`: both 0 when the goals metadata is
      empty, a missing side counting 0. */
  function GoalsOf(goalsMeta: Nested): (r: Result<(int, int), CleanError>)
    ensures goalsMeta == map[] ==> r == Success((0, 0))
    ensures r.Success? <==> IntField(goalsMeta, "h").Success? && IntField(goalsMeta, "a").Success?
    ensures r.Success? ==> r.value == (IntField(goalsMeta, "h").value, IntField(goalsMeta, "a").value)
    ensures IntField(goalsMeta, "h").Failure? ==> r == Failure(IntField(goalsMeta, "h").error)
    ensures r.Success? && "h" !in goalsMeta ==> r.value.0 == 0
    ensures r.Success? && "a" !in goalsMeta ==> r.value.1 == 0
  {
    var home :- IntField(goalsMeta, "h");
    var away :- IntField(goalsMeta, "a");
    Success((home, away))
  }

  /** `float(meta.get(key, 0.0)) if meta else 0.0`, as far as it can fail:
      on `None` and on text `float()` rejects. Which texts `float()`
      accepts is the parameter `floatOk`; the floating-point value itself is
      not modelled. */
  function FloatField(meta: Nested, key: string, floatOk: string -> bool): (r: Result<(), CleanError>)
    ensures r.Failure? <==> key in meta && (meta[key].Null? || (meta[key].Str? && !floatOk(meta[key].s)))
    ensures r.Failure? && meta[key].Str? ==> r.error == NotAFloat(meta[key].s)
    ensures r.Failure? && meta[key].Null? ==> r.error == NoneValue
  {
    if key !in meta then Success(())
    else
      match meta[key]
      case Int(_) => Success(())
      case Str(s) => if floatOk(s) then Success(()) else Failure(NotAFloat(s))
      case Null => Failure(NoneValue)
  }

  /** The `float()` conversions of `keys` in order: the first that raises
      aborts the row. */
  function FloatsOf(meta: Nested, keys: seq<string>, floatOk: string -> bool): (r: Result<(), CleanError>)
    ensures r.Success? <==> forall k :: 0 <= k < |keys| ==> FloatField(meta, keys[k], floatOk).Success?
    ensures r.Failure? ==> exists k :: 0 <= k < |keys| && FloatField(meta, keys[k], floatOk) == Failure(r.error)
                                        && forall j :: 0 <= j < k ==> FloatField(meta, keys[j], floatOk).Success?
  {
    if keys == [] then Success(())
    else
      var _ :- FloatField(meta, keys[0], floatOk);
      var r := FloatsOf(meta, keys[1..], floatOk);
      if r.Failure? then
        var k :| 0 <= k < |keys[1..]| && FloatField(meta, keys[1..][k], floatOk) == Failure(r.error)
                 && forall j :: 0 <= j < k ==> FloatField(meta, keys[1..][j], floatOk).Success?;
        assert keys[k + 1] == keys[1..][k];
        assert forall j :: 0 <= j < k + 1 ==> FloatField(meta, keys[j], floatOk).Success? by {
          forall j | 0 <= j < k + 1 ensures FloatField(meta, keys[j], floatOk).Success? {
            if j > 0 { assert keys[j] == keys[1..][j - 1]; }
          }
        }
        r
      else
        assert forall k :: 0 <= k < |keys| ==> FloatField(meta, keys[k], floatOk).Success? by {
          forall k | 0 <= k < |keys| ensures FloatField(meta, keys[k], floatOk).Success? {
            if k > 0 { assert keys[k] == keys[1..][k - 1]; }
          }
        }
        r
  }

  /** The xG and forecast keys, in the order the row reads them. */
  const XgKeys: seq<string> := ["h", "a"]
  const ForecastKeys: seq<string> := ["w", "d", "l"]

  /** The integer columns the output dict converts after the goals, in its
      order: `match_id`, `season` (empty when the cell is), then the two
      teams' ids. */
  datatype Ids = Ids(matchId: int, season: Option<int>, home: Option<TeamMeta>, away: Option<TeamMeta>)

  /** `match_id` is `int(row.get("id", 0))`: present text must parse. */
  predicate IdOk(row: RawRow) {
    "id" !in row || IsIntText(Strip(row["id"]))
  }

  /** `season` is only converted when its text is not empty. */
  predicate SeasonOk(row: RawRow) {
    GetText(row, "Season") == "" || IsIntText(Strip(row["Season"]))
  }

  function IdsOf(row: RawRow, homeMeta: Nested, awayMeta: Nested): (r: Result<Ids, CleanError>)
    ensures r.Success? <==> IdOk(row) && SeasonOk(row) && TeamOf(homeMeta).Success? && TeamOf(awayMeta).Success?
    ensures !IdOk(row) ==> r == Failure(NotAnInteger(row["id"]))
    ensures IdOk(row) && !SeasonOk(row) ==> r == Failure(NotAnInteger(row["Season"]))
    ensures IdOk(row) && SeasonOk(row) && TeamOf(homeMeta).Failure? ==> r == Failure(TeamOf(homeMeta).error)
    ensures IdOk(row) && SeasonOk(row) && TeamOf(homeMeta).Success? && TeamOf(awayMeta).Failure? ==>
              r == Failure(TeamOf(awayMeta).error)
    ensures r.Success? ==> r.value.matchId == (if "id" in row then ParseInt(row["id"]).value else 0)
    ensures r.Success? ==> r.value.season == (if GetText(row, "Season") == "" then None
                                             else Some(ParseInt(row["Season"]).value))
    ensures r.Success? ==> r.value.home == TeamOf(homeMeta).value && r.value.away == TeamOf(awayMeta).value
  {
    var matchId :- if "id" in row then ParseInt(row["id"]) else Success(0);
    var season :- if GetText(row, "Season") != "" then
                    var s :- ParseInt(row["Season"]); Success(Some(s))
                  else Success(None);
    var home :- TeamOf(homeMeta);
    var away :- TeamOf(awayMeta);
    Success(Ids(matchId, season, home, away))
  }

  /** The integers the scraper wrote as text are read back as the same
      integers: the match id, the season and the teams' ids. */
  lemma IdsOfWritten(row: RawRow, m: int, s: int, homeMeta: Nested, h: int, awayMeta: Nested, a: int)
    requires "id" in row && row["id"] == ShowInt(m)
    requires "Season" in row && row["Season"] == ShowInt(s)
    requires "id" in homeMeta && homeMeta["id"] == Str(ShowInt(h))
    requires "id" in awayMeta && awayMeta["id"] == Str(ShowInt(a))
    ensures IdsOf(row, homeMeta, awayMeta).Success?
    ensures var ids := IdsOf(row, homeMeta, awayMeta).value;
      && ids.matchId == m && ids.season == Some(s)
      && ids.home.Some? && ids.home.value.id == h
      && ids.away.Some? && ids.away.value.id == a
  {
    ParseShowInt(m);
    ParseShowInt(s);
    ParseShowInt(h);
    ParseShowInt(a);
    assert GetText(row, "Season") != "" by {
      assert |ShowNat(if s < 0 then -s else s)| > 0;
    }
  }

  /** Goals written as `ShowInt` texts read back as the home and away
      goals, in that order. */
  lemma GoalsOfWritten(goalsMeta: Nested, h: int, a: int)
    requires "h" in goalsMeta && goalsMeta["h"] == Str(ShowInt(h))
    requires "a" in goalsMeta && goalsMeta["a"] == Str(ShowInt(a))
    ensures GoalsOf(goalsMeta) == Success((h, a))
  {
    ParseShowInt(h);
    ParseShowInt(a);
  }

  /** The conversions of one row in the source's order: the goals, the xG
      values, the output dict's integer columns, then the forecast values;
      the first `int()` or `float()` that raises aborts the row. */
  function Convert(row: RawRow, literalEval: string -> Nested, floatOk: string -> bool)
    : (r: Result<((int, int), Ids), CleanError>)
    ensures r.Failure? <==> || GoalsOf(MetaOf(row, "goals", literalEval)).Failure?
                            || FloatsOf(MetaOf(row, "xG", literalEval), XgKeys, floatOk).Failure?
                            || IdsOf(row, MetaOf(row, "h", literalEval), MetaOf(row, "a", literalEval)).Failure?
                            || FloatsOf(MetaOf(row, "forecast", literalEval), ForecastKeys, floatOk).Failure?
    ensures r.Success? ==> GoalsOf(MetaOf(row, "goals", literalEval)) == Success(r.value.0)
    ensures r.Success? ==> IdsOf(row, MetaOf(row, "h", literalEval), MetaOf(row, "a", literalEval)) == Success(r.value.1)
  {
    var goals :- GoalsOf(MetaOf(row, "goals", literalEval));
    var _ :- FloatsOf(MetaOf(row, "xG", literalEval), XgKeys, floatOk);
    var ids :- IdsOf(row, MetaOf(row, "h", literalEval), MetaOf(row, "a", literalEval));
    var _ :- FloatsOf(MetaOf(row, "forecast", literalEval), ForecastKeys, floatOk);
    Success((goals, ids))
  }

  /** One iteration of `process_league_results`: the row's conversions,
      then the record. The timestamp columns fall back to the raw text (and
      empty date and time) when the timestamp does not parse. */
  function CleanRow(row: RawRow, literalEval: string -> Nested, parseIso: string -> Option<Stamp>,
                    floatOk: string -> bool)
    : (r: Result<Cleaned, CleanError>)
    ensures r.Failure? <==> Convert(row, literalEval, floatOk).Failure?
    ensures r.Failure? ==> r.error == Convert(row, literalEval, floatOk).error
    ensures r.Success? ==> r.value.score == ScoreOf(r.value.score.homeGoals, r.value.score.awayGoals)
    ensures r.Success? ==> Convert(row, literalEval, floatOk).value
                           == ((r.value.score.homeGoals, r.value.score.awayGoals),
                               Ids(r.value.matchId, r.value.season, r.value.home, r.value.away))
    ensures r.Success? ==> r.value.isResult == IsResult(row) && r.value.league == GetText(row, "League")
    ensures r.Success? && parseIso(Strip(GetText(row, "datetime"))).Some? ==>
      var stamp := parseIso(Strip(GetText(row, "datetime"))).value;
      && r.value.matchDateTimeUtc == stamp.dateTime
      && r.value.matchDate == stamp.date
      && r.value.matchTime == stamp.time
    ensures r.Success? && parseIso(Strip(GetText(row, "datetime"))).None? ==>
      && r.value.matchDateTimeUtc == GetText(row, "datetime")
      && r.value.matchDate == ""
      && r.value.matchTime == ""
  {
    var c :- Convert(row, literalEval, floatOk);
    var (goals, ids) := c;
    var raw := GetText(row, "datetime");
    var stamp := parseIso(Strip(raw));
    Success(Cleaned(
      ids.matchId,
      GetText(row, "League"),
      ids.season,
      if stamp.Some? then stamp.value.dateTime else raw,
      if stamp.Some? then stamp.value.date else "",
      if stamp.Some? then stamp.value.time else "",
      IsResult(row),
      ids.home,
      ids.away,
      ScoreOf(goals.0, goals.1)))
  }

  /** Blanks around a kick-off time do not change the parsed timestamp
      columns; a time that does not parse is kept with its blanks. */
  lemma CleanRowStampPadding(row: RawRow, literalEval: string -> Nested, parseIso: string -> Option<Stamp>,
                             floatOk: string -> bool, pre: string, t: string, post: string)
    requires "datetime" in row && row["datetime"] == pre + t + post
    requires forall i :: 0 <= i < |pre| ==> IsSpace(pre[i])
    requires forall i :: 0 <= i < |post| ==> IsSpace(post[i])
    ensures var r := CleanRow(row, literalEval, parseIso, floatOk);
      r.Success? && parseIso(Strip(t)).Some? ==>
        && r.value.matchDateTimeUtc == parseIso(Strip(t)).value.dateTime
        && r.value.matchDate == parseIso(Strip(t)).value.date
        && r.value.matchTime == parseIso(Strip(t)).value.time
    ensures var r := CleanRow(row, literalEval, parseIso, floatOk);
      r.Success? && parseIso(Strip(t)).None? ==> r.value.matchDateTimeUtc == pre + t + post
  {
    StripIgnoresPadding(pre, t, post);
  }

  /** A row fails exactly when one of its `int()` or `float()`
      conversions raises. */
  lemma CleanRowFails(row: RawRow, literalEval: string -> Nested, parseIso: string -> Option<Stamp>,
                      floatOk: string -> bool)
    ensures CleanRow(row, literalEval, parseIso, floatOk).Failure? <==>
              || GoalsOf(MetaOf(row, "goals", literalEval)).Failure?
              || FloatsOf(MetaOf(row, "xG", literalEval), XgKeys, floatOk).Failure?
              || IdsOf(row, MetaOf(row, "h", literalEval), MetaOf(row, "a", literalEval)).Failure?
              || FloatsOf(MetaOf(row, "forecast", literalEval), ForecastKeys, floatOk).Failure?
  {
    assert CleanRow(row, literalEval, parseIso, floatOk).Failure? <==> Convert(row, literalEval, floatOk).Failure?;
  }

  /** Empty goals metadata is cleaned as 0–0 when the row succeeds. */
  lemma CleanRowEmptyGoals(row: RawRow, literalEval: string -> Nested, parseIso: string -> Option<Stamp>,
                           floatOk: string -> bool)
    requires MetaOf(row, "goals", literalEval) == map[]
    requires CleanRow(row, literalEval, parseIso, floatOk).Success?
    ensures CleanRow(row, literalEval, parseIso, floatOk).value.score.homeGoals == 0
    ensures CleanRow(row, literalEval, parseIso, floatOk).value.score.awayGoals == 0
  {
  }

  /** Non-numeric xG text aborts the row even when the goals and ids are
      fine, as `float()` raises. */
  lemma BadXgFails(row: RawRow, literalEval: string -> Nested, parseIso: string -> Option<Stamp>,
                   floatOk: string -> bool)
    requires "h" in MetaOf(row, "xG", literalEval)
    requires MetaOf(row, "xG", literalEval)["h"].Str?
    requires !floatOk(MetaOf(row, "xG", literalEval)["h"].s)
    requires GoalsOf(MetaOf(row, "goals", literalEval)).Success?
    ensures CleanRow(row, literalEval, parseIso, floatOk)
            == Failure(NotAFloat(MetaOf(row, "xG", literalEval)["h"].s))
  {
    var xg := MetaOf(row, "xG", literalEval);
    assert FloatField(xg, XgKeys[0], floatOk).Failure?;
  }

  /** A fixture not yet played, whose goals metadata holds `None` for a
      side, aborts the run with `TypeError`: the goals are converted first. */
  lemma NoneGoalsAbort(row: RawRow, literalEval: string -> Nested, parseIso: string -> Option<Stamp>,
                       floatOk: string -> bool)
    requires "h" in MetaOf(row, "goals", literalEval) && MetaOf(row, "goals", literalEval)["h"] == Null
    ensures CleanRow(row, literalEval, parseIso, floatOk) == Failure(NoneValue)
  {
    var goals := MetaOf(row, "goals", literalEval);
    assert IntField(goals, "h") == Failure(NoneValue);
    assert GoalsOf(goals) == Failure(NoneValue);
  }

  /** `None` under either xG key aborts a row whose goals convert. */
  lemma NoneXgAborts(row: RawRow, literalEval: string -> Nested, parseIso: string -> Option<Stamp>,
                     floatOk: string -> bool, key: string)
    requires key in XgKeys
    requires key in MetaOf(row, "xG", literalEval) && MetaOf(row, "xG", literalEval)[key] == Null
    requires GoalsOf(MetaOf(row, "goals", literalEval)).Success?
    ensures CleanRow(row, literalEval, parseIso, floatOk).Failure?
  {
    var xg := MetaOf(row, "xG", literalEval);
    var k :| 0 <= k < |XgKeys| && XgKeys[k] == key;
    assert FloatField(xg, XgKeys[k], floatOk).Failure?;
  }

  /** A row without goals metadata (no `goals` column, or blank text) is
      cleaned as a goalless draw. */
  lemma MissingGoalsIsDraw(row: RawRow, literalEval: string -> Nested, parseIso: string -> Option<Stamp>,
                           floatOk: string -> bool)
    requires "goals" !in row || forall i :: 0 <= i < |row["goals"]| ==> IsSpace(row["goals"][i])
    requires CleanRow(row, literalEval, parseIso, floatOk).Success?
    ensures CleanRow(row, literalEval, parseIso, floatOk).value.score == Score(0, 0, 0, 0, "Draw", "D", Flags(0, 1, 0))
  {
    if "goals" in row {
      BlankStripsToEmpty(row["goals"]);
    }
  }

  /** `process_league_results`: a missing input file raises; otherwise every
      row is cleaned in order, and the first row that raises aborts the run
      with its error. */
  function ProcessLeagueResults(inputExists: bool, rows: seq<RawRow>, literalEval: string -> Nested,
                                parseIso: string -> Option<Stamp>, floatOk: string -> bool)
    : (r: Result<seq<Cleaned>, CleanError>)
    ensures !inputExists ==> r == Failure(InputNotFound)
    ensures inputExists && r.Success? ==>
              |r.value| == |rows| && forall k :: 0 <= k < |rows| ==> CleanRow(rows[k], literalEval, parseIso, floatOk) == Success(r.value[k])
    ensures inputExists && r.Failure? ==>
              exists k :: 0 <= k < |rows| && CleanRow(rows[k], literalEval, parseIso, floatOk) == Failure(r.error)
                          && forall j :: 0 <= j < k ==> CleanRow(rows[j], literalEval, parseIso, floatOk).Success?
  {
    if !inputExists then Failure(InputNotFound)
    else MapAll(rows, (row: RawRow) => CleanRow(row, literalEval, parseIso, floatOk))
  }
}

=== FILE: feature_store.dfy ===
/** The feature store (`pipelines/feature_store.py`) without its pandas
    work: which dataset version and file it reads, which features the
    models need and where each comes from, how a fixture is found and
    turned into a feature vector, the fixture cache, and the
    recent-games fraction. The dataset is given as its rows; the file
    system, the environment and the clock are parameters. */
module FeatureStore {
  import opened Wrappers
  import opened Text
  import NotebookCatalog

  const DefaultDatasetVersion: string := "7"
  const DefaultRollingWindow: int := 5
  const DatasetTemplatePrefix: string := "understat_data/Dataset_Version_"
  const DatasetTemplateSuffix: string := ".csv"

  /** The models whose notebook run the store looks for. */
  const ModelNames: seq<string> := ["performance_dense", "momentum_policy_rl", "market_gradient_boost"]

  /** The feature lists used when no notebook run is found, per model. */
  const FallbackModelFeatures: seq<(string, seq<string>)> := [
    ("performance_dense", [
      "home_goal_diff_std5", "away_goal_diff_std5", "goal_diff_std_gap5",
      "home_goal_diff_exp_decay", "away_goal_diff_exp_decay", "goal_diff_exp_decay_gap",
      "home_xg_diff_std5", "away_xg_diff_std5", "xg_diff_std_gap5", "home_xg_diff_exp_decay",
      "away_xg_diff_exp_decay", "xg_diff_exp_decay_gap", "home_shot_diff_std5",
      "away_shot_diff_std5", "shot_diff_std_gap5", "home_shot_diff_exp_decay",
      "away_shot_diff_exp_decay", "shot_diff_exp_decay_gap", "home_recent_games_frac",
      "away_recent_games_frac", "home_shots_for_avg5", "home_shots_allowed_avg5",
      "away_shots_for_avg5", "away_shots_allowed_avg5", "shot_vol_gap_avg5",
      "shot_suppress_gap_avg5", "log_shot_ratio_avg5", "shots_tempo_avg5", "att_gap_avg5",
      "def_gap_avg5", "points_gap_avg5", "xg_att_gap_avg5", "xg_def_gap_avg5", "log_xg_ratio_avg5",
      "home_goals_for_avg5", "home_goals_against_avg5", "away_goals_for_avg5",
      "away_goals_against_avg5", "elo_home_pre", "elo_away_pre", "elo_mean_pre", "elo_gap_pre",
      "elo_home_expectation", "elo_expectation_gap"]),
    ("momentum_policy_rl", [
      "momentum_points_last3_delta_season_z", "momentum_points_last2_delta_season_z",
      "momentum_points_last8_delta_season_z", "momentum_points_pct_last3_delta_season_z",
      "momentum_goal_diff_last3_delta_season_z", "momentum_goal_diff_last2_delta_season_z",
      "momentum_goal_diff_last8_delta_season_z", "momentum_xg_diff_last3_delta_season_z",
      "momentum_xg_diff_last2_delta_season_z", "momentum_xg_diff_last8_delta_season_z",
      "momentum_points_exp_decay_delta_season_z", "momentum_xg_exp_decay_delta_season_z",
      "momentum_matches_last14_delta_season_z", "momentum_travel_rest_ratio_delta_season_z",
      "momentum_forecast_win_prev_delta_season_z", "momentum_forecast_trend_delta_season_z",
      "shot_volume_gap_avg3_season_z", "shot_suppress_gap_avg3_season_z",
      "shots_tempo_avg3_season_z", "elo_gap_pre_season_z", "market_vs_elo_edge",
      "form_pct_diff_last5_season_z", "form_diff_last5_season_z", "rest_diff_season_z",
      "fixture_congestion_flag_pair", "momentum_fixture_congestion_delta", "rest_reset_flag_pair",
      "match_day_index_season_z", "match_day_of_year_norm_season_z",
      "match_weekday_index_season_z"]),
    ("market_gradient_boost", [
      "forecast_home_win", "forecast_draw", "forecast_away_win", "market_home_edge",
      "market_entropy", "market_logit_home", "market_max_prob", "prob_edge", "elo_home_pre",
      "elo_away_pre", "elo_mean_pre", "elo_gap_pre", "elo_home_expectation", "elo_expectation_gap",
      "market_vs_elo_edge", "match_day_index", "match_day_of_year_norm", "match_weekday_index"])
  ]

  // ---------------------------------------------------------------------
  // Name normalisation

  /** `_normalize_name`: surrounding blanks removed, letters lower-cased. */
  function NormalizeName(value: string): (r: string)
    ensures forall i :: 0 <= i < |r| ==> !IsUpperAlpha(r[i])
    ensures r == [] || (!IsSpace(r[0]) && !IsSpace(r[|r| - 1]))
    ensures |r| <= |value|
  {
    var s := Strip(value);
    StripByEnds(value, IsSpace);
    LowerKeepsSpaces(s);
    Lower(s)
  }

  /** Normalising a normalised name changes nothing. */
  lemma NormalizeIdempotent(value: string)
    ensures NormalizeName(NormalizeName(value)) == NormalizeName(value)
  {
    var r := NormalizeName(value);
    StripByUnpadded(r, IsSpace);
  }

  /** A name already stripped and in lower case is its own normal form. */
  lemma NormalizeFixed(value: string)
    requires forall i :: 0 <= i < |value| ==> !IsUpperAlpha(value[i])
    requires value == [] || (!IsSpace(value[0]) && !IsSpace(value[|value| - 1]))
    ensures NormalizeName(value) == value
  {
    StripByUnpadded(value, IsSpace);
  }

  /** Names that differ only in ASCII case have the same normal form. */
  lemma NormalizeIgnoresCase(a: string, b: string)
    requires Lower(a) == Lower(b)
    ensures NormalizeName(a) == NormalizeName(b)
  {
    LowerStrip(a);
    LowerStrip(b);
  }

  /** A stripped lower-case name padded with blanks normalises back to
      itself: the cache key of `"  arsenal "` is `"arsenal"`. */
  lemma NormalizeRecovers(pre: string, name: string, post: string)
    requires forall i :: 0 <= i < |pre| ==> IsSpace(pre[i])
    requires forall i :: 0 <= i < |post| ==> IsSpace(post[i])
    requires forall i :: 0 <= i < |name| ==> !IsUpperAlpha(name[i])
    requires name == [] || (!IsSpace(name[0]) && !IsSpace(name[|name| - 1]))
    ensures NormalizeName(pre + name + post) == name
  {
    NormalizeIgnoresPadding(pre, name, post);
    NormalizeFixed(name);
  }

  /** Blanks around a name do not change its normal form, so cache keys
      built from padded and unpadded names agree. */
  lemma NormalizeIgnoresPadding(pre: string, value: string, post: string)
    requires forall i :: 0 <= i < |pre| ==> IsSpace(pre[i])
    requires forall i :: 0 <= i < |post| ==> IsSpace(post[i])
    ensures NormalizeName(pre + value + post) == NormalizeName(value)
  {
    StripIgnoresPadding(pre, value, post);
  }

  // ---------------------------------------------------------------------
  // Dataset version and file

  /** No token of `tokens` is all digits. */
  predicate NoDigitToken(tokens: seq<string>) {
    forall k :: 0 <= k < |tokens| ==> !IsDigitString(tokens[k])
  }

  /** The first token of `tokens` that is all digits. */
  function FirstDigitToken(tokens: seq<string>): (r: Option<string>)
    ensures r.None? <==> NoDigitToken(tokens)
    ensures r.Some? ==> exists k :: 0 <= k < |tokens| && tokens[k] == r.value && IsDigitString(r.value)
                                    && forall k' :: 0 <= k' < k ==> !IsDigitString(tokens[k'])
  {
    if tokens == [] then None
    else if IsDigitString(tokens[0]) then
      Some(tokens[0])
    else
      var r := FirstDigitToken(tokens[1..]);
      if r.Some? then
        var k :| 0 <= k < |tokens[1..]| && tokens[1..][k] == r.value && IsDigitString(r.value)
                 && forall k' :: 0 <= k' < k ==> !IsDigitString(tokens[1..][k']);
        assert tokens[k + 1] == r.value;
        assert forall k' :: 0 <= k' < k + 1 ==> !IsDigitString(tokens[k']) by {
          forall k' | 0 <= k' < k + 1 ensures !IsDigitString(tokens[k']) {
            if k' > 0 { assert tokens[k'] == tokens[1..][k' - 1]; }
          }
        }
        r
      else
        assert forall k :: 0 <= k < |tokens| ==> !IsDigitString(tokens[k]) by {
          forall k | 0 <= k < |tokens| ensures !IsDigitString(tokens[k]) {
            if k > 0 { assert tokens[k] == tokens[1..][k - 1]; }
          }
        }
        r
  }

  /** `_guess_version_from_name`: the first `_`-separated token of the file
      name that is all digits. The token is a digit string without `_`. */
  function GuessVersionFromName(filename: string): (r: Option<string>)
    ensures r.None? <==> NoDigitToken(Split(filename, '_'))
    ensures r.Some? ==> IsDigitString(r.value) && '_' !in r.value
    ensures r.Some? ==> exists k :: 0 <= k < |Split(filename, '_')| && Split(filename, '_')[k] == r.value
                                    && forall k' :: 0 <= k' < k ==> !IsDigitString(Split(filename, '_')[k'])
  {
    var tokens := Split(filename, '_');
    FirstDigitToken(tokens)
  }

  /** The default dataset file name gives no version: its version token is
      followed by `.csv`, so no token is all digits. */
  lemma GuessMissesTemplateName(version: string)
    requires '_' !in version
    ensures GuessVersionFromName("Dataset_Version_" + version + DatasetTemplateSuffix) == None
  {
    var parts := ["Dataset", "Version", version + DatasetTemplateSuffix];
    assert Join(parts[2..], '_') == version + DatasetTemplateSuffix;
    assert Join(parts[1..], '_') == "Version_" + version + DatasetTemplateSuffix;
    assert Join(parts, '_') == "Dataset_Version_" + version + DatasetTemplateSuffix;
    assert '_' !in version + DatasetTemplateSuffix;
    JoinThenSplit(parts, '_');
    assert !IsDigitString(parts[0]) by { assert !IsDigit(parts[0][0]); }
    assert !IsDigitString(parts[1]) by { assert !IsDigit(parts[1][0]); }
    assert !IsDigitString(parts[2]) by { assert !IsDigit(parts[2][|version|]); }
  }

  /** The first all-digit token is found wherever it stands. */
  lemma {:induction false} FirstDigitTokenAt(tokens: seq<string>, k: nat)
    requires k < |tokens| && IsDigitString(tokens[k])
    requires forall k' :: 0 <= k' < k ==> !IsDigitString(tokens[k'])
    ensures FirstDigitToken(tokens) == Some(tokens[k])
  {
    if k > 0 {
      assert !IsDigitString(tokens[0]);
      assert forall k' :: 0 <= k' < k - 1 ==> !IsDigitString(tokens[1..][k']) by {
        forall k' | 0 <= k' < k - 1 ensures !IsDigitString(tokens[1..][k']) {
          assert tokens[1..][k'] == tokens[k' + 1];
        }
      }
      FirstDigitTokenAt(tokens[1..], k - 1);
    }
  }

  /** A name made of digit-free tokens around one all-digit token gives
      that token. */
  lemma GuessFindsDigitToken(before: seq<string>, digits: string, after: seq<string>)
    requires forall k :: 0 <= k < |before| ==> '_' !in before[k] && !IsDigitString(before[k])
    requires forall k :: 0 <= k < |after| ==> '_' !in after[k]
    requires IsDigitString(digits)
    ensures GuessVersionFromName(Join(before + [digits] + after, '_')) == Some(digits)
  {
    var parts := before + [digits] + after;
    NoSeparatorInParts(before, digits, after);
    GuessOfJoin(parts);
    assert forall k' :: 0 <= k' < |before| ==> !IsDigitString(parts[k']) by {
      forall k' | 0 <= k' < |before| ensures !IsDigitString(parts[k']) { assert parts[k'] == before[k']; }
    }
    assert parts[|before|] == digits;
    FirstDigitTokenAt(parts, |before|);
  }

  lemma NoSeparatorInParts(before: seq<string>, digits: string, after: seq<string>)
    requires forall k :: 0 <= k < |before| ==> '_' !in before[k]
    requires forall k :: 0 <= k < |after| ==> '_' !in after[k]
    requires IsDigitString(digits)
    ensures forall k :: 0 <= k < |before + [digits] + after| ==> '_' !in (before + [digits] + after)[k]
  {
    var parts := before + [digits] + after;
    assert '_' !in digits by {
      forall i | 0 <= i < |digits| ensures digits[i] != '_' { assert IsDigit(digits[i]); }
    }
    forall k | 0 <= k < |parts| ensures '_' !in parts[k] {
      if k < |before| { assert parts[k] == before[k]; }
      else if k > |before| { assert parts[k] == after[k - |before| - 1]; }
      else { assert parts[k] == digits; }
    }
  }

  /** Splitting a joined name gives its tokens back, so the guess is the
      first all-digit token. */
  lemma GuessOfJoin(parts: seq<string>)
    requires |parts| >= 1
    requires forall k :: 0 <= k < |parts| ==> '_' !in parts[k]
    ensures GuessVersionFromName(Join(parts, '_')) == FirstDigitToken(parts)
  {
    JoinThenSplit(parts, '_');
  }

  /** `Path(...).name`: the text after the last `/`. */
  function FileName(path: string): (r: string)
    ensures '/' !in r && |r| <= |path| && r == path[|path| - |r|..]
    ensures '/' !in path ==> r == path
  {
    if '/' in path then path[LastIndexOf(path, '/') + 1..] else path
  }

  /** `_dataset_path_from_version`. */
  function DatasetPathFor(version: string): string {
    DatasetTemplatePrefix + version + DatasetTemplateSuffix
  }

  /** The `dataset_label` of the run's first model, when it has one. */
  function NotebookLabel(run: Option<NotebookCatalog.NotebookRun>): Option<string> {
    if run.Some? && run.value.models != [] then run.value.models[0].1.datasetLabel else None
  }

  /** The run's dataset versions, or none without a run. */
  function FallbackVersions(run: Option<NotebookCatalog.NotebookRun>): seq<string> {
    if run.Some? then NotebookCatalog.DatasetVersions(run.value) else []
  }

  /** The digits of the first model's label. */
  function LabelVersion(run: Option<NotebookCatalog.NotebookRun>): Option<string> {
    NotebookCatalog.ExtractDatasetVersion(NotebookLabel(run))
  }

  /** The version token of the dataset file name, when a path is given. */
  function PathVersion(datasetPath: Option<string>): Option<string> {
    if datasetPath.Some? then GuessVersionFromName(FileName(datasetPath.value)) else None
  }

  /** No explicit version: neither the argument nor the environment value is set. */
  predicate NoExplicitVersion(datasetVersion: Option<string>, envVersion: Option<string>) {
    !IsSet(datasetVersion) && !IsSet(envVersion)
  }

  /** The version chain of `FeatureStore.__init__`: the argument, then the
      environment value, then the digits of the first model's label, then
      the run's first dataset version, then a digit token of the dataset
      file name, and `"7"` when all of these are missing. */
  function ResolveStoreVersion(datasetVersion: Option<string>, envVersion: Option<string>,
                               run: Option<NotebookCatalog.NotebookRun>, datasetPath: Option<string>): (v: string)
    ensures v != ""
    ensures IsSet(datasetVersion) ==> v == datasetVersion.value
    ensures !IsSet(datasetVersion) && IsSet(envVersion) ==> v == envVersion.value
    ensures NoExplicitVersion(datasetVersion, envVersion) && LabelVersion(run).Some? ==> v == LabelVersion(run).value
    ensures NoExplicitVersion(datasetVersion, envVersion) && LabelVersion(run).None? && FallbackVersions(run) != [] ==>
              v == FallbackVersions(run)[0]
    ensures NoExplicitVersion(datasetVersion, envVersion) && LabelVersion(run).None? && FallbackVersions(run) == [] ==>
              v == PathVersion(datasetPath).GetOr(DefaultDatasetVersion)
  {
    var explicit := if IsSet(datasetVersion) then datasetVersion else envVersion;
    var fallbacks := FallbackVersions(run);
    FallbacksNonEmpty(run);
    var resolved := NotebookCatalog.ResolveDatasetVersion(explicit, NotebookLabel(run), Some(fallbacks));
    if resolved.Some? then resolved.value
    else if datasetPath.Some? then
      var guess := GuessVersionFromName(FileName(datasetPath.value));
      GuessResolves(guess);
      NotebookCatalog.ResolveDatasetVersion(None, guess, None).GetOr(DefaultDatasetVersion)
    else DefaultDatasetVersion
  }

  /** Every fallback version is non-empty, so the first one is used. */
  lemma FallbacksNonEmpty(run: Option<NotebookCatalog.NotebookRun>)
    ensures forall k :: 0 <= k < |FallbackVersions(run)| ==> FallbackVersions(run)[k] != ""
    ensures FallbackVersions(run) != [] ==> NotebookCatalog.FirstNonEmpty(FallbackVersions(run)) == Some(FallbackVersions(run)[0])
  {
    if run.Some? {
      NotebookCatalog.DatasetVersionsSpec(run.value);
      var vs := FallbackVersions(run);
      forall k | 0 <= k < |vs| ensures vs[k] != "" {
        assert vs[k] in vs;
      }
    }
  }

  /** A guessed token, read as a label, resolves to itself. */
  lemma GuessResolves(guess: Option<string>)
    requires guess.Some? ==> IsDigitString(guess.value)
    ensures NotebookCatalog.ResolveDatasetVersion(None, guess, None) == guess
  {
    if guess.Some? {
      assert NotebookCatalog.NoDigit([]);
      assert guess.value == [] + guess.value + [];
      NotebookCatalog.ExtractFindsDigitRun([], guess.value, []);
    }
  }

  /** The per-model feature lists: the notebook run's when one was found,
      else the built-in fallback lists. */
  function ModelFeatures(run: Option<NotebookCatalog.NotebookRun>): (r: seq<(string, seq<string>)>)
    ensures run.None? ==> r == FallbackModelFeatures
    ensures run.Some? ==> |r| == |run.value.models|
    ensures run.Some? ==> forall k :: 0 <= k < |r| ==>
              r[k].0 == run.value.models[k].0 && r[k].1 == run.value.models[k].1.featureCols
  {
    if run.None? then FallbackModelFeatures
    else
      var ms := run.value.models;
      seq(|ms|, k requires 0 <= k < |ms| => (ms[k].0, ms[k].1.featureCols))
  }

  datatype StoreConfig = StoreConfig(datasetVersion: string, datasetPath: string,
                                     modelFeatures: seq<(string, seq<string>)>)

  datatype StoreError = DatasetNotFound(path: string) | ExperimentsRootNotADirectory

  /** `FeatureStore.__init__` without the I/O: `fileExists` answers whether a
      path names an existing file. An explicit dataset path is used as given;
      otherwise the path follows from the resolved version. A missing file
      is an error naming the path. */
  function OpenStore(datasetVersion: Option<string>, datasetPath: Option<string>, envVersion: Option<string>,
                     run: Option<NotebookCatalog.NotebookRun>, fileExists: string -> bool): (r: Result<StoreConfig, StoreError>)
    ensures var path := if datasetPath.Some? then datasetPath.value
                        else DatasetPathFor(ResolveStoreVersion(datasetVersion, envVersion, run, datasetPath));
      && (r.Failure? <==> !fileExists(path))
      && (r.Failure? ==> r.error == DatasetNotFound(path))
      && (r.Success? ==> r.value.datasetPath == path)
    ensures r.Success? ==> r.value.datasetVersion == ResolveStoreVersion(datasetVersion, envVersion, run, datasetPath)
    ensures r.Success? ==> r.value.modelFeatures == ModelFeatures(run)
  {
    var version := ResolveStoreVersion(datasetVersion, envVersion, run, datasetPath);
    var path := if datasetPath.Some? then datasetPath.value else DatasetPathFor(version);
    if !fileExists(path) then Failure(DatasetNotFound(path))
    else Success(StoreConfig(version, path, ModelFeatures(run)))
  }

  /** `FeatureStore.__init__` with its discovery: the latest notebook run
      of the store's models in the experiments root. A root that is not a
      directory raises before the dataset is looked at. */
  function OpenStoreIn(datasetVersion: Option<string>, datasetPath: Option<string>, envVersion: Option<string>,
                       root: NotebookCatalog.Root, fileExists: string -> bool): (r: Result<StoreConfig, StoreError>)
    ensures root.RootFile? <==> r == Failure(ExperimentsRootNotADirectory)
    ensures root.RootMissing? && r.Success? ==> r.value.modelFeatures == FallbackModelFeatures
    ensures root.RootDir? && r.Success? ==>
              r.value.modelFeatures == ModelFeatures(NotebookCatalog.FirstWithModels(NotebookCatalog.SortedRunDirs(root.listing), Some(ModelNames)))
  {
    match NotebookCatalog.DiscoverLatestNotebookRun(root, Some(ModelNames))
    case Failure(_) => Failure(ExperimentsRootNotADirectory)
    case Success(run) => OpenStore(datasetVersion, datasetPath, envVersion, run, fileExists)
  }

  /** A store opened over an experiments directory with a run of its models
      takes the feature lists of the newest such run. */
  lemma OpenStoreUsesNewestRun(datasetVersion: Option<string>, datasetPath: Option<string>, envVersion: Option<string>,
                               listing: seq<NotebookCatalog.RunDir>, fileExists: string -> bool)
    requires OpenStoreIn(datasetVersion, datasetPath, envVersion, NotebookCatalog.RootDir(listing), fileExists).Success?
    requires NotebookCatalog.DiscoverLatestNotebookRun(NotebookCatalog.RootDir(listing), Some(ModelNames)).value.Some?
    ensures exists d ::
              && NotebookCatalog.NewestWithModels(listing, Some(ModelNames), d)
              && OpenStoreIn(datasetVersion, datasetPath, envVersion, NotebookCatalog.RootDir(listing), fileExists).value.modelFeatures
                 == ModelFeatures(Some(NotebookCatalog.LoadRun(d, Some(ModelNames)).value))
  {
    NotebookCatalog.DiscoveredIsNewestWithModels(listing, Some(ModelNames));
  }

  // ---------------------------------------------------------------------
  // Required features and their lineage

  function FeatureLists(modelFeatures: seq<(string, seq<string>)>): seq<seq<string>> {
    seq(|modelFeatures|, k requires 0 <= k < |modelFeatures| => modelFeatures[k].1)
  }

  /** `required_features`: the features of all models, each once, in the
      order they first appear. */
  function RequiredFeatures(modelFeatures: seq<(string, seq<string>)>): seq<string> {
    Dedup(Flatten(FeatureLists(modelFeatures)))
  }

  lemma RequiredFeaturesSpec(modelFeatures: seq<(string, seq<string>)>)
    ensures var fs := RequiredFeatures(modelFeatures);
      && Distinct(fs)
      && (forall f :: f in fs <==> exists k :: 0 <= k < |modelFeatures| && f in modelFeatures[k].1)
      && (forall i, j :: 0 <= i < j < |fs| ==> FirstSeenBefore(Flatten(FeatureLists(modelFeatures)), fs[i], fs[j]))
  {
    var all := FeatureLists(modelFeatures);
    DedupSpec(Flatten(all));
    forall f ensures f in Flatten(all) <==> exists k :: 0 <= k < |modelFeatures| && f in modelFeatures[k].1 {
      FlattenMember(all, f);
      assert forall k :: 0 <= k < |all| ==> all[k] == modelFeatures[k].1;
    }
  }

  datatype FeatureOrigin = Direct | Derived | Unknown

  /** `feature_lineage`: one entry per required feature, in order. A
      feature is direct when the raw dataset has it, derived when only the
      augmented dataset has it, and unknown otherwise. Column sets that were
      never computed are empty. */
  function FeatureLineage(required: seq<string>, baseline: set<string>, derived: set<string>): (r: seq<(string, FeatureOrigin)>)
    ensures |r| == |required|
    ensures forall k :: 0 <= k < |r| ==> r[k].0 == required[k]
    ensures forall k :: 0 <= k < |r| ==> (r[k].1 == Direct <==> required[k] in baseline)
    ensures forall k :: 0 <= k < |r| ==> (r[k].1 == Derived <==> required[k] !in baseline && required[k] in derived)
    ensures forall k :: 0 <= k < |r| ==> (r[k].1 == Unknown <==> required[k] !in baseline && required[k] !in derived)
  {
    seq(|required|, k requires 0 <= k < |required| =>
      (required[k], if required[k] in baseline then Direct else if required[k] in derived then Derived else Unknown))
  }

  // ---------------------------------------------------------------------
  // The fixture cache

  /** The primary key of the `feature_cache` table. */
  datatype CacheKey = CacheKey(datasetVersion: string, season: string, home: string, away: string)

  /** A cached row: the match, the dataset file's modification time when
      the vector was computed, and the vector. */
  datatype CacheRow = CacheRow(matchId: int, datasetMtime: real, payload: map<string, real>)

  type FeatureCache = map<CacheKey, CacheRow>

  /** `FeatureCache.get`: the stored vector, only when the key is present
      and was stored for the same dataset modification time. */
  function CacheGet(cache: FeatureCache, key: CacheKey, datasetMtime: real): (r: Option<map<string, real>>)
    ensures r.Some? <==> key in cache && cache[key].datasetMtime == datasetMtime
    ensures r.Some? ==> r.value == cache[key].payload
  {
    if key in cache && cache[key].datasetMtime == datasetMtime then Some(cache[key].payload) else None
  }

  /** `FeatureCache.set` (`INSERT OR REPLACE`): the row under `key` is
      replaced; every other row is kept. */
  function CacheSet(cache: FeatureCache, key: CacheKey, datasetMtime: real, matchId: int,
                    features: map<string, real>): (r: FeatureCache)
    ensures r.Keys == cache.Keys + {key}
    ensures CacheGet(r, key, datasetMtime) == Some(features)
    ensures forall k :: k in cache && k != key ==> r[k] == cache[k]
  {
    cache[key := CacheRow(matchId, datasetMtime, features)]
  }

  /** Reading after writing: the written key answers with the new vector
      for the same time and with nothing for another; other keys answer
      as before. */
  lemma CacheGetAfterSet(cache: FeatureCache, key: CacheKey, datasetMtime: real, matchId: int,
                         features: map<string, real>, key': CacheKey, datasetMtime': real)
    ensures CacheGet(CacheSet(cache, key, datasetMtime, matchId, features), key', datasetMtime') ==
      if key' == key then (if datasetMtime' == datasetMtime then Some(features) else None)
      else CacheGet(cache, key', datasetMtime')
  {
  }

  /** Writing the same key twice keeps only the second write. */
  lemma CacheSetReplaces(cache: FeatureCache, key: CacheKey, m1: real, id1: int, f1: map<string, real>,
                         m2: real, id2: int, f2: map<string, real>)
    ensures CacheSet(CacheSet(cache, key, m1, id1, f1), key, m2, id2, f2) == CacheSet(cache, key, m2, id2, f2)
  {
  }

  // ---------------------------------------------------------------------
  // Fixtures and feature vectors

  /** A dataset cell: a number, or missing (absent column, `None` or NaN). */
  datatype Cell = Num(x: real) | Missing

  /** A dataset row: the identifying columns and the feature cells. */
  datatype Row = Row(matchId: int, season: string, homeTeamName: string, awayTeamName: string,
                     cells: map<string, Cell>)

  datatype FixtureFeatures = FixtureFeatures(matchId: int, homeTeam: string, awayTeam: string, season: string,
                                             features: map<string, real>)

  /** A store: its configuration, the dataset file's modification time,
      the rows of the loaded dataset, and the cache when one is configured. */
  datatype Store = Store(config: StoreConfig, datasetMtime: real, rows: seq<Row>, cache: Option<FeatureCache>)

  function StoreRequiredFeatures(store: Store): seq<string> {
    RequiredFeatures(store.config.modelFeatures)
  }

  /** The value of `feature` in a row, `0.0` when missing. */
  function CellValue(cells: map<string, Cell>, feature: string): real {
    if feature in cells && cells[feature].Num? then cells[feature].x else 0.0
  }

  /** The computed vector of a row: exactly the required features; a number
      passes through and a missing value becomes `0.0`. */
  function FeatureVector(required: seq<string>, cells: map<string, Cell>): (r: map<string, real>)
    ensures forall f :: f in r <==> f in required
    ensures forall f :: f in r && f in cells && cells[f].Num? ==> r[f] == cells[f].x
    ensures forall f :: f in r && !(f in cells && cells[f].Num?) ==> r[f] == 0.0
  {
    map f | f in required :: CellValue(cells, f)
  }

  /** The cache key of a row: the dataset version and the normalised
      season and team names. */
  function RowKey(datasetVersion: string, row: Row): (k: CacheKey)
    ensures k.datasetVersion == datasetVersion
    ensures k.season == NormalizeName(row.season) && k.home == NormalizeName(row.homeTeamName)
    ensures k.away == NormalizeName(row.awayTeamName)
  {
    CacheKey(datasetVersion, NormalizeName(row.season), NormalizeName(row.homeTeamName), NormalizeName(row.awayTeamName))
  }

  /** The cache answers for this row with a non-empty vector. */
  predicate CacheHit(store: Store, row: Row) {
    && store.cache.Some?
    && var cached := CacheGet(store.cache.value, RowKey(store.config.datasetVersion, row), store.datasetMtime);
       cached.Some? && cached.value != map[]
  }

  /** `_build_features_from_row`: a non-empty cached vector for the same
      dataset time is returned as is; otherwise the vector is computed from
      the row and, with a cache, stored under the row's key. The fixture
      carries the row's own (unnormalised) names and season. */
  function BuildFeaturesFromRow(store: Store, row: Row): (r: (FixtureFeatures, Option<FeatureCache>))
    ensures r.0.matchId == row.matchId && r.0.season == row.season
    ensures r.0.homeTeam == row.homeTeamName && r.0.awayTeam == row.awayTeamName
    ensures r.1.Some? <==> store.cache.Some?
    ensures CacheHit(store, row) ==> r.1 == store.cache
    ensures CacheHit(store, row) ==>
              Some(r.0.features) == CacheGet(store.cache.value, RowKey(store.config.datasetVersion, row), store.datasetMtime)
    ensures !CacheHit(store, row) ==> r.0.features == FeatureVector(StoreRequiredFeatures(store), row.cells)
    ensures !CacheHit(store, row) && r.1.Some? ==>
      CacheGet(r.1.value, RowKey(store.config.datasetVersion, row), store.datasetMtime) == Some(r.0.features)
  {
    var key := RowKey(store.config.datasetVersion, row);
    if CacheHit(store, row) then
      var cached := CacheGet(store.cache.value, key, store.datasetMtime).value;
      (FixtureFeatures(row.matchId, row.homeTeamName, row.awayTeamName, row.season, cached), store.cache)
    else
      var features := FeatureVector(StoreRequiredFeatures(store), row.cells);
      var cache := if store.cache.Some?
                   then Some(CacheSet(store.cache.value, key, store.datasetMtime, row.matchId, features))
                   else None;
      (FixtureFeatures(row.matchId, row.homeTeamName, row.awayTeamName, row.season, features), cache)
  }

  /** Building a fixture a second time, with the cache the first build
      left, gives the same fixture and leaves the cache as it was. */
  lemma BuildAgainAgrees(store: Store, row: Row)
    ensures var (first, cache) := BuildFeaturesFromRow(store, row);
      BuildFeaturesFromRow(store.(cache := cache), row) == (first, cache)
  {
    var (first, cache) := BuildFeaturesFromRow(store, row);
    var store' := store.(cache := cache);
    var key := RowKey(store.config.datasetVersion, row);
    if cache.Some? && !CacheHit(store, row) {
      var features := FeatureVector(StoreRequiredFeatures(store), row.cells);
      if CacheHit(store', row) {
        assert BuildFeaturesFromRow(store', row).0.features == features;
      } else {
        assert CacheSet(cache.value, key, store.datasetMtime, row.matchId, features) == cache.value;
      }
    }
  }

  /** The first row satisfying `p`. */
  function FirstRow(rows: seq<Row>, p: Row -> bool): (r: Option<nat>)
    ensures r.None? <==> forall k :: 0 <= k < |rows| ==> !p(rows[k])
    ensures r.Some? ==> r.value < |rows| && p(rows[r.value])
    ensures r.Some? ==> forall k :: 0 <= k < r.value ==> !p(rows[k])
  {
    if rows == [] then None
    else if p(rows[0]) then Some(0)
    else
      var r := FirstRow(rows[1..], p);
      if r.Some? then
        assert forall k :: 0 <= k < r.value + 1 ==> !p(rows[k]) by {
          forall k | 0 <= k < r.value + 1 ensures !p(rows[k]) {
            if k > 0 { assert rows[k] == rows[1..][k - 1]; }
          }
        }
        assert rows[r.value + 1] == rows[1..][r.value];
        Some(r.value + 1)
      else
        assert forall k :: 0 <= k < |rows| ==> !p(rows[k]) by {
          forall k | 0 <= k < |rows| ensures !p(rows[k]) {
            if k > 0 { assert rows[k] == rows[1..][k - 1]; }
          }
        }
        None
  }

  function Seasons(rows: seq<Row>): seq<string> {
    seq(|rows|, k requires 0 <= k < |rows| => rows[k].season)
  }

  /** `latest_season`: the greatest season of the dataset, or `"7"` when
      there is none or it is empty. */
  function LatestSeason(rows: seq<Row>): (r: string)
    ensures r != ""
    ensures rows == [] ==> r == DefaultDatasetVersion
    ensures r != DefaultDatasetVersion ==> exists k :: 0 <= k < |rows| && rows[k].season == r
    ensures r != DefaultDatasetVersion ==> forall k :: 0 <= k < |rows| ==> LexLe(rows[k].season, r)
    ensures (exists k :: 0 <= k < |rows| && rows[k].season != "") ==>
      && (exists k :: 0 <= k < |rows| && rows[k].season == r)
      && forall k :: 0 <= k < |rows| ==> LexLe(rows[k].season, r)
    ensures (forall k :: 0 <= k < |rows| ==> rows[k].season == "") ==> r == DefaultDatasetVersion
  {
    if rows == [] then DefaultDatasetVersion
    else
      var ss := Seasons(rows);
      var m := MaxString(ss);
      if m == "" then
        assert forall k :: 0 <= k < |rows| ==> rows[k].season == "" by {
          forall k | 0 <= k < |rows| ensures rows[k].season == "" { assert ss[k] == rows[k].season; }
        }
        DefaultDatasetVersion
      else
        assert forall k :: 0 <= k < |rows| ==> LexLe(rows[k].season, m) by {
          forall k | 0 <= k < |rows| ensures LexLe(rows[k].season, m) { assert ss[k] == rows[k].season; }
        }
        m
  }

  /** The row is the fixture asked for: same season text, and home and away
      names equal ignoring letter case. */
  predicate IsFixture(row: Row, season: string, home: string, away: string) {
    && row.season == season
    && Lower(row.homeTeamName) == Lower(home)
    && Lower(row.awayTeamName) == Lower(away)
  }

  datatype FixtureError = FixtureNotFound(season: string, home: string, away: string) | MatchNotFound(matchId: int)

  /** `get_fixture`: an unset season means the latest one; the first
      matching row is built into a fixture, and no match is an error. */
  function GetFixture(store: Store, season: Option<string>, home: string, away: string)
    : (r: Result<(FixtureFeatures, Option<FeatureCache>), FixtureError>)
    ensures var s := if IsSet(season) then season.value else LatestSeason(store.rows);
      && (r.Failure? <==> forall k :: 0 <= k < |store.rows| ==> !IsFixture(store.rows[k], s, home, away))
      && (r.Failure? ==> r.error == FixtureNotFound(s, home, away))
      && (r.Success? ==> exists k :: 0 <= k < |store.rows| && IsFixture(store.rows[k], s, home, away)
                                   && (forall k' :: 0 <= k' < k ==> !IsFixture(store.rows[k'], s, home, away))
                                   && r.value == BuildFeaturesFromRow(store, store.rows[k]))
  {
    var s := if IsSet(season) then season.value else LatestSeason(store.rows);
    FixtureOfSeason(store, s, home, away)
  }

  /** `get_fixture` once the season is known. */
  function FixtureOfSeason(store: Store, s: string, home: string, away: string)
    : (r: Result<(FixtureFeatures, Option<FeatureCache>), FixtureError>)
    ensures r.Failure? <==> forall k :: 0 <= k < |store.rows| ==> !IsFixture(store.rows[k], s, home, away)
    ensures r.Failure? ==> r.error == FixtureNotFound(s, home, away)
    ensures r.Success? ==> exists k :: 0 <= k < |store.rows| && IsFixture(store.rows[k], s, home, away)
                                   && (forall k' :: 0 <= k' < k ==> !IsFixture(store.rows[k'], s, home, away))
                                   && r.value == BuildFeaturesFromRow(store, store.rows[k])
  {
    var k := FirstFixture(store.rows, s, home, away);
    if k.None? then Failure(FixtureNotFound(s, home, away))
    else Success(BuildFeaturesFromRow(store, store.rows[k.value]))
  }

  /** The first row of the fixture. */
  function FirstFixture(rows: seq<Row>, s: string, home: string, away: string): (r: Option<nat>)
    ensures r.None? <==> forall k :: 0 <= k < |rows| ==> !IsFixture(rows[k], s, home, away)
    ensures r.Some? ==> r.value < |rows| && IsFixture(rows[r.value], s, home, away)
    ensures r.Some? ==> forall k :: 0 <= k < r.value ==> !IsFixture(rows[k], s, home, away)
  {
    FirstRow(rows, (row: Row) => IsFixture(row, s, home, away))
  }

  /** `get_fixture_by_id`: the first row with the match id. */
  function GetFixtureById(store: Store, matchId: int): (r: Result<(FixtureFeatures, Option<FeatureCache>), FixtureError>)
    ensures r.Failure? <==> forall k :: 0 <= k < |store.rows| ==> store.rows[k].matchId != matchId
    ensures r.Failure? ==> r.error == MatchNotFound(matchId)
    ensures r.Success? ==> r.value.0.matchId == matchId
    ensures r.Success? ==> exists k :: 0 <= k < |store.rows| && store.rows[k].matchId == matchId
                                     && (forall j :: 0 <= j < k ==> store.rows[j].matchId != matchId)
                                     && r.value == BuildFeaturesFromRow(store, store.rows[k])
  {
    var k := FirstRow(store.rows, (row: Row) => row.matchId == matchId);
    if k.None? then Failure(MatchNotFound(matchId))
    else
      assert forall j :: 0 <= j < k.value ==> store.rows[j].matchId != matchId;
      Success(BuildFeaturesFromRow(store, store.rows[k.value]))
  }

  // ---------------------------------------------------------------------
  // Recent-games fraction

  /** `clip(upper=window) / window`: the share of the window filled by
      earlier games, `None` for a zero window (a division by zero). */
  function RecentGamesFrac(games: nat, window: int): (r: Option<real>)
    ensures r.None? <==> window == 0
    ensures window > 0 ==> r.Some? && 0.0 <= r.value <= 1.0
    ensures window > 0 ==> (r.value == 1.0 <==> games >= window)
    ensures window > 0 && games < window ==> r.value * window as real == games as real
  {
    if window == 0 then None
    else
      var capped := if games < window then games else window;
      Some(capped as real / window as real)
  }

  /** The recent-games fraction of every row, where `keys` holds each
      row's group (season and home team, or season and away team) in
      dataset order. One pass with a running count per group. */
  method RecentGamesFractions(keys: seq<(string, string)>, window: int) returns (fracs: seq<Option<real>>)
    ensures |fracs| == |keys|
    ensures forall i :: 0 <= i < |keys| ==> fracs[i] == RecentGamesFrac(CumCount(keys, i), window)
  {
    var counts: map<(string, string), nat> := map[];
    fracs := [];
    var i := 0;
    while i < |keys|
      invariant 0 <= i <= |keys| && |fracs| == i
      invariant forall j :: 0 <= j < i ==> fracs[j] == RecentGamesFrac(CumCount(keys, j), window)
      invariant forall g :: g in counts ==> counts[g] == Count(keys[..i], g)
      invariant forall g :: g !in counts ==> Count(keys[..i], g) == 0
    {
      var g := keys[i];
      var c := if g in counts then counts[g] else 0;
      assert c == CumCount(keys, i);
      fracs := fracs + [RecentGamesFrac(c, window)];
      counts := counts[g := c + 1];
      assert keys[..i + 1][..i] == keys[..i];
      i := i + 1;
    }
  }
}

=== FILE: json.dfy ===
/** JSON values as the manifest scripts read and write them with `json.load`
    and `json.dump`. Floating-point numbers are not needed by the modelled
    logic and are left out. */
module Json {
  import opened Wrappers

  datatype Json =
    | JNull
    | JBool(b: bool)
    | JInt(i: int)
    | JStr(s: string)
    | JArr(items: seq<Json>)
    | JObj(fields: map<string, Json>)

  type Object = map<string, Json>

  /** A list of objects as one JSON array. */
  function Objects(os: seq<Object>): (r: Json)
    ensures r.JArr? && |r.items| == |os|
    ensures forall k :: 0 <= k < |os| ==> r.items[k] == JObj(os[k])
  {
    JArr(seq(|os|, k requires 0 <= k < |os| => JObj(os[k])))
  }

  /** The objects an array holds, when every item is an object. */
  function ObjectsIn(j: Json): (r: Option<seq<Object>>)
    ensures r.Some? <==> j.JArr? && forall k :: 0 <= k < |j.items| ==> j.items[k].JObj?
    ensures r.Some? ==> |r.value| == |j.items| && forall k :: 0 <= k < |j.items| ==> j.items[k] == JObj(r.value[k])
  {
    if j.JArr? && forall k :: 0 <= k < |j.items| ==> j.items[k].JObj? then
      Some(seq(|j.items|, k requires 0 <= k < |j.items| => j.items[k].fields))
    else None
  }

  /** Reading the objects back from the array they were written as gives
      them back, and an array of objects is written from what it holds. */
  lemma ObjectsRoundTrip(os: seq<Object>, j: Json)
    ensures ObjectsIn(Objects(os)) == Some(os)
    ensures ObjectsIn(j).Some? ==> Objects(ObjectsIn(j).value) == j
  {
    var back := ObjectsIn(Objects(os)).value;
    assert |back| == |os|;
    assert forall k :: 0 <= k < |os| ==> back[k] == os[k] by {
      forall k | 0 <= k < |os| ensures back[k] == os[k] {
        assert JObj(back[k]) == Objects(os).items[k] == JObj(os[k]);
      }
    }
    assert back == os;
    if ObjectsIn(j).Some? {
      var xs := ObjectsIn(j).value;
      assert forall k :: 0 <= k < |j.items| ==> Objects(xs).items[k] == j.items[k];
      assert Objects(xs).items == j.items;
    }
  }

  /** The `"id"` of every object in a JSON array, in order (`""` where absent). */
  function Ids(j: Json): seq<string>
    requires j.JArr?
  {
    seq(|j.items|, k requires 0 <= k < |j.items| =>
      if j.items[k].JObj? && "id" in j.items[k].fields && j.items[k].fields["id"].JStr?
      then j.items[k].fields["id"].s else "")
  }
}

=== FILE: league_results_v2.dfy ===
/** The version-2 feature builder (`analysis/build_league_results_v2.py`):
    the team-centric view of the cleaned matches, the pre-match rolling
    form and rest features computed per team, their pairing back onto each
    match, the modelling targets, and the final column order. The pandas
    frame is a sequence of records; a `groupby("team_id")` is a scan over
    the earlier rows of the same team, in table order. */
module LeagueResultsV2 {
  import opened Wrappers
  import opened Text
  import CleanLeagueResults

  // ---------------------------------------------------------------------
  // Points and targets

  /** `outcome_points`: the points of the home and the away side for a
      result code; any code other than `H` and `A` counts as a draw. */
  function OutcomePoints(code: string): (p: (int, int))
    ensures code == "H" ==> p == (3, 0)
    ensures code == "A" ==> p == (0, 3)
    ensures code != "H" && code != "A" ==> p == (1, 1)
  {
    if code == "H" then (3, 0)
    else if code == "A" then (0, 3)
    else (1, 1)
  }

  /** A win is worth three points to the winner and none to the loser, a
      draw one to each; swapping the sides of a decided match swaps the
      points. */
  lemma OutcomePointsShare(code: string)
    ensures var p := OutcomePoints(code);
      && p.0 + p.1 == (if code == "H" || code == "A" then 3 else 2)
      && p.0 in {0, 1, 3} && p.1 in {0, 1, 3}
    ensures code == "H" ==> OutcomePoints("A") == (OutcomePoints(code).1, OutcomePoints(code).0)
  {
  }

  /** The `mapping` of `add_targets`. */
  const OutcomeIds: map<string, int> := map["H" := 2, "D" := 1, "A" := 0]

  /** `.map(mapping).astype(int)` meets a code outside the mapping. */
  datatype TargetError = UnmappedCode(code: string)

  datatype Targets = Targets(outcomeLabel: string, outcomeId: int, homePointsActual: int, awayPointsActual: int)

  /** `add_targets` on one match: the label is the code, the id is the
      code's entry in the mapping (a code outside it raises), and the
      actual points are three per win flag plus one per draw flag. */
  function AddTargets(code: string, flags: CleanLeagueResults.Flags): (r: Result<Targets, TargetError>)
    ensures r.Success? <==> code in {"H", "D", "A"}
    ensures r.Failure? ==> r.error == UnmappedCode(code)
    ensures r.Success? ==> r.value.outcomeLabel == code
    ensures r.Success? ==> (r.value.outcomeId == 2 <==> code == "H") && (r.value.outcomeId == 1 <==> code == "D")
                           && (r.value.outcomeId == 0 <==> code == "A")
    ensures r.Success? ==> r.value.homePointsActual == 3 * flags.homeWin + flags.draw
    ensures r.Success? ==> r.value.awayPointsActual == 3 * flags.awayWin + flags.draw
  {
    if code !in OutcomeIds then Failure(UnmappedCode(code))
    else Success(Targets(code, OutcomeIds[code], flags.homeWin * 3 + flags.draw * 1, flags.awayWin * 3 + flags.draw * 1))
  }

  /** For every code the cleaner writes, the targets exist and the actual
      points agree with `outcome_points` of the code. */
  lemma TargetsAgreeWithPoints(code: string)
    requires code in {"H", "D", "A"}
    ensures var t := AddTargets(code, CleanLeagueResults.ResultFlags(code));
      && t.Success?
      && (t.value.homePointsActual, t.value.awayPointsActual) == OutcomePoints(code)
  {
    var flags := CleanLeagueResults.ResultFlags(code);
    if code == "H" {
      assert flags == CleanLeagueResults.Flags(1, 0, 0);
    } else if code == "D" {
      assert flags == CleanLeagueResults.Flags(0, 1, 0);
    } else {
      assert flags == CleanLeagueResults.Flags(0, 0, 1);
    }
  }

  /** The outcome id orders the cleaned outcomes from the home side's
      view: away win 0, draw 1, home win 2. */
  lemma OutcomeIdOrders(o: CleanLeagueResults.Outcome)
    ensures var code := CleanLeagueResults.OutcomeCode(o);
      var t := AddTargets(code, CleanLeagueResults.ResultFlags(code));
      && t.Success?
      && t.value.outcomeId == (match o
                               case AwayWin => 0
                               case Draw => 1
                               case HomeWin => 2)
  {
  }

  /** `add_targets` on the whole frame: a single unmapped code raises. */
  function AddAllTargets(rows: seq<(string, CleanLeagueResults.Flags)>): (r: Result<seq<Targets>, TargetError>)
    ensures r.Success? <==> forall k :: 0 <= k < |rows| ==> rows[k].0 in {"H", "D", "A"}
    ensures r.Success? ==> |r.value| == |rows|
    ensures r.Success? ==> forall k :: 0 <= k < |rows| ==> AddTargets(rows[k].0, rows[k].1) == Success(r.value[k])
  {
    MapAll(rows, (row: (string, CleanLeagueResults.Flags)) => AddTargets(row.0, row.1))
  }

  // ---------------------------------------------------------------------
  // The team-centric view

  /** A cleaned match as the builder reads it. */
  datatype Match = Match(matchId: int, time: int, homeTeam: int, awayTeam: int,
                         homeGoals: int, awayGoals: int, code: string)

  /** One row of the long table: a match from one team's side. `time` is
      the kick-off in seconds. */
  datatype TeamGame = TeamGame(matchId: int, time: int, team: int, isHome: bool,
                               points: int, goalsFor: int, goalsAgainst: int, goalDiff: int)

  function HomeGame(m: Match): TeamGame {
    TeamGame(m.matchId, m.time, m.homeTeam, true, OutcomePoints(m.code).0, m.homeGoals, m.awayGoals, m.homeGoals - m.awayGoals)
  }

  function AwayGame(m: Match): TeamGame {
    TeamGame(m.matchId, m.time, m.awayTeam, false, OutcomePoints(m.code).1, m.awayGoals, m.homeGoals, m.awayGoals - m.homeGoals)
  }

  /** `compute_team_view` before its sort: the home rows of all matches,
      then their away rows. */
  function TeamView(matches: seq<Match>): (r: seq<TeamGame>)
    ensures |r| == 2 * |matches|
    ensures forall k :: 0 <= k < |matches| ==> r[k].isHome && r[k].matchId == matches[k].matchId
    ensures forall k :: 0 <= k < |matches| ==> !r[|matches| + k].isHome && r[|matches| + k].matchId == matches[k].matchId
  {
    seq(|matches|, k requires 0 <= k < |matches| => HomeGame(matches[k]))
      + seq(|matches|, k requires 0 <= k < |matches| => AwayGame(matches[k]))
  }

  /** The two rows of a match mirror each other: goals for and against
      swap, the goal differences are opposite, and the points share
      follows the result. */
  lemma TeamViewMirrors(matches: seq<Match>, k: nat)
    requires k < |matches|
    ensures var v := TeamView(matches);
      var h := v[k];
      var a := v[|matches| + k];
      && h.team == matches[k].homeTeam && a.team == matches[k].awayTeam
      && h.goalsFor == a.goalsAgainst && h.goalsAgainst == a.goalsFor
      && h.goalDiff == -a.goalDiff
      && h.points + a.points == (if matches[k].code in {"H", "A"} then 3 else 2)
  {
    OutcomePointsShare(matches[k].code);
  }

  // ---------------------------------------------------------------------
  // Per-team history

  /** The values of the rows before row `n` that belong to team `t`, in
      table order: what a `groupby` sees of the team before row `n`. */
  function TeamPrior<V>(teams: seq<int>, values: seq<V>, t: int, n: nat): seq<V>
    requires |teams| == |values| && n <= |teams|
  {
    if n == 0 then []
    else TeamPrior(teams, values, t, n - 1) + (if teams[n - 1] == t then [values[n - 1]] else [])
  }

  /** A team's history before row `n` is as long as the team's count of
      rows before `n`. */
  lemma {:induction false} PriorLength<V>(teams: seq<int>, values: seq<V>, t: int, n: nat)
    requires |teams| == |values| && n <= |teams|
    ensures |TeamPrior(teams, values, t, n)| == Count(teams[..n], t)
  {
    if n > 0 {
      PriorLength(teams, values, t, n - 1);
      assert teams[..n][..n - 1] == teams[..n - 1];
    }
  }

  /** The last row before row `n` of team `t`. */
  function LastBefore(teams: seq<int>, t: int, n: nat): (r: Option<nat>)
    requires n <= |teams|
    ensures r.Some? ==> r.value < n && teams[r.value] == t
    ensures r.Some? ==> forall k :: r.value < k < n ==> teams[k] != t
    ensures r.None? <==> forall k :: 0 <= k < n ==> teams[k] != t
  {
    if n == 0 then None
    else if teams[n - 1] == t then Some(n - 1)
    else LastBefore(teams, t, n - 1)
  }

  /** A team's history before row `n` is its history before its last row,
      followed by that row. */
  lemma {:induction false} PriorAtLast<V>(teams: seq<int>, values: seq<V>, t: int, n: nat)
    requires |teams| == |values| && n <= |teams|
    ensures LastBefore(teams, t, n).None? ==> TeamPrior(teams, values, t, n) == []
    ensures LastBefore(teams, t, n).Some? ==>
              var j := LastBefore(teams, t, n).value;
              TeamPrior(teams, values, t, n) == TeamPrior(teams, values, t, j) + [values[j]]
  {
    if n > 0 && teams[n - 1] != t {
      PriorAtLast(teams, values, t, n - 1);
    }
  }

  /** `groupby("team_id").cumcount()`: `match_number`, the number of the
      team's earlier rows. It is the length of the team's history. */
  lemma MatchNumberIsHistoryLength<V>(teams: seq<int>, values: seq<V>, i: nat)
    requires |teams| == |values| && i < |teams|
    ensures CumCount(teams, i) == |TeamPrior(teams, values, teams[i], i)|
    ensures CumCount(teams, i) == 0 <==> forall k :: 0 <= k < i ==> teams[k] != teams[i]
  {
    PriorLength(teams, values, teams[i], i);
    PriorAtLast(teams, values, teams[i], i);
  }

  // ---------------------------------------------------------------------
  // Rolling sums

  function Sum(xs: seq<int>): int {
    if xs == [] then 0 else Sum(xs[..|xs| - 1]) + xs[|xs| - 1]
  }

  /** `s.shift().rolling(window=w, min_periods=1).sum()` followed by
      `fillna(0)`, read at the row after the history `xs`: the sum of the
      last `w` earlier values, or of all of them when there are fewer. */
  function LastSum(xs: seq<int>, w: nat): int {
    Sum(xs[|xs| - Min(|xs|, w)..])
  }

  /** `history` holds, for every team seen before row `n`, its history. */
  ghost predicate HistoryAt(history: map<int, seq<int>>, teams: seq<int>, values: seq<int>, n: nat)
    requires |teams| == |values| && n <= |teams|
  {
    && (forall t :: t in history ==> history[t] == TeamPrior(teams, values, t, n))
    && (forall t :: t !in history ==> TeamPrior(teams, values, t, n) == [])
  }

  /** The history of the team of row `n`, read from `history`. */
  lemma HistoryLookup(history: map<int, seq<int>>, teams: seq<int>, values: seq<int>, n: nat)
    requires |teams| == |values| && n < |teams|
    requires HistoryAt(history, teams, values, n)
    ensures (if teams[n] in history then history[teams[n]] else []) == TeamPrior(teams, values, teams[n], n)
  {
  }

  /** Appending row `n` to its team's history moves `history` to row `n + 1`. */
  lemma HistoryStep(history: map<int, seq<int>>, teams: seq<int>, values: seq<int>, n: nat)
    requires |teams| == |values| && n < |teams|
    requires HistoryAt(history, teams, values, n)
    ensures var t := teams[n];
      var h := if t in history then history[t] else [];
      HistoryAt(history[t := h + [values[n]]], teams, values, n + 1)
  {
    var t := teams[n];
    var h := if t in history then history[t] else [];
    var next := history[t := h + [values[n]]];
    forall u | u in next ensures next[u] == TeamPrior(teams, values, u, n + 1) {
      PriorStep(teams, values, u, n);
    }
    forall u | u !in next ensures TeamPrior(teams, values, u, n + 1) == [] {
      PriorStep(teams, values, u, n);
    }
  }

  /** `sums` holds the rolling feature of the first `n` rows. */
  ghost predicate SumsAt(sums: seq<int>, teams: seq<int>, values: seq<int>, w: nat, n: nat)
    requires |teams| == |values| && n <= |teams|
  {
    |sums| == n && forall k {:trigger sums[k]} :: 0 <= k < n ==> sums[k] == LastSum(TeamPrior(teams, values, teams[k], k), w)
  }

  /** Appending row `n`'s feature moves `sums` to row `n + 1`. */
  lemma SumsStep(sums: seq<int>, teams: seq<int>, values: seq<int>, w: nat, n: nat)
    requires |teams| == |values| && n < |teams|
    requires SumsAt(sums, teams, values, w, n)
    ensures SumsAt(sums + [LastSum(TeamPrior(teams, values, teams[n], n), w)], teams, values, w, n + 1)
  {
  }

  /** The column-`values` rolling feature of every row, one pass over the
      table with each team's values so far. */
  method PriorWindowSums(teams: seq<int>, values: seq<int>, w: nat) returns (sums: seq<int>)
    requires |teams| == |values|
    ensures |sums| == |teams|
    ensures forall i {:trigger sums[i]} :: 0 <= i < |teams| ==> sums[i] == LastSum(TeamPrior(teams, values, teams[i], i), w)
  {
    var history: map<int, seq<int>> := map[];
    sums := [];
    var i := 0;
    while i < |teams|
      invariant 0 <= i <= |teams|
      invariant HistoryAt(history, teams, values, i)
      invariant SumsAt(sums, teams, values, w, i)
    {
      var t := teams[i];
      var h := if t in history then history[t] else [];
      HistoryLookup(history, teams, values, i);
      HistoryStep(history, teams, values, i);
      SumsStep(sums, teams, values, w, i);
      sums := sums + [LastSum(h, w)];
      history := history[t := h + [values[i]]];
      i := i + 1;
    }
  }

  /** One more row extends the history of its own team only. */
  lemma PriorStep<V>(teams: seq<int>, values: seq<V>, t: int, n: nat)
    requires |teams| == |values| && n < |teams|
    ensures TeamPrior(teams, values, t, n + 1)
         == TeamPrior(teams, values, t, n) + (if teams[n] == t then [values[n]] else [])
  {
  }

  /** Every value of `xs` lies between 0 and `hi`. */
  ghost predicate Bounded(xs: seq<int>, hi: int) {
    forall k :: 0 <= k < |xs| ==> 0 <= xs[k] <= hi
  }

  lemma {:induction false} SumBounds(xs: seq<int>, hi: int)
    requires Bounded(xs, hi)
    ensures 0 <= Sum(xs) <= hi * |xs|
  {
    if xs != [] {
      SumBounds(xs[..|xs| - 1], hi);
    }
  }

  /** A window of bounded values is bounded. */
  lemma BoundedSuffix(xs: seq<int>, a: nat, hi: int)
    requires Bounded(xs, hi) && a <= |xs|
    ensures Bounded(xs[a..], hi)
  {
    assert forall k :: 0 <= k < |xs| - a ==> xs[a..][k] == xs[a + k];
  }

  /** Every value of a team's history is a value of the table. */
  lemma {:induction false} PriorWithin(teams: seq<int>, values: seq<int>, t: int, n: nat, hi: int)
    requires |teams| == |values| && n <= |teams|
    requires Bounded(values, hi)
    ensures Bounded(TeamPrior(teams, values, t, n), hi)
  {
    if n > 0 {
      PriorWithin(teams, values, t, n - 1, hi);
    }
  }

  /** When every row is one team's, the history is the table prefix and
      the rolling feature is the plain prior-window sum of the column. */
  lemma {:induction false} SingleTeamPrior(teams: seq<int>, values: seq<int>, t: int, n: nat)
    requires |teams| == |values| && n <= |teams|
    requires forall k :: 0 <= k < |teams| ==> teams[k] == t
    ensures TeamPrior(teams, values, t, n) == values[..n]
  {
    if n > 0 {
      SingleTeamPrior(teams, values, t, n - 1);
      assert values[..n] == values[..n - 1] + [values[n - 1]];
    }
  }

  // ---------------------------------------------------------------------
  // Points share of the window

  /** `points_pct_last_w`: the points of the window over the points it
      could have held, three per match of the window; 0 when the team has
      no earlier match (the zero denominator is `NaN`, then `fillna(0)`). */
  function PointsPct(pointsLast: int, matchNumber: nat, w: nat): (r: real)
    ensures Min(matchNumber, w) == 0 ==> r == 0.0
    ensures Min(matchNumber, w) > 0 ==> r * (3 * Min(matchNumber, w)) as real == pointsLast as real
  {
    var denom := 3 * Min(matchNumber, w);
    if denom == 0 then 0.0 else pointsLast as real / denom as real
  }

  /** With points from `outcome_points`, the points share of every window
      lies between 0 and 1. */
  lemma PointsPctBounds(teams: seq<int>, points: seq<int>, i: nat, w: nat)
    requires |teams| == |points| && i < |teams|
    requires forall k :: 0 <= k < |points| ==> 0 <= points[k] <= 3
    ensures var prior := TeamPrior(teams, points, teams[i], i);
      0.0 <= PointsPct(LastSum(prior, w), CumCount(teams, i), w) <= 1.0
  {
    var prior := TeamPrior(teams, points, teams[i], i);
    MatchNumberIsHistoryLength(teams, points, i);
    assert Bounded(points, 3);
    PriorWithin(teams, points, teams[i], i, 3);
    WindowPointsBounded(prior, w);
    PctOfBoundedPoints(LastSum(prior, w), |prior|, w);
  }

  /** A window of values between 0 and 3 sums to at most three per value. */
  lemma WindowPointsBounded(prior: seq<int>, w: nat)
    requires Bounded(prior, 3)
    ensures 0 <= LastSum(prior, w) <= 3 * Min(|prior|, w)
  {
    var m := Min(|prior|, w);
    BoundedSuffix(prior, |prior| - m, 3);
    SumBounds(prior[|prior| - m..], 3);
  }

  /** A window's points never exceed three per match, so its share is at
      most 1. */
  lemma PctOfBoundedPoints(s: int, n: nat, w: nat)
    requires 0 <= s <= 3 * Min(n, w)
    ensures 0.0 <= PointsPct(s, n, w) <= 1.0
  {
  }

  // ---------------------------------------------------------------------
  // Rest

  const SecondsPerDay: int := 86400
  const RestCap: real := 28.0
  const RestResetDays: real := 35.0

  /** `groupby("team_id")["match_datetime_utc"].diff()` in days: the days
      since the team's previous row, missing at its first. */
  function RestDays(teams: seq<int>, times: seq<int>, i: nat): (r: Option<real>)
    requires |teams| == |times| && i < |teams|
    ensures r.None? <==> CumCount(teams, i) == 0
  {
    MatchNumberIsHistoryLength(teams, times, i);
    var p := LastBefore(teams, teams[i], i);
    if p.None? then None else Some((times[i] - times[p.value]) as real / SecondsPerDay as real)
  }

  /** `rest_days_prev`: `rest_days` shifted by one row within the team,
      then `fillna(0)`. */
  function RestDaysPrev(teams: seq<int>, times: seq<int>, i: nat): real
    requires |teams| == |times| && i < |teams|
  {
    var p := LastBefore(teams, teams[i], i);
    if p.None? then 0.0
    else
      match RestDays(teams, times, p.value)
      case None => 0.0
      case Some(d) => d
  }

  /** Because `rest_days` is already the gap before a match, shifting it
      once more yields the gap between the team's two previous matches:
      0 for its first two matches. */
  lemma RestDaysPrevLagsTwo(teams: seq<int>, times: seq<int>, i: nat)
    requires |teams| == |times| && i < |teams|
    ensures var e := TeamPrior(teams, times, teams[i], i);
      RestDaysPrev(teams, times, i)
        == if |e| < 2 then 0.0 else (e[|e| - 1] - e[|e| - 2]) as real / SecondsPerDay as real
    ensures CumCount(teams, i) < 2 ==> RestDaysPrev(teams, times, i) == 0.0
  {
    var t := teams[i];
    var e := TeamPrior(teams, times, t, i);
    MatchNumberIsHistoryLength(teams, times, i);
    PriorAtLast(teams, times, t, i);
    var p := LastBefore(teams, t, i);
    if p.Some? {
      var j := p.value;
      PriorAtLast(teams, times, t, j);
      var q := LastBefore(teams, t, j);
      if q.Some? {
        var k := q.value;
        assert e == TeamPrior(teams, times, t, k) + [times[k]] + [times[j]];
        assert e[|e| - 1] == times[j] && e[|e| - 2] == times[k];
      }
    }
  }

  /** The long table is sorted by team and kick-off, so each team's rows
      come in time order; then no rest gap is negative, and the capped
      gap lies between 0 and the cap. */
  lemma RestNotNegative(teams: seq<int>, times: seq<int>, i: nat)
    requires |teams| == |times| && i < |teams|
    requires forall a, b :: 0 <= a < b < |teams| && teams[a] == teams[b] ==> times[a] <= times[b]
    ensures RestDays(teams, times, i).Some? ==> RestDays(teams, times, i).value >= 0.0
    ensures RestDaysPrev(teams, times, i) >= 0.0
    ensures 0.0 <= RestCapped(RestDaysPrev(teams, times, i)) <= RestCap
  {
    var p := LastBefore(teams, teams[i], i);
    if p.Some? {
      assert times[p.value] <= times[i];
      var q := LastBefore(teams, teams[i], p.value);
      if q.Some? {
        assert times[q.value] <= times[p.value];
      }
    }
  }

  /** `rest_days_capped`: `clip(upper=28)`. */
  function RestCapped(prev: real): (r: real)
    ensures r <= RestCap && r <= prev
    ensures r == prev || r == RestCap
  {
    if prev > RestCap then RestCap else prev
  }

  /** A gap of more than 35 days, the `rest_reset_flag`, is always capped:
      the flag carries what the cap hides. */
  lemma ResetImpliesCapped(prev: real)
    ensures prev > RestResetDays ==> RestCapped(prev) == RestCap
    ensures prev <= RestCap ==> RestCapped(prev) == prev
  {
  }

  // ---------------------------------------------------------------------
  // The rolling features of one row

  /** The integer columns rolled over windows of 3, 5 and 10 (the `xg_*`
      columns are floating point and left out). */
  datatype Column = Points | GoalsFor | GoalsAgainst | GoalDiff

  const Windows: seq<nat> := [3, 5, 10]

  function ColumnValue(g: TeamGame, c: Column): int {
    match c
    case Points => g.points
    case GoalsFor => g.goalsFor
    case GoalsAgainst => g.goalsAgainst
    case GoalDiff => g.goalDiff
  }

  function TeamsOf(long: seq<TeamGame>): seq<int> {
    seq(|long|, k requires 0 <= k < |long| => long[k].team)
  }

  function ColumnOf(long: seq<TeamGame>, c: Column): seq<int> {
    seq(|long|, k requires 0 <= k < |long| => ColumnValue(long[k], c))
  }

  function TimesOf(long: seq<TeamGame>): seq<int> {
    seq(|long|, k requires 0 <= k < |long| => long[k].time)
  }

  /** `{c}_last_{w}` of row `i`. */
  function LastW(long: seq<TeamGame>, i: nat, c: Column, w: nat): int
    requires i < |long|
  {
    LastSum(TeamPrior(TeamsOf(long), ColumnOf(long, c), long[i].team, i), w)
  }

  /** The per-team features a match row receives from each side. */
  datatype TeamFeatures = TeamFeatures(matchNumber: nat, restPrev: real, restCapped: real, restReset: bool,
                                       pointsLast5: int, pointsPct5: real, goalDiffLast5: int)

  /** `add_rolling_features` at row `i` of the long table. */
  function FeaturesAt(long: seq<TeamGame>, i: nat): (f: TeamFeatures)
    requires i < |long|
    ensures f.matchNumber == CumCount(TeamsOf(long), i)
    ensures f.restPrev == RestDaysPrev(TeamsOf(long), TimesOf(long), i)
    ensures f.restCapped <= RestCap && f.restCapped <= f.restPrev
    ensures f.restReset <==> f.restPrev > RestResetDays
    ensures f.restReset ==> f.restCapped == RestCap
    ensures f.matchNumber == 0 ==> f.pointsLast5 == 0 && f.pointsPct5 == 0.0 && f.goalDiffLast5 == 0
    ensures f.matchNumber < 2 ==> f.restPrev == 0.0
    ensures f.restCapped == (if f.restPrev > RestCap then RestCap else f.restPrev)
    ensures f.pointsLast5 == LastW(long, i, Points, 5)
    ensures f.goalDiffLast5 == LastW(long, i, GoalDiff, 5)
    ensures f.pointsPct5 == PointsPct(f.pointsLast5, f.matchNumber, 5)
  {
    var teams := TeamsOf(long);
    var n := CumCount(teams, i);
    var prev := RestDaysPrev(teams, TimesOf(long), i);
    RestDaysPrevLagsTwo(teams, TimesOf(long), i);
    MatchNumberIsHistoryLength(teams, ColumnOf(long, Points), i);
    MatchNumberIsHistoryLength(teams, ColumnOf(long, GoalDiff), i);
    var points5 := LastW(long, i, Points, 5);
    TeamFeatures(n, prev, RestCapped(prev), prev > RestResetDays, points5, PointsPct(points5, n, 5), LastW(long, i, GoalDiff, 5))
  }

  /** The rolling feature the one-pass method computes is the one a row
      receives. */
  lemma WindowSumsAreFeatures(long: seq<TeamGame>, c: Column, w: nat, sums: seq<int>)
    requires |sums| == |long|
    requires forall i :: 0 <= i < |long| ==>
               sums[i] == LastSum(TeamPrior(TeamsOf(long), ColumnOf(long, c), TeamsOf(long)[i], i), w)
    ensures forall i :: 0 <= i < |long| ==> sums[i] == LastW(long, i, c, w)
  {
  }

  // ---------------------------------------------------------------------
  // Pairing onto matches

  /** `season_phase_*`: matches played over 38, clipped at 1. */
  function SeasonPhase(played: nat): (r: real)
    ensures 0.0 <= r <= 1.0
    ensures r == 1.0 <==> played >= 38
    ensures played < 38 ==> r * 38.0 == played as real
  {
    var phase := played as real / 38.0;
    if phase > 1.0 then 1.0 else phase
  }

  lemma SeasonPhaseMonotone(a: nat, b: nat)
    requires a <= b
    ensures SeasonPhase(a) <= SeasonPhase(b)
  {
  }

  /** The match-level features of `pivot_features`. */
  datatype PairFeatures = PairFeatures(
    homePlayed: nat, awayPlayed: nat,
    formDiffLast5: int, formPctDiffLast5: real,
    restDiff: real, restResetPair: bool,
    seasonPhaseHome: real, seasonPhaseAway: real)

  /** `pivot_features` for one match, from the features of its home row
      and of its away row. */
  function Pair(home: TeamFeatures, away: TeamFeatures): (p: PairFeatures)
    ensures p.homePlayed == home.matchNumber && p.awayPlayed == away.matchNumber
    ensures p.formDiffLast5 == home.pointsLast5 - away.pointsLast5
    ensures p.formPctDiffLast5 == home.pointsPct5 - away.pointsPct5
    ensures p.restDiff == home.restCapped - away.restCapped
    ensures p.restResetPair <==> home.restReset || away.restReset
    ensures p.seasonPhaseHome == SeasonPhase(home.matchNumber) && p.seasonPhaseAway == SeasonPhase(away.matchNumber)
    ensures 0.0 <= p.seasonPhaseHome <= 1.0 && 0.0 <= p.seasonPhaseAway <= 1.0
  {
    PairFeatures(
      home.matchNumber, away.matchNumber,
      home.pointsLast5 - away.pointsLast5, home.pointsPct5 - away.pointsPct5,
      home.restCapped - away.restCapped, home.restReset || away.restReset,
      SeasonPhase(home.matchNumber), SeasonPhase(away.matchNumber))
  }

  /** The match row built from the long table's home row `h` and away row
      `a`: its form difference is the difference of the two sides' points
      over their previous five matches, its phases are their played counts
      over 38 until a full season, and it is flagged exactly when either
      side comes back after more than 35 days. */
  lemma PairOfRows(long: seq<TeamGame>, h: nat, a: nat)
    requires h < |long| && a < |long|
    ensures var p := Pair(FeaturesAt(long, h), FeaturesAt(long, a));
      && p.formDiffLast5 == LastW(long, h, Points, 5) - LastW(long, a, Points, 5)
      && (p.restResetPair <==> RestDaysPrev(TeamsOf(long), TimesOf(long), h) > RestResetDays
                               || RestDaysPrev(TeamsOf(long), TimesOf(long), a) > RestResetDays)
      && (CumCount(TeamsOf(long), h) < 38 ==> p.seasonPhaseHome * 38.0 == CumCount(TeamsOf(long), h) as real)
      && (CumCount(TeamsOf(long), h) >= 38 ==> p.seasonPhaseHome == 1.0)
  {
  }

  /** Swapping the sides negates every difference, keeps the pair flag,
      and swaps the played counts and phases. */
  lemma PairSwap(home: TeamFeatures, away: TeamFeatures)
    ensures var p := Pair(home, away);
      var q := Pair(away, home);
      && q.formDiffLast5 == -p.formDiffLast5 && q.formPctDiffLast5 == -p.formPctDiffLast5
      && q.restDiff == -p.restDiff && q.restResetPair == p.restResetPair
      && q.homePlayed == p.awayPlayed && q.seasonPhaseHome == p.seasonPhaseAway
  {
  }

  /** The rest difference lies within the cap whenever both gaps are not
      negative (kick-off times in order). */
  lemma RestDiffBounded(home: TeamFeatures, away: TeamFeatures)
    requires home.restCapped >= 0.0 && away.restCapped >= 0.0
    requires home.restCapped <= RestCap && away.restCapped <= RestCap
    ensures -RestCap <= Pair(home, away).restDiff <= RestCap
  {
  }

  // ---------------------------------------------------------------------
  // Column order

  const BaseCols: seq<string> := [
    "match_id", "league", "season", "match_datetime_utc", "match_date", "match_weekday",
    "home_team_id", "home_team_name", "away_team_id", "away_team_name"]

  const ResultCols: seq<string> := [
    "home_goals", "away_goals", "total_goals", "goal_difference", "home_xg", "away_xg",
    "xg_difference", "match_outcome", "match_outcome_code", "outcome_label", "outcome_id",
    "home_win_flag", "draw_flag", "away_win_flag", "home_points_actual", "away_points_actual"]

  const MarketCols: seq<string> := [
    "forecast_home_win", "forecast_draw", "forecast_away_win", "market_home_edge",
    "market_expected_points_home", "market_expected_points_away", "market_entropy",
    "market_logit_home", "market_max_prob"]

  /** The fixed leading columns, in order. */
  function FixedCols(): seq<string> {
    BaseCols + ResultCols + MarketCols
  }

  /** `col.startswith(("home_", "away_", "form_", "xg_", "season_phase", "rest_"))`. */
  predicate HasPerfPrefix(c: string) {
    || "home_" <= c || "away_" <= c || "form_" <= c
    || "xg_" <= c || "season_phase" <= c || "rest_" <= c
  }

  /** A performance column: a prefixed column that is not a base or
      result column. */
  predicate IsPerf(c: string) {
    HasPerfPrefix(c) && c !in BaseCols && c !in ResultCols
  }

  /** `perf_cols`: the performance columns of the frame, sorted by name. */
  function PerfCols(cols: seq<string>): seq<string> {
    Sort(Filter(cols, IsPerf), AsIs, false)
  }

  /** `remaining`: the frame's other columns, in frame order. */
  function RemainingCols(cols: seq<string>): (r: seq<string>)
    ensures forall c :: c in r <==> c in cols && c !in FixedCols() && c !in PerfCols(cols)
    ensures Distinct(cols) ==> Distinct(r)
  {
    var placed := FixedCols() + PerfCols(cols);
    FilterSpec(cols, (c: string) => c !in placed);
    Filter(cols, (c: string) => c !in placed)
  }

  /** `df[ordered]` names a fixed column the frame lacks. */
  datatype ReorderError = MissingColumns(names: seq<string>)

  /** `reorder_columns`: base, result and market columns, then the
      performance columns sorted by name, then the rest in frame order. A
      fixed column the frame lacks raises, naming every missing one. */
  function ReorderColumns(cols: seq<string>): (r: Result<seq<string>, ReorderError>)
    ensures r.Success? <==> forall k :: 0 <= k < |FixedCols()| ==> FixedCols()[k] in cols
    ensures r.Failure? ==> r.error.names != [] && forall n :: n in r.error.names ==> n in FixedCols() && n !in cols
    ensures r.Success? ==> r.value == FixedCols() + PerfCols(cols) + RemainingCols(cols)
  {
    var missing := Missing(FixedCols(), cols);
    if missing != [] then
      Failure(MissingColumns(missing))
    else
      Success(FixedCols() + PerfCols(cols) + RemainingCols(cols))
  }

  /** The names of `want` that `cols` lacks, in the order of `want`. */
  function Missing(want: seq<string>, cols: seq<string>): (r: seq<string>)
    ensures r == [] <==> forall k :: 0 <= k < |want| ==> want[k] in cols
    ensures forall n :: n in r ==> n in want && n !in cols
  {
    var missing := Filter(want, (c: string) => c !in cols);
    FilterSpec(want, (c: string) => c !in cols);
    if missing != [] then
      assert missing[0] in missing;
      missing
    else
      assert forall k :: 0 <= k < |want| ==> want[k] in want;
      missing
  }

  /** The performance section is sorted and holds exactly the frame's
      performance columns. */
  lemma PerfColsSpec(cols: seq<string>)
    ensures SortedBy(PerfCols(cols), AsIs, false)
    ensures forall c :: c in PerfCols(cols) <==> c in cols && IsPerf(c)
    ensures Distinct(cols) ==> Distinct(PerfCols(cols))
  {
    var f := Filter(cols, IsPerf);
    FilterSpec(cols, IsPerf);
    SortSpec(f, AsIs, false);
    forall c ensures c in PerfCols(cols) <==> c in f {
      assert c in PerfCols(cols) <==> c in multiset(PerfCols(cols));
      assert c in f <==> c in multiset(f);
    }
    if Distinct(cols) {
      DistinctPermutation(f, PerfCols(cols));
    }
  }

  lemma BaseDistinct() ensures Distinct(BaseCols) {}
  lemma ResultDistinct() ensures Distinct(ResultCols) {}
  lemma MarketDistinct() ensures Distinct(MarketCols) {}
  lemma BaseResultDisjoint() ensures Disjoint(BaseCols, ResultCols) {}
  lemma BaseMarketDisjoint() ensures Disjoint(BaseCols, MarketCols) {}
  lemma ResultMarketDisjoint() ensures Disjoint(ResultCols, MarketCols) {}

  /** A prefix must agree with the text at every position it covers. */
  lemma NotPrefixAt(p: string, c: string, i: nat)
    requires i < |p| && i < |c| && p[i] != c[i]
    ensures !(p <= c)
  {
  }

  /** No market column carries a performance prefix: each starts with
      `m`, or with `fore` where the only `f` prefix reads `form`. */
  lemma MarketNotPerf()
    ensures forall k :: 0 <= k < |MarketCols| ==> !HasPerfPrefix(MarketCols[k])
  {
    forall k | 0 <= k < |MarketCols| ensures !HasPerfPrefix(MarketCols[k]) {
      var c := MarketCols[k];
      assert |c| > 3 && (c[0] == 'm' || (c[0] == 'f' && c[3] == 'e'));
      NotPrefixAt("home_", c, 0);
      NotPrefixAt("away_", c, 0);
      NotPrefixAt("xg_", c, 0);
      NotPrefixAt("season_phase", c, 0);
      NotPrefixAt("rest_", c, 0);
      if c[0] == 'm' {
        NotPrefixAt("form_", c, 0);
      } else {
        NotPrefixAt("form_", c, 3);
      }
    }
  }

  /** The fixed columns are free of duplicates. */
  lemma FixedDistinct()
    ensures Distinct(FixedCols())
  {
    BaseDistinct();
    ResultDistinct();
    MarketDistinct();
    BaseResultDisjoint();
    BaseMarketDisjoint();
    ResultMarketDisjoint();
    DistinctConcat(BaseCols, ResultCols);
    var br := BaseCols + ResultCols;
    assert Disjoint(br, MarketCols) by {
      forall i, j | 0 <= i < |br| && 0 <= j < |MarketCols| ensures br[i] != MarketCols[j] {
        if i >= |BaseCols| {
          assert br[i] == ResultCols[i - |BaseCols|];
        }
      }
    }
    DistinctConcat(br, MarketCols);
  }

  /** No performance column is a fixed column. */
  lemma PerfNotFixed(cols: seq<string>)
    ensures Disjoint(FixedCols(), PerfCols(cols))
  {
    PerfColsSpec(cols);
    MarketNotPerf();
    var f := FixedCols();
    var p := PerfCols(cols);
    forall i, j | 0 <= i < |f| && 0 <= j < |p| ensures f[i] != p[j] {
      assert p[j] in p;
      if i < |BaseCols| {
        assert f[i] == BaseCols[i];
      } else if i < |BaseCols| + |ResultCols| {
        assert f[i] == ResultCols[i - |BaseCols|];
      } else {
        assert f[i] == MarketCols[i - |BaseCols| - |ResultCols|];
      }
    }
  }

  /** When the frame's columns are distinct and the call succeeds, the
      result is a reordering of the frame's columns: each appears exactly
      once. */
  lemma ReorderIsPermutation(cols: seq<string>)
    requires Distinct(cols)
    requires ReorderColumns(cols).Success?
    ensures Distinct(ReorderColumns(cols).value)
    ensures multiset(ReorderColumns(cols).value) == multiset(cols)
  {
    var f := FixedCols();
    var p := PerfCols(cols);
    FixedDistinct();
    PerfColsSpec(cols);
    PerfNotFixed(cols);
    DistinctConcat(f, p);
    forall c | c in f + p ensures c in cols {
      if c in f {
        var k :| 0 <= k < |f| && f[k] == c;
      }
    }
    PartitionPermutation(cols, f + p, RemainingCols(cols));
    assert ReorderColumns(cols).value == (f + p) + RemainingCols(cols);
  }
}

=== FILE: notebook_catalog.dfy ===
/** The notebook catalog (`pipelines/notebook_catalog.py`): finds the newest
    training-notebook run under the experiments directory, reads the
    `metrics.json` of each model in it, and resolves the dataset version.

    The directory tree is a parameter: a run directory is given with its
    listing, and each child of a run carries the parsed `metrics.json` when
    that file exists. */
module NotebookCatalog {
  import opened Wrappers
  import opened Text

  const RunPrefix: string := "run_"

  // ---------------------------------------------------------------------
  // Dataset versions

  predicate NotDigit(c: char) { !IsDigit(c) }

  predicate NoDigit(s: string) {
    forall k :: 0 <= k < |s| ==> !IsDigit(s[k])
  }

  /** `d` is the first maximal run of digits in `s`. */
  ghost predicate IsFirstDigitRun(s: string, d: string) {
    exists i :: FirstDigitRunAt(s, d, i)
  }

  /** `d` is a maximal run of digits starting at `i`, and no digit comes before `i`. */
  predicate FirstDigitRunAt(s: string, d: string, i: int) {
    && 0 <= i && i + |d| <= |s|
    && NoDigit(s[..i])
    && s[i..i + |d|] == d
    && IsDigitString(d)
    && (i + |d| == |s| || !IsDigit(s[i + |d|]))
  }

  /** `_extract_dataset_version`: the first run of digits in the label
      (`re.search(r"(\d+)")`), or `None` for a missing or empty label or one
      without digits. */
  function ExtractDatasetVersion(datasetLabel: Option<string>): (r: Option<string>)
    ensures r.None? <==> !IsSet(datasetLabel) || NoDigit(datasetLabel.value)
    ensures r.Some? ==> IsFirstDigitRun(datasetLabel.value, r.value)
  {
    if !IsSet(datasetLabel) then None
    else
      var s := datasetLabel.value;
      var rest := DropWhile(s, NotDigit);
      if rest == [] then
        assert NoDigit(s) by {
          forall k | 0 <= k < |s| ensures !IsDigit(s[k]) {
            assert NotDigit(s[k]);
          }
        }
        None
      else
        var d := TakeWhile(rest, IsDigit);
        var i := |s| - |rest|;
        assert s[i..] == rest;
        assert d != [] by { assert IsDigit(rest[0]); }
        assert FirstDigitRunAt(s, d, i) by {
          assert s[i..i + |d|] == rest[..|d|];
          forall k | 0 <= k < i ensures !IsDigit(s[..i][k]) {
            assert NotDigit(s[k]);
          }
          if i + |d| < |s| {
            assert s[i + |d|] == rest[|d|];
          }
        }
        assert !NoDigit(s) by { assert IsDigit(s[i]); }
        Some(d)
  }

  /** A string has at most one first maximal run of digits. */
  lemma FirstDigitRunUnique(s: string, d1: string, i1: int, d2: string, i2: int)
    requires FirstDigitRunAt(s, d1, i1) && FirstDigitRunAt(s, d2, i2)
    ensures i1 == i2 && d1 == d2
  {
    forall j | 0 <= j < i1 ensures !IsDigit(s[j]) { assert s[j] == s[..i1][j]; }
    forall j | 0 <= j < i2 ensures !IsDigit(s[j]) { assert s[j] == s[..i2][j]; }
    forall j | i1 <= j < i1 + |d1| ensures IsDigit(s[j]) { assert s[j] == s[i1..i1 + |d1|][j - i1]; }
    forall j | i2 <= j < i2 + |d2| ensures IsDigit(s[j]) { assert s[j] == s[i2..i2 + |d2|][j - i2]; }
    assert IsDigit(s[i1]) && IsDigit(s[i2]);
    assert i1 == i2;
    assert |d1| == |d2|;
  }

  /** Read backwards: whatever digit-free text precedes a run of digits, and
      whatever non-digit follows it, the run is what is extracted. */
  lemma ExtractFindsDigitRun(pre: string, d: string, post: string)
    requires NoDigit(pre) && IsDigitString(d)
    requires post == [] || !IsDigit(post[0])
    ensures ExtractDatasetVersion(Some(pre + d + post)) == Some(d)
  {
    var s := pre + d + post;
    assert FirstDigitRunAt(s, d, |pre|) by {
      assert s[..|pre|] == pre;
      assert s[|pre|..|pre| + |d|] == d;
      assert |pre| + |d| < |s| ==> s[|pre| + |d|] == post[0];
    }
    assert !NoDigit(s) by { assert IsDigit(s[|pre|]) by { assert s[|pre|] == d[0]; } }
    var r := ExtractDatasetVersion(Some(s));
    var i :| FirstDigitRunAt(s, r.value, i);
    FirstDigitRunUnique(s, r.value, i, d, |pre|);
  }

  /** `resolve_dataset_version`: an explicit version wins; then the digits of
      the label; then the first non-empty fallback; otherwise `None`. */
  function ResolveDatasetVersion(explicit: Option<string>, datasetLabel: Option<string>,
                                 fallbacks: Option<seq<string>>): (r: Option<string>)
    ensures IsSet(explicit) ==> r == explicit
    ensures !IsSet(explicit) && ExtractDatasetVersion(datasetLabel).Some? ==> r == ExtractDatasetVersion(datasetLabel)
    ensures !IsSet(explicit) && ExtractDatasetVersion(datasetLabel).None? ==> r == FirstNonEmpty(fallbacks.GetOr([]))
    ensures r.Some? ==> r.value != ""
  {
    if IsSet(explicit) then explicit
    else
      var labelVersion := ExtractDatasetVersion(datasetLabel);
      if labelVersion.Some? then labelVersion
      else if fallbacks.Some? && fallbacks.value != [] then FirstNonEmpty(fallbacks.value)
      else None
  }

  /** The first non-empty string of `xs`, if any. */
  function FirstNonEmpty(xs: seq<string>): (r: Option<string>)
    ensures r.None? <==> forall k :: 0 <= k < |xs| ==> xs[k] == ""
    ensures r.Some? ==> exists k :: 0 <= k < |xs| && xs[k] == r.value && r.value != ""
                                    && forall k' :: 0 <= k' < k ==> xs[k'] == ""
  {
    if xs == [] then None
    else if xs[0] != "" then
      Some(xs[0])
    else
      var r := FirstNonEmpty(xs[1..]);
      if r.Some? then
        var k :| 0 <= k < |xs[1..]| && xs[1..][k] == r.value && r.value != ""
                 && forall k' :: 0 <= k' < k ==> xs[1..][k'] == "";
        assert xs[k + 1] == r.value;
        assert forall k' :: 0 <= k' < k + 1 ==> xs[k'] == "" by {
          forall k' | 0 <= k' < k + 1 ensures xs[k'] == "" {
            if k' > 0 { assert xs[k'] == xs[1..][k' - 1]; }
          }
        }
        r
      else
        assert forall k :: 0 <= k < |xs| ==> xs[k] == "" by {
          forall k | 0 <= k < |xs| ensures xs[k] == "" {
            if k > 0 { assert xs[k] == xs[1..][k - 1]; }
          }
        }
        r
  }

  /** The precedence chain in one statement: the result is `None` exactly
      when nothing is set, has no digits and every fallback is empty. */
  lemma ResolveNoneIff(explicit: Option<string>, datasetLabel: Option<string>, fallbacks: Option<seq<string>>)
    ensures ResolveDatasetVersion(explicit, datasetLabel, fallbacks).None? <==>
      (!IsSet(explicit) && (!IsSet(datasetLabel) || NoDigit(datasetLabel.value))
       && forall k :: 0 <= k < |fallbacks.GetOr([])| ==> fallbacks.GetOr([])[k] == "")
  {
  }

  // ---------------------------------------------------------------------
  // Runs and their models

  /** The value under `feature_cols` in `metrics.json`: a list of column
      names, or anything else (absent, `null`, a string, a number, an object). */
  datatype FeatureColsValue = ColsList(cols: seq<string>) | ColsOther

  /** The parts of `metrics.json` the catalog reads. */
  datatype Metrics = Metrics(featureCols: FeatureColsValue, datasetLabel: Option<string>)

  /** A child of a run directory; `metrics` is the parsed `metrics.json`
      inside it, when the child is a directory holding that file. */
  datatype ModelDir = ModelDir(name: string, isDir: bool, metrics: Option<Metrics>)

  /** A child of the experiments root, with its own listing. */
  datatype RunDir = RunDir(name: string, isDir: bool, children: seq<ModelDir>)

  /** `NotebookModelSpec` without its metrics path. */
  datatype ModelSpec = ModelSpec(name: string, featureCols: seq<string>, datasetLabel: Option<string>)

  /** `NotebookRun`: `models` is the insertion-ordered dictionary from model
      name to spec, as a sequence of distinct-keyed pairs. */
  datatype NotebookRun = NotebookRun(runId: string, models: seq<(string, ModelSpec)>)

  datatype CatalogError = RunDirNotFound | RunPathNotADirectory | RootNotADirectory

  function Keys<V>(d: seq<(string, V)>): seq<string> {
    seq(|d|, k requires 0 <= k < |d| => d[k].0)
  }

  /** Python's `d[key] = value` on an insertion-ordered dictionary: an
      existing key keeps its position and takes the new value; a new key goes
      at the end. */
  function DictPut<V>(d: seq<(string, V)>, key: string, value: V): (r: seq<(string, V)>)
    requires Distinct(Keys(d))
    ensures Distinct(Keys(r))
    ensures key in Keys(d) ==> Keys(r) == Keys(d)
    ensures key !in Keys(d) ==> Keys(r) == Keys(d) + [key] && r[|d|] == (key, value)
    ensures forall k :: 0 <= k < |d| ==> r[k] == (if d[k].0 == key then (key, value) else d[k])
  {
    if key in Keys(d) then
      var i := KeyIndex(d, key);
      var r := d[i := (key, value)];
      assert Keys(r) == Keys(d);
      assert forall k :: 0 <= k < |d| && k != i ==> d[k].0 != key by {
        forall k | 0 <= k < |d| && k != i ensures d[k].0 != key {
          assert Keys(d)[k] != Keys(d)[i];
        }
      }
      r
    else
      var r := d + [(key, value)];
      assert Keys(r) == Keys(d) + [key];
      assert forall k :: 0 <= k < |d| ==> d[k].0 != key by {
        forall k | 0 <= k < |d| ensures d[k].0 != key {
          assert Keys(d)[k] == d[k].0;
        }
      }
      r
  }

  /** The position of `key` in the dictionary. */
  function KeyIndex<V>(d: seq<(string, V)>, key: string): (i: nat)
    requires key in Keys(d)
    ensures i < |d| && d[i].0 == key
  {
    if d[0].0 == key then 0
    else
      assert Keys(d) == [d[0].0] + Keys(d[1..]);
      1 + KeyIndex(d[1..], key)
  }

  /** `_load_model_spec`: a directory with a `metrics.json` gives a spec;
      `feature_cols` that is not a list (or is missing) becomes empty. */
  function LoadModelSpec(child: ModelDir): (r: Option<ModelSpec>)
    ensures r.Some? <==> child.isDir && child.metrics.Some?
    ensures r.Some? ==> r.value.name == child.name && r.value.datasetLabel == child.metrics.value.datasetLabel
    ensures r.Some? && child.metrics.value.featureCols.ColsList? ==> r.value.featureCols == child.metrics.value.featureCols.cols
    ensures r.Some? && child.metrics.value.featureCols.ColsOther? ==> r.value.featureCols == []
  {
    if child.isDir && child.metrics.Some? then
      var m := child.metrics.value;
      Some(ModelSpec(child.name, if m.featureCols.ColsList? then m.featureCols.cols else [], m.datasetLabel))
    else None
  }

  /** The child of a directory listing with the given name. */
  function Child(children: seq<ModelDir>, name: string): (r: Option<ModelDir>)
    ensures r.Some? <==> exists c :: c in children && c.name == name
    ensures r.Some? ==> r.value in children && r.value.name == name
  {
    if children == [] then None
    else if children[0].name == name then Some(children[0])
    else
      assert children == [children[0]] + children[1..];
      Child(children[1..], name)
  }

  /** The names `load_notebook_run` visits: the given model names when there
      are any, else the names of the run's sub-directories in listing order. */
  function NamesToLoad(run: RunDir, modelNames: Option<seq<string>>): seq<string> {
    if modelNames.Some? && modelNames.value != [] then modelNames.value
    else DirNames(run.children)
  }

  /** The names of the sub-directories in a listing, in listing order. */
  function DirNames(children: seq<ModelDir>): (r: seq<string>)
    ensures forall n :: n in r <==> exists c :: c in children && c.isDir && c.name == n
  {
    if children == [] then []
    else
      assert children == [children[0]] + children[1..];
      if children[0].isDir then [children[0].name] + DirNames(children[1..]) else DirNames(children[1..])
  }

  /** The spec `load_notebook_run` reads for `name`: present when the run
      has a child of that name that is a directory with a `metrics.json`. */
  function Loaded(children: seq<ModelDir>, name: string): (r: Option<ModelSpec>)
    ensures r.Some? ==> exists c :: c in children && c.name == name && c.isDir && c.metrics.Some? && LoadModelSpec(c) == r
    ensures (forall c :: c in children ==> c.name != name) ==> r.None?
    ensures r.Some? ==> r.value.name == name
  {
    var child := Child(children, name);
    if child.Some? then LoadModelSpec(child.value) else None
  }

  /** One pass of the loop of `load_notebook_run`: a name with a spec is put
      into the dictionary. */
  function LoadStep(children: seq<ModelDir>, name: string, acc: seq<(string, ModelSpec)>): (r: seq<(string, ModelSpec)>)
    requires Distinct(Keys(acc))
    ensures Distinct(Keys(r))
  {
    var spec := Loaded(children, name);
    if spec.Some? then DictPut(acc, name, spec.value) else acc
  }

  /** The loop of `load_notebook_run` over `names`. */
  function LoadModels(children: seq<ModelDir>, names: seq<string>, acc: seq<(string, ModelSpec)>): (r: seq<(string, ModelSpec)>)
    requires Distinct(Keys(acc))
    ensures Distinct(Keys(r))
    decreases |names|
  {
    if names == [] then acc
    else LoadModels(children, names[1..], LoadStep(children, names[0], acc))
  }

  /** Every entry of `acc` is the spec read for its name. */
  predicate AllLoaded(children: seq<ModelDir>, acc: seq<(string, ModelSpec)>) {
    forall k :: 0 <= k < |acc| ==> Loaded(children, acc[k].0) == Some(acc[k].1)
  }

  /** A pass keeps the entries read so far in place and adds `name` exactly
      when it has a spec. */
  lemma LoadStepSpec(children: seq<ModelDir>, name: string, acc: seq<(string, ModelSpec)>)
    requires Distinct(Keys(acc)) && AllLoaded(children, acc)
    ensures var r := LoadStep(children, name, acc);
      && AllLoaded(children, r)
      && Keys(acc) <= Keys(r)
      && (forall n :: n in Keys(r) <==> n in Keys(acc) || (n == name && Loaded(children, n).Some?))
  {
    var r := LoadStep(children, name, acc);
    if Loaded(children, name).Some? {
      forall k | 0 <= k < |r| ensures Loaded(children, r[k].0) == Some(r[k].1) {
        if k < |acc| {
          assert r[k] == (if acc[k].0 == name then (name, Loaded(children, name).value) else acc[k]);
        }
      }
    }
  }

  /** The models of a loaded run are exactly the visited names that have a
      spec, each once; names already present keep their place, and each
      entry holds the spec read for its name. */
  lemma {:induction false} LoadModelsSpec(children: seq<ModelDir>, names: seq<string>, acc: seq<(string, ModelSpec)>)
    requires Distinct(Keys(acc)) && AllLoaded(children, acc)
    ensures var r := LoadModels(children, names, acc);
      && AllLoaded(children, r)
      && Keys(acc) <= Keys(r)
      && (forall n :: n in Keys(r) <==> n in Keys(acc) || (n in names && Loaded(children, n).Some?))
    decreases |names|
  {
    if names != [] {
      var acc' := LoadStep(children, names[0], acc);
      LoadStepSpec(children, names[0], acc);
      LoadModelsSpec(children, names[1..], acc');
      assert names == [names[0]] + names[1..];
    }
  }

  /** `load_notebook_run` on a run directory that exists. Listing the run
      fails when it is not a directory and no model names are given. */
  function LoadRun(run: RunDir, modelNames: Option<seq<string>>): (r: Result<NotebookRun, CatalogError>)
    ensures r.Failure? <==> !run.isDir && !(modelNames.Some? && modelNames.value != [])
    ensures r.Success? ==> r.value.runId == run.name && Distinct(Keys(r.value.models))
  {
    if !run.isDir && !(modelNames.Some? && modelNames.value != []) then Failure(RunPathNotADirectory)
    else Success(NotebookRun(run.name, LoadModels(run.children, NamesToLoad(run, modelNames), [])))
  }

  /** `load_notebook_run`: a run directory that does not exist raises. */
  function LoadNotebookRun(run: Option<RunDir>, modelNames: Option<seq<string>>): (r: Result<NotebookRun, CatalogError>)
    ensures run.None? <==> r == Failure(RunDirNotFound)
    ensures run.Some? ==> r == LoadRun(run.value, modelNames)
  {
    if run.None? then Failure(RunDirNotFound) else LoadRun(run.value, modelNames)
  }

  /** A run loaded without explicit names holds exactly the sub-directories
      that have a `metrics.json`; with names, exactly those of the given
      names. Every spec is the one read from its directory. */
  lemma LoadedModels(run: RunDir, modelNames: Option<seq<string>>)
    requires run.isDir
    ensures var ms := LoadRun(run, modelNames).value.models;
      && (forall n :: n in Keys(ms) <==>
            Loaded(run.children, n).Some?
            && (if modelNames.Some? && modelNames.value != [] then n in modelNames.value
                else exists c :: c in run.children && c.isDir && c.name == n))
      && AllLoaded(run.children, ms)
  {
    LoadModelsSpec(run.children, NamesToLoad(run, modelNames), []);
    var names := NamesToLoad(run, modelNames);
    if !(modelNames.Some? && modelNames.value != []) {
      assert names == DirNames(run.children);
    }
  }

  // ---------------------------------------------------------------------
  // Properties of a run

  function Specs(run: NotebookRun): seq<ModelSpec> {
    seq(|run.models|, k requires 0 <= k < |run.models| => run.models[k].1)
  }

  /** `NotebookModelSpec.dataset_version`. */
  function VersionOf(spec: ModelSpec): Option<string> {
    ExtractDatasetVersion(spec.datasetLabel)
  }

  /** The dataset version of each model that has one, in model order. */
  function KnownVersions(specs: seq<ModelSpec>): (r: seq<string>)
    ensures forall v :: v in r <==> exists m :: m in specs && VersionOf(m) == Some(v)
  {
    if specs == [] then []
    else
      assert specs == [specs[0]] + specs[1..];
      var v := VersionOf(specs[0]);
      if v.Some? then [v.value] + KnownVersions(specs[1..]) else KnownVersions(specs[1..])
  }

  /** `NotebookRun.dataset_versions`. */
  function DatasetVersions(run: NotebookRun): seq<string> {
    Dedup(KnownVersions(Specs(run)))
  }

  /** The dataset versions are the models' extractable versions, each once,
      in the order the models first give them; none is empty. */
  lemma DatasetVersionsSpec(run: NotebookRun)
    ensures var vs := DatasetVersions(run);
      && Distinct(vs)
      && (forall v :: v in vs <==> exists k :: 0 <= k < |run.models| && VersionOf(run.models[k].1) == Some(v))
      && (forall i, j :: 0 <= i < j < |vs| ==> FirstSeenBefore(KnownVersions(Specs(run)), vs[i], vs[j]))
      && (forall v :: v in vs ==> IsDigitString(v))
  {
    var specs := Specs(run);
    DedupSpec(KnownVersions(specs));
    forall v ensures v in DatasetVersions(run) <==> exists k :: 0 <= k < |run.models| && VersionOf(run.models[k].1) == Some(v) {
      if v in DatasetVersions(run) {
        var m :| m in specs && VersionOf(m) == Some(v);
        var k :| 0 <= k < |specs| && specs[k] == m;
        assert VersionOf(run.models[k].1) == Some(v);
      }
      if exists k :: 0 <= k < |run.models| && VersionOf(run.models[k].1) == Some(v) {
        var k :| 0 <= k < |run.models| && VersionOf(run.models[k].1) == Some(v);
        assert specs[k] in specs;
      }
    }
    forall v | v in DatasetVersions(run) ensures IsDigitString(v) {
      var m :| m in specs && VersionOf(m) == Some(v);
      var i :| FirstDigitRunAt(m.datasetLabel.value, v, i);
    }
  }

  /** `NotebookRun.feature_columns`: each model's feature columns by name. */
  function FeatureColumns(run: NotebookRun): (r: map<string, seq<string>>)
    requires Distinct(Keys(run.models))
    ensures r.Keys == set k | 0 <= k < |run.models| :: run.models[k].0
    ensures forall k :: 0 <= k < |run.models| ==> r[run.models[k].0] == run.models[k].1.featureCols
  {
    assert forall k :: 0 <= k < |run.models| ==> Keys(run.models)[k] == run.models[k].0;
    map k | 0 <= k < |run.models| :: run.models[k].0 := run.models[k].1.featureCols
  }

  function AllFeatureLists(run: NotebookRun): seq<seq<string>> {
    seq(|run.models|, k requires 0 <= k < |run.models| => run.models[k].1.featureCols)
  }

  /** `NotebookRun.required_features`. */
  function RequiredFeatures(run: NotebookRun): seq<string> {
    Dedup(Flatten(AllFeatureLists(run)))
  }

  /** Every feature of every model appears exactly once among the required
      features, and nothing else does, in order of first occurrence. */
  lemma RequiredFeaturesSpec(run: NotebookRun)
    ensures var fs := RequiredFeatures(run);
      && Distinct(fs)
      && (forall f :: f in fs <==> exists k :: 0 <= k < |run.models| && f in run.models[k].1.featureCols)
      && (forall i, j :: 0 <= i < j < |fs| ==> FirstSeenBefore(Flatten(AllFeatureLists(run)), fs[i], fs[j]))
  {
    var all := AllFeatureLists(run);
    DedupSpec(Flatten(all));
    forall f ensures f in Flatten(all) <==> exists k :: 0 <= k < |run.models| && f in run.models[k].1.featureCols {
      FlattenMember(all, f);
      assert forall k :: 0 <= k < |all| ==> all[k] == run.models[k].1.featureCols;
    }
  }

  // ---------------------------------------------------------------------
  // Discovery

  /** `_is_run_dir`: a directory whose name starts with `run_`. */
  predicate IsRunDir(d: RunDir) {
    d.isDir && RunPrefix <= d.name
  }

  function RunName(d: RunDir): string { d.name }

  function RunDirsOf(listing: seq<RunDir>): (r: seq<RunDir>)
    ensures forall d :: d in r <==> d in listing && IsRunDir(d)
    ensures multiset(r) <= multiset(listing)
  {
    if listing == [] then []
    else
      var tail := RunDirsOf(listing[1..]);
      assert listing == [listing[0]] + listing[1..];
      if IsRunDir(listing[0]) then [listing[0]] + tail else tail
  }

  /** `_sorted_run_dirs`: the run directories of the listing, newest name first. */
  function SortedRunDirs(listing: seq<RunDir>): (r: seq<RunDir>)
    ensures forall d :: d in r <==> d in listing && IsRunDir(d)
    ensures forall k :: 0 <= k < |r| ==> IsRunDir(r[k])
    ensures SortedBy(r, RunName, true)
    ensures multiset(r) == multiset(RunDirsOf(listing))
  {
    var r := Sort(RunDirsOf(listing), RunName, true);
    SortSpec(RunDirsOf(listing), RunName, true);
    assert forall d :: d in r <==> d in RunDirsOf(listing) by {
      forall d ensures d in r <==> d in RunDirsOf(listing) {
        assert d in r <==> d in multiset(r);
        assert d in RunDirsOf(listing) <==> d in multiset(RunDirsOf(listing));
      }
    }
    r
  }

  /** The first run, in the given order, that loads at least one model. */
  function FirstWithModels(dirs: seq<RunDir>, modelNames: Option<seq<string>>): (r: Option<NotebookRun>)
    requires forall k :: 0 <= k < |dirs| ==> dirs[k].isDir
    ensures r.None? <==> forall k :: 0 <= k < |dirs| ==> LoadRun(dirs[k], modelNames).value.models == []
    ensures r.Some? ==> exists k :: 0 <= k < |dirs| && FirstLoadedAt(dirs, modelNames, k) && r.value == LoadRun(dirs[k], modelNames).value
  {
    if dirs == [] then None
    else
      var run := LoadRun(dirs[0], modelNames).value;
      if run.models != [] then
        assert FirstLoadedAt(dirs, modelNames, 0);
        Some(run)
      else
        var r := FirstWithModels(dirs[1..], modelNames);
        if r.Some? then
          var k :| 0 <= k < |dirs[1..]| && FirstLoadedAt(dirs[1..], modelNames, k) && r.value == LoadRun(dirs[1..][k], modelNames).value;
          assert FirstLoadedAt(dirs, modelNames, k + 1) by {
            forall j | 0 <= j < k + 1 ensures LoadRun(dirs[j], modelNames).value.models == [] {
              if j > 0 { assert dirs[j] == dirs[1..][j - 1]; }
            }
          }
          r
        else
          assert forall k :: 0 <= k < |dirs| ==> LoadRun(dirs[k], modelNames).value.models == [] by {
            forall k | 0 <= k < |dirs| ensures LoadRun(dirs[k], modelNames).value.models == [] {
              if k > 0 { assert dirs[k] == dirs[1..][k - 1]; }
            }
          }
          r
  }

  /** Run `k` has models and every run before it has none. */
  predicate FirstLoadedAt(dirs: seq<RunDir>, modelNames: Option<seq<string>>, k: int)
    requires forall j :: 0 <= j < |dirs| ==> dirs[j].isDir
  {
    && 0 <= k < |dirs|
    && LoadRun(dirs[k], modelNames).value.models != []
    && forall j :: 0 <= j < k ==> LoadRun(dirs[j], modelNames).value.models == []
  }

  /** The experiments root as discovery finds it: missing, an existing path
      that is not a directory, or a directory with its listing. */
  datatype Root = RootMissing | RootFile | RootDir(listing: seq<RunDir>)

  /** `discover_latest_notebook_run`: `None` when the experiments root is
      missing; `iterdir` raises on a root that is not a directory; otherwise
      the first run, newest name first, that has at least one model, or
      `None` when none has. */
  function DiscoverLatestNotebookRun(root: Root, modelNames: Option<seq<string>>): (r: Result<Option<NotebookRun>, CatalogError>)
    ensures root.RootMissing? ==> r == Success(None)
    ensures r.Failure? <==> root.RootFile?
    ensures r.Failure? ==> r.error == RootNotADirectory
    ensures root.RootDir? ==> r == Success(FirstWithModels(SortedRunDirs(root.listing), modelNames))
  {
    match root
    case RootMissing => Success(None)
    case RootFile => Failure(RootNotADirectory)
    case RootDir(listing) => Success(FirstWithModels(SortedRunDirs(listing), modelNames))
  }

  /** When discovery in a directory finds nothing, no run directory of it
      has a model. */
  lemma DiscoveredNothing(root: seq<RunDir>, modelNames: Option<seq<string>>)
    requires DiscoverLatestNotebookRun(RootDir(root), modelNames) == Success(None)
    ensures forall d :: d in root && IsRunDir(d) ==> LoadRun(d, modelNames).value.models == []
  {
    var dirs := SortedRunDirs(root);
    forall d | d in root && IsRunDir(d) ensures LoadRun(d, modelNames).value.models == [] {
      assert d in dirs;
    }
  }

  /** `d` is a run directory of `root` with models, and no run directory of
      `root` with a later name has any. */
  predicate NewestWithModels(root: seq<RunDir>, modelNames: Option<seq<string>>, d: RunDir) {
    && d in root && IsRunDir(d)
    && LoadRun(d, modelNames).value.models != []
    && forall e :: e in root && IsRunDir(e) && LexLe(d.name, e.name) && e.name != d.name ==>
         LoadRun(e, modelNames).value.models == []
  }

  /** The discovered run is a run directory of the root with models, and no
      run directory with a later name has any. */
  lemma DiscoveredIsNewestWithModels(root: seq<RunDir>, modelNames: Option<seq<string>>)
    requires DiscoverLatestNotebookRun(RootDir(root), modelNames).Success?
    requires DiscoverLatestNotebookRun(RootDir(root), modelNames).value.Some?
    ensures exists d :: NewestWithModels(root, modelNames, d)
                        && DiscoverLatestNotebookRun(RootDir(root), modelNames).value.value == LoadRun(d, modelNames).value
  {
    var dirs := SortedRunDirs(root);
    var r := DiscoverLatestNotebookRun(RootDir(root), modelNames).value;
    var k :| 0 <= k < |dirs| && FirstLoadedAt(dirs, modelNames, k) && r.value == LoadRun(dirs[k], modelNames).value;
    var d := dirs[k];
    assert d in dirs;
    forall e | e in root && IsRunDir(e) && LexLe(d.name, e.name) && e.name != d.name
      ensures LoadRun(e, modelNames).value.models == []
    {
      assert e in dirs;
      NewerComesFirst(dirs, k, e);
    }
    assert NewestWithModels(root, modelNames, d);
  }

  /** In a list sorted newest name first, a strictly newer name sits before position `k`. */
  lemma NewerComesFirst(dirs: seq<RunDir>, k: nat, e: RunDir)
    requires SortedBy(dirs, RunName, true) && k < |dirs| && e in dirs
    requires LexLe(dirs[k].name, e.name) && e.name != dirs[k].name
    ensures exists j :: 0 <= j < k && dirs[j] == e
  {
    var j :| 0 <= j < |dirs| && dirs[j] == e;
    LaterIsNotNewer(dirs, k, j);
    LexLeAntisymImp(dirs[k].name, e.name);
    assert j < k;
  }

  /** In a list sorted newest name first, a later position has an older or equal name. */
  lemma LaterIsNotNewer(dirs: seq<RunDir>, k: nat, j: nat)
    requires SortedBy(dirs, RunName, true) && k < |dirs| && j < |dirs|
    ensures j > k ==> LexLe(dirs[j].name, dirs[k].name)
  {
    if j > k {
      assert InOrder(RunName(dirs[k]), RunName(dirs[j]), true);
    }
  }

  lemma LexLeAntisymImp(a: string, b: string)
    ensures LexLe(a, b) && LexLe(b, a) ==> a == b
  {
    if LexLe(a, b) && LexLe(b, a) {
      LexLeAntisym(a, b);
    }
  }
}

=== FILE: publish_model.dfy ===
/** The manifest producer (`scripts/publish_model.py`): parsing of the
    `name=path[:format]` command-line resource arguments, the per-resource
    manifest entry, and the assembled manifest.

    The file system is a parameter: `stat` reports, for a resolved path,
    whether it is missing, a directory, or a regular file together with its
    SHA-256 digest and byte size; `resolve` stands for
    `Path(text).expanduser().resolve()`; `now` is the wall-clock timestamp
    used when no training time is supplied. */
module PublishModel {
  import opened Wrappers
  import opened Text
  import opened Json

  // ---------------------------------------------------------------------
  // Paths

  /** An absolute, resolved path: its components below the root `/`. */
  datatype Path = Path(parts: seq<string>)

  /** What a resolved path looks like: no empty, `.` or `..` components and
      no component containing the separator. */
  predicate ValidPath(p: Path) {
    forall k :: 0 <= k < |p.parts| ==> ValidComponent(p.parts[k])
  }

  predicate ValidComponent(c: string) {
    c != "" && c != "." && c != ".." && '/' !in c
  }

  /** `str(path)`. */
  function PathString(p: Path): string {
    if p.parts == [] then "/" else "/" + Join(p.parts, '/')
  }

  /** Reads an absolute path string back into components. */
  function ParseAbsolute(s: string): Path
    requires |s| > 0 && s[0] == '/'
  {
    if s == "/" then Path([]) else Path(Split(s[1..], '/'))
  }

  /** `path.name`: the last component, empty for the root. */
  function PathName(p: Path): string {
    if p.parts == [] then "" else p.parts[|p.parts| - 1]
  }

  /** `str(relative)` for a relative path made of `parts` (`"."` when empty). */
  function RelativeString(parts: seq<string>): string {
    if parts == [] then "." else Join(parts, '/')
  }

  /** `path.relative_to(root)`: the components below `root`, or `None` when
      `path` does not lie under `root` (Python raises `ValueError`). */
  function RelativeTo(p: Path, root: Path): (r: Option<seq<string>>)
    ensures r.Some? <==> |root.parts| <= |p.parts| && p.parts[..|root.parts|] == root.parts
    ensures r.Some? ==> root.parts + r.value == p.parts
  {
    if |root.parts| <= |p.parts| && p.parts[..|root.parts|] == root.parts
    then Some(p.parts[|root.parts|..])
    else None
  }

  /** Printing a valid path and reading it back gives the same path. */
  lemma PathStringRoundTrip(p: Path)
    requires ValidPath(p)
    ensures |PathString(p)| > 0 && PathString(p)[0] == '/'
    ensures ParseAbsolute(PathString(p)) == p
  {
    if p.parts != [] {
      var s := PathString(p);
      JoinThenSplit(p.parts, '/');
      assert s[1..] == Join(p.parts, '/');
      assert |Join(p.parts, '/')| >= |p.parts[0]| > 0;
    }
  }

  // ---------------------------------------------------------------------
  // Resources

  /** `ResourceSpec`: one artefact to publish. */
  datatype ResourceSpec = ResourceSpec(
    identifier: string,
    path: Path,
    resourceFormat: Option<string>,
    view: Option<string>)

  /** What `stat` reports about a path. */
  datatype FileStat = Missing | Directory | RegularFile(sha256: string, sizeBytes: nat)

  datatype PublishError =
    | MalformedResourceArg(entry: string)   // ValueError in `_parse_resource_arg`
    | FileNotFound(kind: string, path: Path) // `_ensure_exists`
    | IsADirectory(kind: string, path: Path) // `_ensure_exists`
    | NoModels                               // ValueError in `build_manifest`

  /** `ResourceSpec._compute_local_path`: the path relative to `localRoot`
      when `preferRelative` and the path lies under the root, otherwise the
      full path. */
  function ComputeLocalPath(spec: ResourceSpec, localRoot: Option<Path>, preferRelative: bool): (r: string)
    ensures localRoot.None? ==> r == PathString(spec.path)
    ensures localRoot.Some? && RelativeTo(spec.path, localRoot.value).None? ==> r == PathString(spec.path)
    ensures localRoot.Some? && !preferRelative ==> r == PathString(spec.path)
    ensures localRoot.Some? && preferRelative && RelativeTo(spec.path, localRoot.value).Some? ==>
      r == RelativeString(spec.path.parts[|localRoot.value.parts|..])
  {
    match localRoot
    case None => PathString(spec.path)
    case Some(root) =>
      match RelativeTo(spec.path, root)
      case Some(rel) => if preferRelative then RelativeString(rel) else PathString(spec.path)
      case None => PathString(spec.path)
  }

  /** Joining a relative `local_path` back onto its root recovers the
      resource's path, and an absolute `local_path` reads back as the path
      itself: `local_path` never loses information. */
  lemma LocalPathLocatesResource(spec: ResourceSpec, localRoot: Option<Path>, preferRelative: bool)
    requires ValidPath(spec.path)
    ensures var lp := ComputeLocalPath(spec, localRoot, preferRelative);
      if localRoot.Some? && preferRelative && RelativeTo(spec.path, localRoot.value).Some?
      then (lp == "." ==> spec.path == localRoot.value)
        && (lp != "." ==> localRoot.value.parts + Split(lp, '/') == spec.path.parts)
      else |lp| > 0 && lp[0] == '/' && ParseAbsolute(lp) == spec.path
  {
    if localRoot.Some? && preferRelative && RelativeTo(spec.path, localRoot.value).Some? {
      var root := localRoot.value;
      var rel := spec.path.parts[|root.parts|..];
      assert root.parts + rel == spec.path.parts;
      if rel != [] {
        assert forall k :: 0 <= k < |rel| ==> rel[k] == spec.path.parts[|root.parts| + k];
        JoinThenSplit(rel, '/');
        assert Split(".", '/') == ["."];
        assert rel != ["."] by { assert ValidComponent(rel[0]); }
      } else {
        assert spec.path.parts == root.parts;
      }
    } else {
      PathStringRoundTrip(spec.path);
    }
  }

  /** The `uri` of an entry: `base_url.rstrip('/')`, one `/`, the file name. */
  function EntryUri(baseUrl: string, fileName: string): (uri: string)
    ensures exists b :: TrimmedOfSlashes(baseUrl, b) && uri == b + "/" + fileName
  {
    var b := DropWhileEnd(baseUrl, IsSlash);
    b + "/" + fileName
  }

  predicate IsSlash(c: char) { c == '/' }

  /** `b` is `baseUrl` with all its trailing slashes, and nothing else, removed. */
  predicate TrimmedOfSlashes(baseUrl: string, b: string) {
    && |b| <= |baseUrl|
    && b == baseUrl[..|b|]
    && (b == [] || b[|b| - 1] != '/')
    && (forall k :: |b| <= k < |baseUrl| ==> baseUrl[k] == '/')
  }

  /** Trailing slashes on the base URL make no difference to the seam. */
  lemma EntryUriIgnoresTrailingSlashes(baseUrl: string, fileName: string, n: nat)
    ensures EntryUri(baseUrl + seq(n, _ => '/'), fileName) == EntryUri(baseUrl, fileName)
  {
    var slashes: string := seq(n, _ => '/');
    var b1 := DropWhileEnd(baseUrl + slashes, IsSlash);
    var b2 := DropWhileEnd(baseUrl, IsSlash);
    DropSlashesAppended(baseUrl, n);
  }

  lemma {:induction false} DropSlashesAppended(s: string, n: nat)
    ensures DropWhileEnd(s + seq(n, _ => '/'), IsSlash) == DropWhileEnd(s, IsSlash)
  {
    if n > 0 {
      var t := s + seq(n, _ => '/');
      assert t[..|t| - 1] == s + seq(n - 1, _ => '/');
      DropSlashesAppended(s, n - 1);
    } else {
      assert s + seq(0, _ => '/') == s;
    }
  }

  // ---------------------------------------------------------------------
  // Manifest entries

  /** One manifest entry. An optional key is `None` when it is not emitted. */
  datatype Entry = Entry(
    id: string,
    path: string,
    localPath: string,
    sha256: string,
    sizeBytes: nat,
    format: Option<string>,
    view: Option<string>,
    uri: Option<string>)

  /** An optional string as emitted under Python truthiness: kept when set
      and non-empty, dropped otherwise. */
  function WhenSet(opt: Option<string>): (r: Option<string>)
    ensures r.Some? <==> IsSet(opt)
    ensures r.Some? ==> r == opt
  {
    if IsSet(opt) then opt else None
  }

  /** What the entry `e` of `spec`, a regular file, holds: the resource's
      identifier, full and local paths, digest and size, plus `format`,
      `view` and `uri` exactly when the format, the view and the base URL are
      set; the URI is the base URL without its trailing slashes, a `/` and
      the file name. */
  ghost predicate DescribesResource(e: Entry, spec: ResourceSpec, st: FileStat,
                                    baseUrl: Option<string>, localRoot: Option<Path>, preferRelative: bool) {
    && st.RegularFile?
    && e.id == spec.identifier
    && e.path == PathString(spec.path)
    && e.localPath == ComputeLocalPath(spec, localRoot, preferRelative)
    && e.sha256 == st.sha256
    && e.sizeBytes == st.sizeBytes
    && (e.format.Some? <==> IsSet(spec.resourceFormat))
    && (e.format.Some? ==> e.format == spec.resourceFormat)
    && (e.view.Some? <==> IsSet(spec.view))
    && (e.view.Some? ==> e.view == spec.view)
    && (e.uri.Some? <==> IsSet(baseUrl))
    && (e.uri.Some? ==> exists b :: TrimmedOfSlashes(baseUrl.value, b) && e.uri.value == b + "/" + PathName(spec.path))
  }

  /** `ResourceSpec.to_manifest_entry`: fails when the path is missing or is
      a directory, and otherwise describes the resource. */
  function ToManifestEntry(spec: ResourceSpec, stat: Path -> FileStat, baseUrl: Option<string>,
                           localRoot: Option<Path>, preferRelative: bool): (r: Result<Entry, PublishError>)
    ensures stat(spec.path).Missing? <==> r == Failure(FileNotFound(spec.identifier, spec.path))
    ensures stat(spec.path).Directory? <==> r == Failure(IsADirectory(spec.identifier, spec.path))
    ensures r.Success? <==> stat(spec.path).RegularFile?
    ensures r.Success? ==> DescribesResource(r.value, spec, stat(spec.path), baseUrl, localRoot, preferRelative)
  {
    match stat(spec.path)
    case Missing => Failure(FileNotFound(spec.identifier, spec.path))
    case Directory => Failure(IsADirectory(spec.identifier, spec.path))
    case RegularFile(digest, size) =>
      Success(Entry(
        spec.identifier,
        PathString(spec.path),
        ComputeLocalPath(spec, localRoot, preferRelative),
        digest,
        size,
        WhenSet(spec.resourceFormat),
        WhenSet(spec.view),
        if IsSet(baseUrl) then Some(EntryUri(baseUrl.value, PathName(spec.path))) else None))
  }

  /** The keys an entry may carry. */
  const EntryKeys: set<string> := {"id", "path", "local_path", "sha256", "size_bytes", "format", "view", "uri"}

  /** The entry as the JSON object written to the manifest, optional keys first. */
  function EntryJson(e: Entry): Object {
    var withFormat := if e.format.Some? then map["format" := JStr(e.format.value)] else map[];
    var withView := if e.view.Some? then withFormat["view" := JStr(e.view.value)] else withFormat;
    var withUri := if e.uri.Some? then withView["uri" := JStr(e.uri.value)] else withView;
    withUri["id" := JStr(e.id)]
      ["path" := JStr(e.path)]
      ["local_path" := JStr(e.localPath)]
      ["sha256" := JStr(e.sha256)]
      ["size_bytes" := JInt(e.sizeBytes)]
  }

  /** The JSON object of an entry has the five mandatory keys with the
      entry's values, and each optional key exactly when the entry carries
      that field. */
  lemma EntryJsonKeys(e: Entry)
    ensures var j := EntryJson(e);
      && {"id", "path", "local_path", "sha256", "size_bytes"} <= j.Keys <= EntryKeys
      && j["id"] == JStr(e.id) && j["path"] == JStr(e.path) && j["local_path"] == JStr(e.localPath)
      && j["sha256"] == JStr(e.sha256) && j["size_bytes"] == JInt(e.sizeBytes)
      && ("format" in j <==> e.format.Some?) && ("view" in j <==> e.view.Some?) && ("uri" in j <==> e.uri.Some?)
  {
  }

  // ---------------------------------------------------------------------
  // Command-line resource arguments

  /** The part after the `=` of a resource argument, `rest`, splits into
      the spec's path and format: at the last `:` when formats are allowed
      and `rest` has one, otherwise all of `rest` is the path. */
  ghost predicate PathAndFormat(rest: string, allowFormat: bool, resolve: string -> Path, spec: ResourceSpec) {
    if allowFormat && ':' in rest
    then exists pathText, fmt :: rest == pathText + ":" + fmt && ':' !in fmt
           && spec.path == resolve(pathText) && spec.resourceFormat == Some(fmt)
    else spec.path == resolve(rest) && spec.resourceFormat == None
  }

  /** `i` is the position of the first `=` in `entry`. */
  predicate FirstEquals(entry: string, i: int) {
    0 <= i < |entry| && entry[i] == '=' && '=' !in entry[..i]
  }

  /** `spec` is read from `entry` split at its first `=`: the stripped name
      before it, the path and format after it. */
  ghost predicate SplitAtFirstEquals(entry: string, allowFormat: bool, resolve: string -> Path, spec: ResourceSpec) {
    exists i :: FirstEquals(entry, i) && spec.identifier == Strip(entry[..i])
      && PathAndFormat(entry[i + 1..], allowFormat, resolve, spec)
  }

  /** `_parse_resource_arg`: `name=path[:format]`. The name is the text
      before the first `=`, stripped; with formats allowed and a `:` in the
      rest, the format is the text after the last `:`. */
  function ParseResourceArg(entry: string, allowFormat: bool, resolve: string -> Path): (r: Result<ResourceSpec, PublishError>)
    ensures '=' !in entry <==> r == Failure(MalformedResourceArg(entry))
    ensures r.Success? ==> SplitAtFirstEquals(entry, allowFormat, resolve, r.value)
    ensures r.Success? ==> r.value.view == None
  {
    if '=' !in entry then Failure(MalformedResourceArg(entry))
    else
      var i := IndexOf(entry, '=');
      var spec := SpecOfRest(Strip(entry[..i]), entry[i + 1..], allowFormat, resolve);
      assert SplitAtFirstEquals(entry, allowFormat, resolve, spec) by {
        assert FirstEquals(entry, i);
        assert PathAndFormat(entry[i + 1..], allowFormat, resolve, spec);
      }
      Success(spec)
  }

  /** The spec named `name` whose path and format are read from `rest`, the
      text after the `=`. */
  function SpecOfRest(name: string, rest: string, allowFormat: bool, resolve: string -> Path): (spec: ResourceSpec)
    ensures spec.identifier == name && spec.view == None
    ensures PathAndFormat(rest, allowFormat, resolve, spec)
  {
    if allowFormat && ':' in rest then
      var j := LastIndexOf(rest, ':');
      assert rest == rest[..j] + ":" + rest[j + 1..];
      ResourceSpec(name, resolve(rest[..j]), Some(rest[j + 1..]), None)
    else
      ResourceSpec(name, resolve(rest), None, None)
  }

  /** Writing an argument as `name=path:format` and parsing it again gives
      back the name, the path text and the format, whatever `=` or `:` the
      path text holds, as long as the name has no `=` and no surrounding
      blanks and the format has no `:`. */
  lemma ResourceArgRoundTrip(name: string, pathText: string, fmt: string, resolve: string -> Path)
    requires '=' !in name && Strip(name) == name
    requires ':' !in fmt
    ensures ParseResourceArg(name + "=" + pathText + ":" + fmt, true, resolve)
            == Success(ResourceSpec(name, resolve(pathText), Some(fmt), None))
  {
    var rest := pathText + [':'] + fmt;
    var entry := name + ['='] + rest;
    assert name + "=" + pathText + ":" + fmt == entry;
    SplitsAt(name, '=', rest);
    SplitsAtLast(pathText, ':', fmt);
    assert ':' in rest;
    assert SpecOfRest(name, rest, true, resolve) == ResourceSpec(name, resolve(pathText), Some(fmt), None);
  }

  /** Splitting `a + [c] + b` at its first `c`, when `a` has none. */
  lemma SplitsAt(a: string, c: char, b: string)
    requires c !in a
    ensures var s := a + [c] + b;
      IndexOf(s, c) == |a| && s[..|a|] == a && s[|a| + 1..] == b
  {
    IndexOfAfter(a, c, b);
    var s := a + [c] + b;
    assert s[..|a|] == a;
    assert s[|a| + 1..] == b;
  }

  /** Splitting `a + [c] + b` at its last `c`, when `b` has none. */
  lemma SplitsAtLast(a: string, c: char, b: string)
    requires c !in b
    ensures var s := a + [c] + b;
      LastIndexOf(s, c) == |a| && s[..|a|] == a && s[|a| + 1..] == b
  {
    LastIndexOfBefore(a, c, b);
    var s := a + [c] + b;
    assert s[..|a|] == a;
    assert s[|a| + 1..] == b;
  }

  /** Without formats, everything after the first `=` is the path, colons included. */
  lemma ResourceArgWithoutFormat(name: string, pathText: string, resolve: string -> Path)
    requires '=' !in name && Strip(name) == name
    ensures ParseResourceArg(name + "=" + pathText, false, resolve)
            == Success(ResourceSpec(name, resolve(pathText), None, None))
  {
    SplitsAt(name, '=', pathText);
    assert name + "=" + pathText == name + ['='] + pathText;
  }

  // ---------------------------------------------------------------------
  // The manifest

  /** Keyword arguments of `build_manifest`. */
  datatype ManifestOptions = ManifestOptions(
    artefactBaseUrl: Option<string>,
    metrics: Option<Object>,
    notes: Option<string>,
    trainedAt: Option<string>,
    featureSchemaVersion: Option<string>,
    localRoot: Option<Path>,
    preferRelativeLocalPaths: bool)

  predicate AllRegularFiles(specs: seq<ResourceSpec>, stat: Path -> FileStat) {
    forall k :: 0 <= k < |specs| ==> stat(specs[k].path).RegularFile?
  }

  function EntryFor(spec: ResourceSpec, stat: Path -> FileStat, opts: ManifestOptions): Result<Entry, PublishError> {
    ToManifestEntry(spec, stat, opts.artefactBaseUrl, opts.localRoot, opts.preferRelativeLocalPaths)
  }

  /** `es` holds one entry per spec, in the same order. */
  ghost predicate DescribesList(es: seq<Entry>, specs: seq<ResourceSpec>, stat: Path -> FileStat, opts: ManifestOptions) {
    && |es| == |specs|
    && forall k :: 0 <= k < |specs| ==>
         DescribesResource(es[k], specs[k], stat(specs[k].path), opts.artefactBaseUrl, opts.localRoot, opts.preferRelativeLocalPaths)
  }

  /** `err` is the error of the first spec that is not a regular file. */
  predicate FirstFailure(specs: seq<ResourceSpec>, stat: Path -> FileStat, opts: ManifestOptions, err: PublishError) {
    exists k :: 0 <= k < |specs| && EntryFor(specs[k], stat, opts) == Failure(err)
      && forall k' :: 0 <= k' < k ==> stat(specs[k'].path).RegularFile?
  }

  /** The entries of one resource list, in input order, or the error of the
      first resource that is missing or a directory. */
  function Entries(specs: seq<ResourceSpec>, stat: Path -> FileStat, opts: ManifestOptions): (r: Result<seq<Entry>, PublishError>)
    ensures r.Success? <==> AllRegularFiles(specs, stat)
    ensures r.Success? ==> DescribesList(r.value, specs, stat, opts)
    ensures r.Failure? ==> FirstFailure(specs, stat, opts, r.error)
  {
    if specs == [] then Success([])
    else
      var head := EntryFor(specs[0], stat, opts);
      if head.Failure? then
        assert EntryFor(specs[0], stat, opts) == Failure(head.error);
        Failure(head.error)
      else
        var tail := Entries(specs[1..], stat, opts);
        if tail.Failure? then
          FirstFailureCons(specs, stat, opts, tail.error);
          Failure(tail.error)
        else
          var es := [head.value] + tail.value;
          DescribesListCons(es, specs, stat, opts);
          Success(es)
  }

  /** The first failure of the tail of a list whose head is a regular file
      is the first failure of the list. */
  lemma FirstFailureCons(specs: seq<ResourceSpec>, stat: Path -> FileStat, opts: ManifestOptions, err: PublishError)
    requires specs != [] && stat(specs[0].path).RegularFile?
    requires FirstFailure(specs[1..], stat, opts, err)
    ensures FirstFailure(specs, stat, opts, err)
  {
    var k :| 0 <= k < |specs[1..]| && EntryFor(specs[1..][k], stat, opts) == Failure(err)
      && forall k' :: 0 <= k' < k ==> stat(specs[1..][k'].path).RegularFile?;
    assert EntryFor(specs[k + 1], stat, opts) == Failure(err);
  }

  /** An entry for the head followed by entries for the tail describe the list. */
  lemma DescribesListCons(es: seq<Entry>, specs: seq<ResourceSpec>, stat: Path -> FileStat, opts: ManifestOptions)
    requires es != [] && specs != []
    requires DescribesResource(es[0], specs[0], stat(specs[0].path), opts.artefactBaseUrl, opts.localRoot, opts.preferRelativeLocalPaths)
    requires DescribesList(es[1..], specs[1..], stat, opts)
    ensures DescribesList(es, specs, stat, opts)
  {
    forall k | 1 <= k < |specs| ensures es[k] == es[1..][k - 1] && specs[k] == specs[1..][k - 1] {
    }
  }

  /** The manifest `build_manifest` returns. An optional key is `None` when
      it is not emitted. */
  datatype Manifest = Manifest(
    runId: string,
    datasetVersion: string,
    trainedAt: string,
    models: seq<Entry>,
    preprocessing: seq<Entry>,
    attribution: seq<Entry>,
    metrics: Option<Object>,
    notes: Option<string>,
    artefactBaseUrl: Option<string>,
    featureSchemaVersion: Option<string>)

  /** The keyword options of a successful build are reflected in `m`: the
      training time is the one supplied or else `now`, and `metrics`,
      `notes`, `artefact_base_url` and `feature_schema_version` are present
      exactly when their option is truthy, with the option's value. */
  predicate CarriesOptions(m: Manifest, opts: ManifestOptions, now: string) {
    && m.trainedAt == (if IsSet(opts.trainedAt) then opts.trainedAt.value else now)
    && (m.metrics.Some? <==> opts.metrics.Some? && opts.metrics.value != map[])
    && (m.metrics.Some? ==> m.metrics == opts.metrics)
    && (m.notes.Some? <==> IsSet(opts.notes))
    && (m.notes.Some? ==> m.notes == opts.notes)
    && (m.artefactBaseUrl.Some? <==> IsSet(opts.artefactBaseUrl))
    && (m.artefactBaseUrl.Some? ==> m.artefactBaseUrl == opts.artefactBaseUrl)
    && (m.featureSchemaVersion.Some? <==> IsSet(opts.featureSchemaVersion))
    && (m.featureSchemaVersion.Some? ==> m.featureSchemaVersion == opts.featureSchemaVersion)
  }

  /** `build_manifest`: the model entries are built first (a missing file
      fails there), then an empty model list is rejected, then the
      preprocessing and attribution entries are built. A built manifest
      copies the run id and dataset version, and its three lists describe
      the given specs in order. */
  function BuildManifest(runId: string, datasetVersion: string, models: seq<ResourceSpec>,
                         preprocessing: seq<ResourceSpec>, attribution: seq<ResourceSpec>,
                         stat: Path -> FileStat, opts: ManifestOptions, now: string): (r: Result<Manifest, PublishError>)
    ensures models == [] ==> r == Failure(NoModels)
    ensures r.Success? <==> (models != [] && AllRegularFiles(models, stat)
      && AllRegularFiles(preprocessing, stat) && AllRegularFiles(attribution, stat))
    ensures r.Success? ==> r.value.runId == runId && r.value.datasetVersion == datasetVersion
    ensures r.Success? ==> |r.value.models| > 0 && DescribesList(r.value.models, models, stat, opts)
    ensures r.Success? ==> DescribesList(r.value.preprocessing, preprocessing, stat, opts)
    ensures r.Success? ==> DescribesList(r.value.attribution, attribution, stat, opts)
    ensures r.Success? ==> CarriesOptions(r.value, opts, now)
  {
    var modelEntries :- Entries(models, stat, opts);
    if modelEntries == [] then Failure(NoModels)
    else
      var preEntries :- Entries(preprocessing, stat, opts);
      var attrEntries :- Entries(attribution, stat, opts);
      Success(Manifest(
        runId,
        datasetVersion,
        if IsSet(opts.trainedAt) then opts.trainedAt.value else now,
        modelEntries,
        preEntries,
        attrEntries,
        if opts.metrics.Some? && opts.metrics.value != map[] then opts.metrics else None,
        WhenSet(opts.notes),
        WhenSet(opts.artefactBaseUrl),
        WhenSet(opts.featureSchemaVersion)))
  }

  /** A failed `build_manifest` reports the first missing or directory path
      among the models, else among the preprocessing resources, else among
      the attribution resources. */
  lemma BuildManifestReportsFirstFailure(runId: string, datasetVersion: string, models: seq<ResourceSpec>,
                                         preprocessing: seq<ResourceSpec>, attribution: seq<ResourceSpec>,
                                         stat: Path -> FileStat, opts: ManifestOptions, now: string)
    ensures var r := BuildManifest(runId, datasetVersion, models, preprocessing, attribution, stat, opts, now);
      && (!AllRegularFiles(models, stat) ==> r.Failure? && FirstFailure(models, stat, opts, r.error))
      && (models != [] && AllRegularFiles(models, stat) && !AllRegularFiles(preprocessing, stat) ==>
            r.Failure? && FirstFailure(preprocessing, stat, opts, r.error))
      && (models != [] && AllRegularFiles(models, stat) && AllRegularFiles(preprocessing, stat)
          && !AllRegularFiles(attribution, stat) ==>
            r.Failure? && FirstFailure(attribution, stat, opts, r.error))
  {
  }

  /** A list of entries as a JSON array of objects. */
  function EntriesJson(es: seq<Entry>): (j: Json)
    ensures j.JArr? && |j.items| == |es|
    ensures forall k :: 0 <= k < |es| ==> j.items[k] == JObj(EntryJson(es[k]))
  {
    Objects(seq(|es|, k requires 0 <= k < |es| => EntryJson(es[k])))
  }

  /** The manifest as the JSON object `json.dump` writes. A JSON object is
      unordered, so the optional keys are laid down first. */
  function ManifestJson(m: Manifest): Object {
    var m1 := if m.metrics.Some? then map["metrics" := JObj(m.metrics.value)] else map[];
    var m2 := if m.notes.Some? then m1["notes" := JStr(m.notes.value)] else m1;
    var m3 := if m.artefactBaseUrl.Some? then m2["artefact_base_url" := JStr(m.artefactBaseUrl.value)] else m2;
    var m4 := if m.featureSchemaVersion.Some? then m3["feature_schema_version" := JStr(m.featureSchemaVersion.value)] else m3;
    m4["run_id" := JStr(m.runId)]
      ["dataset_version" := JStr(m.datasetVersion)]
      ["trained_at" := JStr(m.trainedAt)]
      ["models" := EntriesJson(m.models)]
      ["preprocessing" := EntriesJson(m.preprocessing)]
      ["attribution" := EntriesJson(m.attribution)]
  }

  /** The JSON manifest always has the six mandatory keys: the run id, the
      dataset version, the training time and the three resource lists. */
  lemma ManifestJsonMandatory(m: Manifest)
    ensures var j := ManifestJson(m);
      && {"run_id", "dataset_version", "trained_at", "models", "preprocessing", "attribution"} <= j.Keys
      && j["run_id"] == JStr(m.runId) && j["dataset_version"] == JStr(m.datasetVersion)
      && j["trained_at"] == JStr(m.trainedAt)
      && j["models"] == EntriesJson(m.models)
      && j["preprocessing"] == EntriesJson(m.preprocessing)
      && j["attribution"] == EntriesJson(m.attribution)
  {
  }

  /** `metrics`, `notes`, `artefact_base_url` and `feature_schema_version`
      appear in the JSON manifest exactly when set, and nothing else does. */
  lemma ManifestJsonOptional(m: Manifest)
    ensures var j := ManifestJson(m);
      && j.Keys <= {"run_id", "dataset_version", "trained_at", "models", "preprocessing", "attribution",
                    "metrics", "notes", "artefact_base_url", "feature_schema_version"}
      && ("metrics" in j <==> m.metrics.Some?)
      && ("notes" in j <==> m.notes.Some?)
      && ("artefact_base_url" in j <==> m.artefactBaseUrl.Some?)
      && ("feature_schema_version" in j <==> m.featureSchemaVersion.Some?)
  {
  }

  function Identifiers(specs: seq<ResourceSpec>): seq<string> {
    seq(|specs|, k requires 0 <= k < |specs| => specs[k].identifier)
  }

  /** The `id`s of a written resource list are the identifiers of its specs, in order. */
  lemma IdsOfList(es: seq<Entry>, specs: seq<ResourceSpec>, stat: Path -> FileStat, opts: ManifestOptions)
    requires DescribesList(es, specs, stat, opts)
    ensures Ids(EntriesJson(es)) == Identifiers(specs)
  {
    var j := EntriesJson(es);
    forall k | 0 <= k < |specs| ensures Ids(j)[k] == specs[k].identifier {
      EntryJsonKeys(es[k]);
    }
  }

  /** Every resource list of a written manifest names its resources in input
      order: the `id`s under `models`, `preprocessing` and `attribution` are
      the identifiers of the specs given. */
  lemma ManifestListsFollowInput(runId: string, datasetVersion: string, models: seq<ResourceSpec>,
                                 preprocessing: seq<ResourceSpec>, attribution: seq<ResourceSpec>,
                                 stat: Path -> FileStat, opts: ManifestOptions, now: string)
    requires BuildManifest(runId, datasetVersion, models, preprocessing, attribution, stat, opts, now).Success?
    ensures var j := ManifestJson(BuildManifest(runId, datasetVersion, models, preprocessing, attribution, stat, opts, now).value);
      && "models" in j && j["models"].JArr? && Ids(j["models"]) == Identifiers(models)
      && "preprocessing" in j && j["preprocessing"].JArr? && Ids(j["preprocessing"]) == Identifiers(preprocessing)
      && "attribution" in j && j["attribution"].JArr? && Ids(j["attribution"]) == Identifiers(attribution)
  {
    var m := BuildManifest(runId, datasetVersion, models, preprocessing, attribution, stat, opts, now).value;
    ManifestJsonMandatory(m);
    IdsOfList(m.models, models, stat, opts);
    IdsOfList(m.preprocessing, preprocessing, stat, opts);
    IdsOfList(m.attribution, attribution, stat, opts);
  }
}

=== FILE: team_cache.dfy ===
/** Team roster caches (`pipelines/team_cache.py`): the slug and short name
    of a team, the cache file of a league and season, the roster written to
    it, and the choice of each league's latest season. Whether a cache file
    exists is a parameter; writing the JSON file is left out. */
module TeamCache {
  import opened Wrappers
  import opened Text

  const TeamCacheDir: string := "understat_data/team_cache"

  // ---------------------------------------------------------------------
  // Slugs

  /** The characters `[a-z0-9]` a slug keeps. */
  predicate IsSlugChar(c: char) { IsLowerAlpha(c) || IsDigit(c) }
  predicate NotSlugChar(c: char) { !IsSlugChar(c) }
  predicate IsUnderscore(c: char) { c == '_' }

  /** Only `[a-z0-9_]`. */
  predicate SlugAlphabet(s: string) {
    forall i :: 0 <= i < |s| ==> IsSlugChar(s[i]) || s[i] == '_'
  }

  /** No two `_` in a row. */
  predicate NoDoubleUnderscore(s: string) {
    forall i, j :: 0 <= i < |s| && i < j < |s| && j == i + 1 ==> !(s[i] == '_' && s[j] == '_')
  }

  /** `re.sub(r"[^a-z0-9]+", "_", s)`: every maximal run of other
      characters becomes one `_`. */
  function ReplaceRuns(s: string): string
    decreases |s|
  {
    if s == [] then []
    else if IsSlugChar(s[0]) then [s[0]] + ReplaceRuns(s[1..])
    else "_" + ReplaceRuns(DropWhile(s[1..], NotSlugChar))
  }

  /** Run replacement leaves only `[a-z0-9_]` without `__`, starts with `_`
      exactly when the text starts with another character, is empty only
      for empty text, and keeps every slug character, in order. */
  lemma {:induction false} ReplaceRunsSpec(s: string)
    ensures var r := ReplaceRuns(s);
      && SlugAlphabet(r)
      && NoDoubleUnderscore(r)
      && ((r != [] && r[0] == '_') <==> (s != [] && NotSlugChar(s[0])))
      && (r == [] <==> s == [])
      && Filter(r, IsSlugChar) == Filter(s, IsSlugChar)
    decreases |s|
  {
    if s == [] {
    } else if IsSlugChar(s[0]) {
      var t := ReplaceRuns(s[1..]);
      ReplaceRunsSpec(s[1..]);
      SlugCons(s[0], t);
      assert ([s[0]] + t)[1..] == t;
    } else {
      var rest := DropWhile(s[1..], NotSlugChar);
      var t := ReplaceRuns(rest);
      ReplaceRunsSpec(rest);
      assert t == [] || IsSlugChar(t[0]);
      SlugCons('_', t);
      assert ("_" + t)[1..] == t;
      FilterSkipsRun(s[1..]);
    }
  }

  /** The characters a run replacement drops are not slug characters, so
      they do not show among the slug characters. */
  lemma {:induction false} FilterSkipsRun(s: string)
    ensures Filter(DropWhile(s, NotSlugChar), IsSlugChar) == Filter(s, IsSlugChar)
  {
    if s != [] && NotSlugChar(s[0]) {
      FilterSkipsRun(s[1..]);
    }
  }

  /** A word of slug characters is kept as it is in front of what follows. */
  lemma {:induction false} ReplaceRunsWord(w: string, t: string)
    requires forall i :: 0 <= i < |w| ==> IsSlugChar(w[i])
    ensures ReplaceRuns(w + t) == w + ReplaceRuns(t)
    decreases |w|
  {
    if w != [] {
      var s := w + t;
      assert s[0] == w[0] && s[1..] == w[1..] + t;
      ReplaceRunsWord(w[1..], t);
      assert [w[0]] + (w[1..] + ReplaceRuns(t)) == w + ReplaceRuns(t);
    } else {
      assert w + t == t;
    }
  }

  /** A non-empty run of other characters before a word becomes one `_`. */
  lemma ReplaceRunsRun(run: string, t: string)
    requires run != [] && forall i :: 0 <= i < |run| ==> NotSlugChar(run[i])
    requires t == [] || IsSlugChar(t[0])
    ensures ReplaceRuns(run + t) == "_" + ReplaceRuns(t)
  {
    var s := run + t;
    assert s[0] == run[0] && s[1..] == run[1..] + t;
    DropRun(run[1..], t);
  }

  lemma {:induction false} DropRun(run: string, t: string)
    requires forall i :: 0 <= i < |run| ==> NotSlugChar(run[i])
    requires t == [] || IsSlugChar(t[0])
    ensures DropWhile(run + t, NotSlugChar) == t
  {
    if run != [] {
      assert (run + t)[0] == run[0];
      assert (run + t)[1..] == run[1..] + t;
      DropRun(run[1..], t);
    } else {
      assert run + t == t;
    }
  }

  /** A slug character, or a `_` before something that does not start
      with one, keeps a slug's alphabet and its single underscores. */
  lemma SlugCons(c: char, t: string)
    requires IsSlugChar(c) || (c == '_' && (t == [] || t[0] != '_'))
    requires SlugAlphabet(t) && NoDoubleUnderscore(t)
    ensures SlugAlphabet([c] + t) && NoDoubleUnderscore([c] + t)
  {
    var r := [c] + t;
    forall i | 0 <= i < |r| ensures IsSlugChar(r[i]) || r[i] == '_' {
      if i > 0 { assert r[i] == t[i - 1]; }
    }
    forall i, j | 0 <= i < |r| && i < j < |r| && j == i + 1 ensures !(r[i] == '_' && r[j] == '_') {
      if i > 0 { assert r[i] == t[i - 1] && r[j] == t[j - 1]; }
    }
  }

  /** `slugify`: lower-cased, stripped, runs of characters outside
      `[a-z0-9]` collapsed to `_`, and `_` trimmed from both ends. Every
      slug uses only `[a-z0-9_]`, has no `_` at either end and never two in
      a row. */
  function Slugify(name: string): (r: string)
    ensures IsSlug(r)
    ensures |r| <= |name|
  {
    var s := Lower(Strip(name));
    ReplaceRunsSpec(s);
    StripUnderscores(ReplaceRuns(s));
    ReplaceRunsLength(s);
    StripBy(ReplaceRuns(s), IsUnderscore)
  }

  lemma {:induction false} ReplaceRunsLength(s: string)
    ensures |ReplaceRuns(s)| <= |s|
    decreases |s|
  {
    if s != [] {
      if IsSlugChar(s[0]) {
        ReplaceRunsLength(s[1..]);
      } else {
        ReplaceRunsLength(DropWhile(s[1..], NotSlugChar));
      }
    }
  }

  /** A slug. */
  predicate IsSlug(s: string) {
    && SlugAlphabet(s)
    && NoDoubleUnderscore(s)
    && (s == [] || (s[0] != '_' && s[|s| - 1] != '_'))
  }

  /** Trimming `_` from a run-replaced text leaves a slug. */
  lemma StripUnderscores(r: string)
    requires SlugAlphabet(r) && NoDoubleUnderscore(r)
    ensures IsSlug(StripBy(r, IsUnderscore))
  {
    StripBySpec(r, IsUnderscore);
    var i, j :| 0 <= i <= j <= |r| && StripBy(r, IsUnderscore) == r[i..j];
    SlugTextSlice(r, i, j);
  }

  /** A slice of `[a-z0-9_]` text without `__` has neither. */
  lemma SlugTextSlice(r: string, i: nat, j: nat)
    requires SlugAlphabet(r) && NoDoubleUnderscore(r) && i <= j <= |r|
    ensures SlugAlphabet(r[i..j]) && NoDoubleUnderscore(r[i..j])
  {
    var s := r[i..j];
    forall k | 0 <= k < |s| ensures IsSlugChar(s[k]) || s[k] == '_' {
      assert s[k] == r[i + k];
    }
    forall k, l | 0 <= k < |s| && k < l < |s| && l == k + 1 ensures !(s[k] == '_' && s[l] == '_') {
      assert s[k] == r[i + k] && s[l] == r[i + l];
    }
  }

  /** On a slug, run replacement changes nothing: every `_` is a run of one. */
  lemma {:induction false} ReplaceRunsOnSlug(s: string)
    requires SlugAlphabet(s) && NoDoubleUnderscore(s)
    ensures ReplaceRuns(s) == s
    decreases |s|
  {
    if s != [] {
      var t := s[1..];
      assert SlugAlphabet(t) by {
        forall i | 0 <= i < |t| ensures IsSlugChar(t[i]) || t[i] == '_' { assert t[i] == s[i + 1]; }
      }
      assert NoDoubleUnderscore(t) by {
        forall i, j | 0 <= i < j < |t| && j == i + 1 ensures !(t[i] == '_' && t[j] == '_') {
          assert t[i] == s[i + 1] && t[j] == s[j + 1];
        }
      }
      ReplaceRunsOnSlug(t);
      if !IsSlugChar(s[0]) {
        assert s[0] == '_';
        assert t == [] || IsSlugChar(t[0]) by {
          if t != [] { assert t[0] == s[1]; assert !(s[0] == '_' && s[1] == '_'); }
        }
        assert DropWhile(t, NotSlugChar) == t;
        assert s == "_" + t;
      } else {
        assert s == [s[0]] + t;
      }
    }
  }

  /** Text made of `[a-z0-9_]` is unchanged by lower-casing. */
  lemma LowerOfSlugAlphabet(s: string)
    requires SlugAlphabet(s)
    ensures Lower(s) == s
  {
    assert forall i :: 0 <= i < |s| ==> ToLowerChar(s[i]) == s[i];
  }

  /** A slug is its own slug. */
  lemma SlugFixed(s: string)
    requires IsSlug(s)
    ensures Slugify(s) == s
  {
    assert s == [] || (!IsSpace(s[0]) && !IsSpace(s[|s| - 1]));
    StripByUnpadded(s, IsSpace);
    LowerOfSlugAlphabet(s);
    ReplaceRunsOnSlug(s);
    StripByUnpadded(s, IsUnderscore);
  }

  /** Slugifying a slug gives it back, so `slugify` is idempotent. */
  lemma SlugifyIdempotent(name: string)
    ensures Slugify(Slugify(name)) == Slugify(name)
  {
    SlugFixed(Slugify(name));
  }

  /** Names that differ only in ASCII case have the same slug. */
  lemma SlugifyIgnoresCase(a: string, b: string)
    requires Lower(a) == Lower(b)
    ensures Slugify(a) == Slugify(b)
  {
    LowerStrip(a);
    LowerStrip(b);
  }

  /** Two lower-case words with blanks between them give the words joined
      by one `_`: `"manchester united"` gives `"manchester_united"`. */
  lemma SlugifyWords(w1: string, sep: string, w2: string)
    requires w1 != [] && forall i :: 0 <= i < |w1| ==> IsSlugChar(w1[i])
    requires w2 != [] && forall i :: 0 <= i < |w2| ==> IsSlugChar(w2[i])
    requires sep != [] && forall i :: 0 <= i < |sep| ==> IsSpace(sep[i])
    ensures Slugify(w1 + sep + w2) == w1 + "_" + w2
  {
    var name := w1 + sep + w2;
    WordsName(w1, sep, w2);
    SlugifyOfPlain(name);
    ReplaceRunsOfWords(w1, sep, w2);
    var r := w1 + "_" + w2;
    assert r[0] == w1[0] && r[|r| - 1] == w2[|w2| - 1];
    StripByUnpadded(r, IsUnderscore);
  }

  /** Words with blanks between them neither start nor end with a blank
      and have no upper-case letter. */
  lemma WordsName(w1: string, sep: string, w2: string)
    requires w1 != [] && forall i :: 0 <= i < |w1| ==> IsSlugChar(w1[i])
    requires w2 != [] && forall i :: 0 <= i < |w2| ==> IsSlugChar(w2[i])
    requires forall i :: 0 <= i < |sep| ==> IsSpace(sep[i])
    ensures var name := w1 + sep + w2;
      && !IsSpace(name[0]) && !IsSpace(name[|name| - 1])
      && SlugAlphabetOrSpace(name)
  {
    var name := w1 + sep + w2;
    assert name[0] == w1[0] && name[|name| - 1] == w2[|w2| - 1];
    forall i | 0 <= i < |name| ensures IsSlugChar(name[i]) || IsSpace(name[i]) {
      if i < |w1| { assert name[i] == w1[i]; }
      else if i < |w1| + |sep| { assert name[i] == sep[i - |w1|]; }
      else { assert name[i] == w2[i - |w1| - |sep|]; }
    }
  }

  /** A stripped name without upper-case letters is only run-replaced and
      trimmed of `_`. */
  lemma SlugifyOfPlain(name: string)
    requires name != [] && !IsSpace(name[0]) && !IsSpace(name[|name| - 1])
    requires SlugAlphabetOrSpace(name)
    ensures Slugify(name) == StripBy(ReplaceRuns(name), IsUnderscore)
  {
    StripByUnpadded(name, IsSpace);
    LowerOfSlugOrSpace(name);
  }

  lemma ReplaceRunsOfWords(w1: string, sep: string, w2: string)
    requires forall i :: 0 <= i < |w1| ==> IsSlugChar(w1[i])
    requires w2 != [] && forall i :: 0 <= i < |w2| ==> IsSlugChar(w2[i])
    requires sep != [] && forall i :: 0 <= i < |sep| ==> IsSpace(sep[i])
    ensures ReplaceRuns(w1 + sep + w2) == w1 + "_" + w2
  {
    assert w1 + sep + w2 == w1 + (sep + w2);
    ReplaceRunsWord(w1, sep + w2);
    forall i | 0 <= i < |sep| ensures NotSlugChar(sep[i]) {
      assert IsSpace(sep[i]);
    }
    ReplaceRunsRun(sep, w2);
    assert w2 + [] == w2;
    ReplaceRunsWord(w2, []);
  }

  predicate SlugAlphabetOrSpace(s: string) {
    forall i :: 0 <= i < |s| ==> IsSlugChar(s[i]) || IsSpace(s[i])
  }

  lemma LowerOfSlugOrSpace(s: string)
    requires SlugAlphabetOrSpace(s)
    ensures Lower(s) == s
  {
    assert forall i :: 0 <= i < |s| ==> ToLowerChar(s[i]) == s[i];
  }

  // ---------------------------------------------------------------------
  // Short names

  /** The characters `[A-Za-z ]` a short name is built from. */
  predicate IsNameChar(c: char) { IsAlpha(c) || c == ' ' }

  /** `re.sub(r"[^A-Za-z ]+", "", s)`: every other character removed. */
  function KeepNameChars(s: string): (r: string)
    ensures forall i :: 0 <= i < |r| ==> IsNameChar(r[i])
    ensures |r| <= |s|
  {
    if s == [] then [] else (if IsNameChar(s[0]) then [s[0]] else []) + KeepNameChars(s[1..])
  }

  /** Removing the other characters twice removes nothing more. */
  lemma {:induction false} KeepNameCharsIdempotent(s: string)
    ensures KeepNameChars(KeepNameChars(s)) == KeepNameChars(s)
  {
    if s != [] {
      KeepNameCharsIdempotent(s[1..]);
      var t := KeepNameChars(s[1..]);
      if IsNameChar(s[0]) {
        var r := [s[0]] + t;
        assert r[1..] == t;
      } else {
        assert KeepNameChars(s) == t;
      }
    }
  }

  /** The upper-case initial of each word. */
  function Initials(words: seq<string>): (r: string)
    requires forall k :: 0 <= k < |words| ==> words[k] != []
    ensures |r| == |words|
    ensures forall k :: 0 <= k < |r| ==> r[k] == ToUpperChar(words[k][0])
  {
    seq(|words|, k requires 0 <= k < |words| => ToUpperChar(words[k][0]))
  }

  /** The letters-and-spaces part of a name, stripped. */
  function CleanName(name: string): string {
    Strip(KeepNameChars(name))
  }

  /** `short_name`: with no letters, the first three characters
      upper-cased; otherwise the short name of the words of the letters. */
  function ShortName(name: string): (r: string)
    ensures |r| <= 3
    ensures |CleanName(name)| == 0 ==> r == Upper(Take(name, 3))
    ensures |CleanName(name)| != 0 ==> r == WordsShortName(Words(CleanName(name)))
  {
    var clean := CleanName(name);
    if |clean| == 0 then Upper(Take(name, 3)) else WordsShortName(Words(clean))
  }

  /** The short name of a non-empty list of words: a single word gives its
      first three letters upper-cased, several words the upper-case
      initials of the first three. */
  function WordsShortName(parts: seq<string>): (r: string)
    requires forall k :: 0 <= k < |parts| ==> IsWord(parts[k])
    ensures |r| <= 3
    ensures |parts| == 1 ==> r == Upper(Take(parts[0], 3))
    ensures |parts| >= 2 ==> |r| == Min(|parts|, 3)
    ensures |parts| >= 2 ==> forall k :: 0 <= k < |r| ==> IsWord(parts[k]) && r[k] == ToUpperChar(parts[k][0])
  {
    if |parts| == 1 then Upper(Take(parts[0], 3)) else FirstInitials(parts)
  }

  /** Words of letters give a non-empty short name of upper-case letters. */
  lemma WordsShortNameLetters(parts: seq<string>)
    requires |parts| >= 1
    requires forall k :: 0 <= k < |parts| ==> IsWord(parts[k])
    requires forall k, i :: 0 <= k < |parts| && 0 <= i < |parts[k]| ==> IsAlpha(parts[k][i])
    ensures WordsShortName(parts) != []
    ensures forall i :: 0 <= i < |WordsShortName(parts)| ==> IsUpperAlpha(WordsShortName(parts)[i])
  {
    assert IsWord(parts[0]);
    var r := WordsShortName(parts);
    if |parts| == 1 {
      var t := Take(parts[0], 3);
      assert forall i :: 0 <= i < |t| ==> t[i] == parts[0][i];
    } else {
      forall i | 0 <= i < |r| ensures IsUpperAlpha(r[i]) {
        assert IsWord(parts[i]);
        assert IsAlpha(parts[i][0]);
      }
    }
  }

  /** The initials of the first three words. */
  function FirstInitials(words: seq<string>): (r: string)
    requires forall k :: 0 <= k < |words| ==> IsWord(words[k])
    ensures |r| == Min(|words|, 3)
    ensures forall k :: 0 <= k < |r| ==> IsWord(words[k]) && r[k] == ToUpperChar(words[k][0])
  {
    var w := Take(words, 3);
    forall k | 0 <= k < |w| ensures w[k] == words[k] && w[k] != [] {
      assert IsWord(words[k]);
    }
    Initials(w)
  }

  /** The words of the clean name are non-empty runs of letters. */
  lemma CleanWordsAreLetters(name: string)
    ensures CleanName(name) != [] ==> |Words(CleanName(name))| >= 1
    ensures forall k, i :: 0 <= k < |Words(CleanName(name))| && 0 <= i < |Words(CleanName(name))[k]| ==>
              IsAlpha(Words(CleanName(name))[k][i])
  {
    CleanNameChars(name);
    WordsOfNameChars(CleanName(name));
  }

  /** The clean name holds only letters and spaces and starts with a letter. */
  lemma CleanNameChars(name: string)
    ensures forall i :: 0 <= i < |CleanName(name)| ==> IsNameChar(CleanName(name)[i])
    ensures CleanName(name) == [] || !IsSpace(CleanName(name)[0])
  {
    var kept := KeepNameChars(name);
    var clean := CleanName(name);
    StripByEnds(kept, IsSpace);
    StripByBounds(kept, IsSpace);
    var a := |kept| - |DropWhile(kept, IsSpace)|;
    forall i | 0 <= i < |clean| ensures IsNameChar(clean[i]) {
      assert clean[i] == kept[a + i];
    }
  }

  /** The words of text made of letters and spaces are letters only. */
  lemma {:induction false} WordsOfNameChars(s: string)
    requires forall i :: 0 <= i < |s| ==> IsNameChar(s[i])
    ensures s != [] && !IsSpace(s[0]) ==> |Words(s)| >= 1
    ensures forall k, i :: 0 <= k < |Words(s)| && 0 <= i < |Words(s)[k]| ==> IsAlpha(Words(s)[k][i])
    decreases |s|
  {
    if s != [] {
      if IsSpace(s[0]) {
        WordsOfNameChars(s[1..]);
      } else {
        var w := TakeWhile(s, IsNotSpace);
        var rest := s[|w|..];
        assert forall i :: 0 <= i < |rest| ==> IsNameChar(rest[i]) by {
          forall i | 0 <= i < |rest| ensures IsNameChar(rest[i]) { assert rest[i] == s[|w| + i]; }
        }
        WordsOfNameChars(rest);
        assert Words(s) == [w] + Words(rest);
        forall i | 0 <= i < |w| ensures IsAlpha(w[i]) {
          assert w[i] == s[i] && IsNotSpace(s[i]);
        }
      }
    }
  }

  /** A name with letters has a short name of upper-case letters only. */
  lemma ShortNameLetters(name: string)
    requires CleanName(name) != []
    ensures ShortName(name) != []
    ensures forall i :: 0 <= i < |ShortName(name)| ==> IsUpperAlpha(ShortName(name)[i])
  {
    CleanWordsAreLetters(name);
    WordsShortNameLetters(Words(CleanName(name)));
  }

  /** Characters other than letters and spaces never matter once the name
      has a letter: the short name of the letters-and-spaces part is the
      same. */
  lemma ShortNameIgnoresOtherChars(name: string)
    requires CleanName(name) != []
    ensures ShortName(KeepNameChars(name)) == ShortName(name)
  {
    KeepNameCharsIdempotent(name);
  }

  // ---------------------------------------------------------------------
  // Cache files

  /** The league part of a cache file name: the upper-cased slug. */
  function LeagueTag(league: string): string {
    Upper(Slugify(league))
  }

  /** The file name of a league's cache: the league tag, `_`, the season
      and `.json`. */
  function TeamCacheFileName(league: string, season: string): string {
    LeagueTag(league) + "_" + season + ".json"
  }

  /** `_team_cache_path`. */
  function TeamCachePath(league: string, season: string): string {
    TeamCacheDir + "/" + TeamCacheFileName(league, season)
  }

  /** A league tag uses only `[A-Z0-9_]` and has no `_` at either end. */
  lemma LeagueTagChars(league: string)
    ensures TagAlphabet(LeagueTag(league))
    ensures LeagueTag(league) == [] || (LeagueTag(league)[0] != '_' && LeagueTag(league)[|LeagueTag(league)| - 1] != '_')
  {
    UpperOfSlug(Slugify(league));
  }

  /** Only `[A-Z0-9_]`. */
  predicate TagAlphabet(s: string) {
    forall i :: 0 <= i < |s| ==> IsUpperAlpha(s[i]) || IsDigit(s[i]) || s[i] == '_'
  }

  lemma UpperOfSlug(s: string)
    requires IsSlug(s)
    ensures TagAlphabet(Upper(s))
    ensures Upper(s) == [] || (Upper(s)[0] != '_' && Upper(s)[|s| - 1] != '_')
  {
    forall i | 0 <= i < |s| ensures IsUpperAlpha(Upper(s)[i]) || IsDigit(Upper(s)[i]) || Upper(s)[i] == '_' {
      UpperOfSlugChar(s[i]);
    }
    if s != [] {
      UpperOfSlugChar(s[0]);
      UpperOfSlugChar(s[|s| - 1]);
    }
  }

  lemma UpperOfSlugChar(c: char)
    requires IsSlugChar(c) || c == '_'
    ensures IsUpperAlpha(ToUpperChar(c)) || IsDigit(ToUpperChar(c)) || ToUpperChar(c) == '_'
    ensures ToUpperChar(c) == '_' <==> c == '_'
  {
  }

  /** The part after the last `_` of `u + "_" + tail` is `tail` when `tail`
      has no `_`. */
  lemma SplitAtLastUnderscore(u: string, tail: string)
    requires '_' !in tail
    ensures var f := u + "_" + tail;
      && '_' in f && LastIndexOf(f, '_') == |u|
      && f[..|u|] == u && f[|u| + 1..] == tail
  {
    var f := u + "_" + tail;
    assert f == u + ['_'] + tail;
    assert f[|u|] == '_';
    LastIndexOfBefore(u, '_', tail);
    assert f[..|u|] == u;
    assert f[|u| + 1..] == tail;
  }

  /** `u + "_" + season + ".json"` splits at its last `_` into `u` and
      `season + ".json"` when the season has no `_`. */
  lemma SplitJsonName(u: string, season: string)
    requires '_' !in season
    ensures var f := u + "_" + season + ".json";
      && '_' in f
      && f[..LastIndexOf(f, '_')] == u
      && f[LastIndexOf(f, '_') + 1..] == season + ".json"
  {
    var tail := season + ".json";
    assert '_' !in tail by {
      assert tail[|season|..] == ".json";
    }
    assert u + "_" + season + ".json" == u + "_" + tail;
    SplitAtLastUnderscore(u, tail);
  }

  /** The league tag and the season can be read back from a cache file
      name by splitting at its last `_`, when the season has no `_`. */
  lemma TeamCacheFileNameParts(league: string, season: string)
    requires '_' !in season
    ensures var f := TeamCacheFileName(league, season);
      && '_' in f
      && f[..LastIndexOf(f, '_')] == LeagueTag(league)
      && f[LastIndexOf(f, '_') + 1..] == season + ".json"
  {
    SplitJsonName(LeagueTag(league), season);
  }

  /** A league named by two words has the cache file
      `understat_data/team_cache/<WORD1>_<WORD2>_<season>.json`, and the
      path keeps the cache directory as its prefix. */
  lemma TeamCachePathOfWords(w1: string, sep: string, w2: string, season: string)
    requires w1 != [] && forall i :: 0 <= i < |w1| ==> IsSlugChar(w1[i])
    requires w2 != [] && forall i :: 0 <= i < |w2| ==> IsSlugChar(w2[i])
    requires sep != [] && forall i :: 0 <= i < |sep| ==> IsSpace(sep[i])
    ensures TeamCachePath(w1 + sep + w2, season)
      == TeamCacheDir + "/" + (Upper(w1) + "_" + Upper(w2)) + "_" + season + ".json"
    ensures TeamCachePath(w1 + sep + w2, season)[..|TeamCacheDir| + 1] == TeamCacheDir + "/"
  {
    var name := w1 + sep + w2;
    SlugifyWords(w1, sep, w2);
    UpperOfWords(w1, w2);
    assert LeagueTag(name) == Upper(w1) + "_" + Upper(w2);
    TeamCachePathOfTag(name, season, Upper(w1) + "_" + Upper(w2));
  }

  /** The cache path of a league whose tag is `tag`. */
  lemma TeamCachePathOfTag(league: string, season: string, tag: string)
    requires LeagueTag(league) == tag
    ensures TeamCachePath(league, season) == TeamCacheDir + "/" + tag + "_" + season + ".json"
    ensures TeamCachePath(league, season)[..|TeamCacheDir| + 1] == TeamCacheDir + "/"
  {
    var dir := TeamCacheDir + "/";
    var path := TeamCachePath(league, season);
    assert path == dir + TeamCacheFileName(league, season);
    assert path[..|dir|] == dir;
  }

  /** Upper-casing two words joined by `_`. */
  lemma UpperOfWords(w1: string, w2: string)
    ensures Upper(w1 + "_" + w2) == Upper(w1) + "_" + Upper(w2)
  {
    var u := w1 + "_" + w2;
    forall i | 0 <= i < |u| ensures Upper(u)[i] == (Upper(w1) + "_" + Upper(w2))[i] {
      if i < |w1| {
        assert u[i] == w1[i];
      } else if i == |w1| {
        assert u[i] == '_';
      } else {
        assert u[i] == w2[i - |w1| - 1];
      }
    }
  }

  // ---------------------------------------------------------------------
  // Rosters

  /** A dataset row as the roster sees it. */
  datatype TeamRow = TeamRow(league: string, season: string, homeTeamName: string, awayTeamName: string)

  /** One roster entry. */
  datatype TeamEntry = TeamEntry(name: string, canonical: string, shortName: string)

  /** The payload written to a cache file. */
  datatype Roster = Roster(league: string, season: string, teams: seq<TeamEntry>)

  datatype TeamCacheError = NoFixtures(league: string, season: string)

  /** The rows of one league and season. */
  function Fixtures(rows: seq<TeamRow>, league: string, season: string): (r: seq<TeamRow>)
    ensures forall x :: x in r <==> x in rows && x.league == league && x.season == season
  {
    if rows == [] then []
    else
      assert rows == [rows[0]] + rows[1..];
      (if rows[0].league == league && rows[0].season == season then [rows[0]] else [])
        + Fixtures(rows[1..], league, season)
  }

  /** Every home and every away team name of the rows, in row order. */
  function TeamNamesOf(rows: seq<TeamRow>): (r: seq<string>)
    ensures forall n :: n in r <==> exists x :: x in rows && (x.homeTeamName == n || x.awayTeamName == n)
  {
    if rows == [] then []
    else
      assert rows == [rows[0]] + rows[1..];
      [rows[0].homeTeamName, rows[0].awayTeamName] + TeamNamesOf(rows[1..])
  }

  /** `sorted(set(homes) | set(aways))`. */
  function SortedTeamNames(rows: seq<TeamRow>): seq<string> {
    Sort(Dedup(TeamNamesOf(rows)), AsIs, false)
  }

  /** The roster names are sorted, distinct, and exactly the teams that
      play at home or away in the rows. */
  lemma SortedTeamNamesSpec(rows: seq<TeamRow>)
    ensures var names := SortedTeamNames(rows);
      && SortedBy(names, AsIs, false)
      && Distinct(names)
      && forall n :: n in names <==> exists x :: x in rows && (x.homeTeamName == n || x.awayTeamName == n)
  {
    SortedSetSpec(TeamNamesOf(rows));
  }

  function TeamNames(teams: seq<TeamEntry>): seq<string> {
    seq(|teams|, k requires 0 <= k < |teams| => teams[k].name)
  }

  /** The roster of the given names, each with its slug and short name. */
  function RosterOf(league: string, season: string, names: seq<string>): (r: Roster)
    ensures r.league == league && r.season == season && |r.teams| == |names|
    ensures forall k :: 0 <= k < |names| ==>
              r.teams[k] == TeamEntry(names[k], Slugify(names[k]), ShortName(names[k]))
  {
    Roster(league, season, seq(|names|, k requires 0 <= k < |names| =>
      TeamEntry(names[k], Slugify(names[k]), ShortName(names[k]))))
  }

  /** `ensure_team_cache`, where `existing` holds the cache files already
      present. An existing file is returned and nothing is written. Otherwise
      a league and season without fixtures is an error, and a roster is
      written for the others. The result is the path and the roster written,
      if any. */
  function EnsureTeamCache(rows: seq<TeamRow>, league: string, season: string, existing: set<string>)
    : (r: Result<(string, Option<Roster>), TeamCacheError>)
    ensures r.Success? ==> r.value.0 == TeamCachePath(league, season)
    ensures TeamCachePath(league, season) in existing ==> r == Success((TeamCachePath(league, season), None))
    ensures TeamCachePath(league, season) !in existing ==>
              (r.Failure? <==> forall x :: x in rows ==> !(x.league == league && x.season == season))
    ensures r.Failure? ==> r.error == NoFixtures(league, season)
    ensures TeamCachePath(league, season) !in existing && r.Success? ==> r.value.1.Some?
    ensures r.Success? && r.value.1.Some? ==>
              r.value.1.value == RosterOf(league, season, SortedTeamNames(Fixtures(rows, league, season)))
  {
    var path := TeamCachePath(league, season);
    if path in existing then Success((path, None))
    else
      var subset := Fixtures(rows, league, season);
      if subset == [] then Failure(NoFixtures(league, season))
      else
        assert subset[0] in subset;
        Success((path, Some(RosterOf(league, season, SortedTeamNames(subset)))))
  }

  /** A roster of sorted distinct names lists them in order, each once,
      with its slug and short name. */
  lemma RosterOfSorted(league: string, season: string, names: seq<string>)
    requires SortedBy(names, AsIs, false) && Distinct(names)
    ensures var teams := RosterOf(league, season, names).teams;
      && TeamNames(teams) == names
      && (forall i, j :: 0 <= i < j < |teams| ==> LexLe(teams[i].name, teams[j].name) && teams[i].name != teams[j].name)
      && (forall k :: 0 <= k < |teams| ==> teams[k].canonical == Slugify(teams[k].name) && teams[k].shortName == ShortName(teams[k].name))
  {
    var teams := RosterOf(league, season, names).teams;
    forall i, j | 0 <= i < j < |teams| ensures LexLe(teams[i].name, teams[j].name) && teams[i].name != teams[j].name {
      assert teams[i].name == names[i] && teams[j].name == names[j];
    }
  }

  /** The teams playing in one league and season's fixtures are the teams
      of the rows of that league and season. */
  lemma FixtureTeams(rows: seq<TeamRow>, league: string, season: string, n: string)
    ensures (exists x :: x in Fixtures(rows, league, season) && (x.homeTeamName == n || x.awayTeamName == n))
        <==> (exists x :: x in rows && x.league == league && x.season == season && (x.homeTeamName == n || x.awayTeamName == n))
  {
  }

  /** The roster written for a league and season names each team of its
      fixtures once, in sorted order, with the team's slug and short name. */
  lemma WrittenRoster(rows: seq<TeamRow>, league: string, season: string, existing: set<string>)
    requires EnsureTeamCache(rows, league, season, existing).Success?
    requires EnsureTeamCache(rows, league, season, existing).value.1.Some?
    ensures var teams := EnsureTeamCache(rows, league, season, existing).value.1.value.teams;
      && (forall i, j :: 0 <= i < j < |teams| ==> LexLe(teams[i].name, teams[j].name) && teams[i].name != teams[j].name)
      && (forall n :: n in TeamNames(teams) <==>
            exists x :: x in rows && x.league == league && x.season == season && (x.homeTeamName == n || x.awayTeamName == n))
      && (forall k :: 0 <= k < |teams| ==> teams[k].canonical == Slugify(teams[k].name) && teams[k].shortName == ShortName(teams[k].name))
  {
    var subset := Fixtures(rows, league, season);
    var names := SortedTeamNames(subset);
    SortedTeamNamesSpec(subset);
    RosterOfSorted(league, season, names);
    forall n ensures n in names <==>
        exists x :: x in rows && x.league == league && x.season == season && (x.homeTeamName == n || x.awayTeamName == n)
    {
      FixtureTeams(rows, league, season, n);
    }
  }

  // ---------------------------------------------------------------------
  // Latest season of every league

  function Leagues(rows: seq<TeamRow>): (r: seq<string>)
    ensures |r| == |rows| && forall k :: 0 <= k < |rows| ==> r[k] == rows[k].league
  {
    seq(|rows|, k requires 0 <= k < |rows| => rows[k].league)
  }

  /** The seasons of one league's rows. */
  function SeasonsOf(rows: seq<TeamRow>, league: string): (r: seq<string>)
    ensures forall s :: s in r <==> exists x :: x in rows && x.league == league && x.season == s
  {
    if rows == [] then []
    else
      assert rows == [rows[0]] + rows[1..];
      (if rows[0].league == league then [rows[0].season] else []) + SeasonsOf(rows[1..], league)
  }

  /** `df.groupby("league")["season"].max()`: every league once, in sorted
      order, with its greatest season. */
  function LatestByLeague(rows: seq<TeamRow>): (r: seq<(string, string)>)
    ensures |r| == |Sort(Dedup(Leagues(rows)), AsIs, false)|
    ensures forall k :: 0 <= k < |r| ==> r[k].0 == Sort(Dedup(Leagues(rows)), AsIs, false)[k]
    ensures forall k :: 0 <= k < |r| ==> exists x :: x in rows && x.league == r[k].0 && x.season == r[k].1
    ensures forall k :: 0 <= k < |r| ==> forall x :: x in rows && x.league == r[k].0 ==> LexLe(x.season, r[k].1)
  {
    var leagues := Sort(Dedup(Leagues(rows)), AsIs, false);
    seq(|leagues|, k requires 0 <= k < |leagues| => LatestEntry(rows, leagues[k]))
  }

  /** One listed league with its greatest season. */
  function LatestEntry(rows: seq<TeamRow>, league: string): (e: (string, string))
    requires league in Sort(Dedup(Leagues(rows)), AsIs, false)
    ensures e.0 == league
    ensures exists x :: x in rows && x.league == league && x.season == e.1
    ensures forall x :: x in rows && x.league == league ==> LexLe(x.season, e.1)
  {
    LeaguesPresent(rows);
    (league, LatestSeasonOf(rows, league))
  }

  /** The greatest season of a league that has rows. */
  function LatestSeasonOf(rows: seq<TeamRow>, league: string): (s: string)
    requires exists x :: x in rows && x.league == league
    ensures exists x :: x in rows && x.league == league && x.season == s
    ensures forall x :: x in rows && x.league == league ==> LexLe(x.season, s)
  {
    var x :| x in rows && x.league == league;
    var seasons := SeasonsOf(rows, league);
    assert x.season in seasons;
    var s := MaxString(seasons);
    assert forall y :: y in rows && y.league == league ==> LexLe(y.season, s) by {
      forall y | y in rows && y.league == league ensures LexLe(y.season, s) {
        assert y.season in seasons;
        var k :| 0 <= k < |seasons| && seasons[k] == y.season;
      }
    }
    s
  }

  /** Every sorted league is the league of some row, and every row's league is listed. */
  lemma LeaguesPresent(rows: seq<TeamRow>)
    ensures forall l :: l in Sort(Dedup(Leagues(rows)), AsIs, false) <==> exists x :: x in rows && x.league == l
    ensures Distinct(Sort(Dedup(Leagues(rows)), AsIs, false))
    ensures SortedBy(Sort(Dedup(Leagues(rows)), AsIs, false), AsIs, false)
  {
    var sorted := Sort(Dedup(Leagues(rows)), AsIs, false);
    SortedSetSpec(Leagues(rows));
    forall l ensures l in sorted <==> exists x :: x in rows && x.league == l {
      if l in Leagues(rows) {
        var k :| 0 <= k < |rows| && Leagues(rows)[k] == l;
        assert rows[k] in rows;
      }
      if exists x :: x in rows && x.league == l {
        var x :| x in rows && x.league == l;
        var k :| 0 <= k < |rows| && rows[k] == x;
        assert Leagues(rows)[k] == l;
      }
    }
  }

  /** `ensure_latest_team_caches` over the (league, season) pairs still to
      do: each pair's cache is ensured in turn, a league that fails is
      skipped, and a file written for one league counts as existing for the
      next. The result is the paths produced and the files existing after. */
  function EnsureCaches(rows: seq<TeamRow>, todo: seq<(string, string)>, existing: set<string>)
    : (r: (seq<string>, set<string>))
    ensures existing <= r.1
    ensures forall p :: p in r.0 ==> p in r.1
    ensures |r.0| <= |todo|
  {
    if todo == [] then ([], existing)
    else
      var step := EnsureTeamCache(rows, todo[0].0, todo[0].1, existing);
      if step.Failure? then EnsureCaches(rows, todo[1..], existing)
      else
        var rest := EnsureCaches(rows, todo[1..], existing + {step.value.0});
        ([step.value.0] + rest.0, rest.1)
  }

  /** `ensure_latest_team_caches`: nothing without both a league and a season
      column; otherwise the cache of every league's latest season. */
  function EnsureLatestTeamCaches(rows: seq<TeamRow>, hasLeagueAndSeason: bool, existing: set<string>)
    : (r: (seq<string>, set<string>))
    ensures !hasLeagueAndSeason ==> r == ([], existing)
  {
    if !hasLeagueAndSeason then ([], existing)
    else EnsureCaches(rows, LatestByLeague(rows), existing)
  }

  /** A league and season with fixtures gets its cache path. */
  lemma EnsureTeamCacheSucceeds(rows: seq<TeamRow>, league: string, season: string, existing: set<string>)
    requires exists x :: x in rows && x.league == league && x.season == season
    ensures EnsureTeamCache(rows, league, season, existing) == Success(EnsureTeamCache(rows, league, season, existing).value)
    ensures EnsureTeamCache(rows, league, season, existing).value.0 == TeamCachePath(league, season)
  {
    var x :| x in rows && x.league == league && x.season == season;
    assert x in Fixtures(rows, league, season);
  }

  /** The cache path of a (league, season) pair. */
  function PairPath(pair: (string, string)): string {
    TeamCachePath(pair.0, pair.1)
  }

  /** Some row is a fixture of the pair's league and season. */
  ghost predicate HasFixtures(rows: seq<TeamRow>, pair: (string, string)) {
    exists x :: x in rows && x.league == pair.0 && x.season == pair.1
  }

  /** When every pair has fixtures, no pair is skipped: one cache path per
      pair, in order. */
  lemma {:induction false} EnsureCachesOfPresentPairs(rows: seq<TeamRow>, todo: seq<(string, string)>, existing: set<string>)
    requires forall k :: 0 <= k < |todo| ==> HasFixtures(rows, todo[k])
    ensures EnsureCaches(rows, todo, existing).0 == MapSeq(todo, PairPath)
  {
    if todo != [] {
      var tail := todo[1..];
      assert HasFixtures(rows, todo[0]);
      assert forall k :: 0 <= k < |tail| ==> tail[k] == todo[k + 1];
      EnsureCachesStep(rows, todo, existing);
      EnsureCachesOfPresentPairs(rows, tail, existing + {PairPath(todo[0])});
    }
  }

  /** One step of `EnsureCaches` when the first pair has fixtures. */
  lemma EnsureCachesStep(rows: seq<TeamRow>, todo: seq<(string, string)>, existing: set<string>)
    requires todo != [] && HasFixtures(rows, todo[0])
    ensures EnsureCaches(rows, todo, existing).0
         == [PairPath(todo[0])] + EnsureCaches(rows, todo[1..], existing + {PairPath(todo[0])}).0
  {
    EnsureTeamCacheSucceeds(rows, todo[0].0, todo[0].1, existing);
  }


  /** With both columns present, the produced paths are the caches of the
      leagues in sorted order, each for its greatest season. */
  lemma LatestCachesPerLeague(rows: seq<TeamRow>, existing: set<string>)
    ensures var r := EnsureLatestTeamCaches(rows, true, existing);
      var latest := LatestByLeague(rows);
      && |r.0| == |latest|
      && forall k :: 0 <= k < |latest| ==> r.0[k] == TeamCachePath(latest[k].0, latest[k].1)
  {
    EnsureCachesOfPresentPairs(rows, LatestByLeague(rows), existing);
    MapSeqAt(LatestByLeague(rows), PairPath);
  }
}

=== FILE: text.dfy ===
/** Character classes and string/sequence helpers shared by the pipeline
    modules: Python's `strip`, `split`, `lower`/`upper`, string ordering,
    `sorted` and the insertion-ordered de-duplication idiom
    (`dict.fromkeys` / "append if not already in the list"). */
module Text {

  /** Python's `str.isspace` (the characters `str.strip()` and `str.split()` treat as blanks). */
  predicate IsSpace(c: char) {
    || c == ' '
    || ('\t' <= c <= '\r')
    || ('\U{1C}' <= c <= '\U{1F}')
    || c == '\U{85}' || c == '\U{A0}' || c == '\U{1680}'
    || ('\U{2000}' <= c <= '\U{200A}')
    || c == '\U{2028}' || c == '\U{2029}' || c == '\U{202F}' || c == '\U{205F}' || c == '\U{3000}'
  }

  predicate IsDigit(c: char) { '0' <= c <= '9' }
  predicate IsLowerAlpha(c: char) { 'a' <= c <= 'z' }
  predicate IsUpperAlpha(c: char) { 'A' <= c <= 'Z' }
  predicate IsAlpha(c: char) { IsLowerAlpha(c) || IsUpperAlpha(c) }

  predicate AllDigits(s: string) { forall i :: 0 <= i < |s| ==> IsDigit(s[i]) }

  /** Python's `str.isdigit` on ASCII text: non-empty and digits only. */
  predicate IsDigitString(s: string) { s != [] && AllDigits(s) }

  function ToLowerChar(c: char): char {
    if IsUpperAlpha(c) then (c as int + 32) as char else c
  }

  function ToUpperChar(c: char): char {
    if IsLowerAlpha(c) then (c as int - 32) as char else c
  }

  function Lower(s: string): string {
    seq(|s|, i requires 0 <= i < |s| => ToLowerChar(s[i]))
  }

  function Upper(s: string): string {
    seq(|s|, i requires 0 <= i < |s| => ToUpperChar(s[i]))
  }

  function Min(a: int, b: int): int { if a <= b then a else b }

  /** `s[:n]` in Python: at most the first `n` characters. */
  function Take<T>(s: seq<T>, n: nat): seq<T> {
    if n <= |s| then s[..n] else s
  }

  // ---------------------------------------------------------------------
  // Stripping

  /** The longest suffix of `s` that does not start with a `p` character. */
  function DropWhile(s: string, p: char -> bool): (r: string)
    ensures |r| <= |s| && r == s[|s| - |r|..]
    ensures forall i :: 0 <= i < |s| - |r| ==> p(s[i])
    ensures r == [] || !p(r[0])
  {
    if s == [] || !p(s[0]) then s else DropWhile(s[1..], p)
  }

  /** The longest prefix of `s` that does not end with a `p` character. */
  function DropWhileEnd(s: string, p: char -> bool): (r: string)
    ensures |r| <= |s| && r == s[..|r|]
    ensures forall i :: |r| <= i < |s| ==> p(s[i])
    ensures r == [] || !p(r[|r| - 1])
  {
    if s == [] || !p(s[|s| - 1]) then s else DropWhileEnd(s[..|s| - 1], p)
  }

  /** The longest prefix of `s` made only of `p` characters. */
  function TakeWhile(s: string, p: char -> bool): (r: string)
    ensures |r| <= |s| && r == s[..|r|]
    ensures forall i :: 0 <= i < |r| ==> p(s[i])
    ensures |r| == |s| || !p(s[|r|])
  {
    if s == [] || !p(s[0]) then [] else [s[0]] + TakeWhile(s[1..], p)
  }

  function StripBy(s: string, p: char -> bool): string {
    DropWhileEnd(DropWhile(s, p), p)
  }

  /** Python's `str.strip()`. */
  function Strip(s: string): string {
    StripBy(s, IsSpace)
  }

  /** `StripBy` removes exactly a run of `p` characters from each end, and
      what is left neither starts nor ends with one. */
  lemma StripBySpec(s: string, p: char -> bool)
    ensures var r := StripBy(s, p);
      && (r == [] || (!p(r[0]) && !p(r[|r| - 1])))
      && exists i, j :: 0 <= i <= j <= |s| && r == s[i..j]
                        && (forall k :: 0 <= k < i ==> p(s[k]))
                        && (forall k :: j <= k < |s| ==> p(s[k]))
  {
    var i := |s| - |DropWhile(s, p)|;
    var j := i + |StripBy(s, p)|;
    StripByEnds(s, p);
    StripByBounds(s, p);
    assert 0 <= i <= j <= |s| && StripBy(s, p) == s[i..j]
      && (forall k :: 0 <= k < i ==> p(s[k]))
      && (forall k :: j <= k < |s| ==> p(s[k]));
  }

  /** What `StripBy` keeps neither starts nor ends with a `p` character. */
  lemma StripByEnds(s: string, p: char -> bool)
    ensures var r := StripBy(s, p);
      r == [] || (!p(r[0]) && !p(r[|r| - 1]))
  {
    var t := DropWhile(s, p);
    var r := DropWhileEnd(t, p);
    if r != [] {
      assert r[0] == t[0];
    }
  }

  /** What `StripBy` keeps is a slice of `s` with only `p` characters
      before and after it. */
  lemma StripByBounds(s: string, p: char -> bool)
    ensures var i := |s| - |DropWhile(s, p)|;
      var r := StripBy(s, p);
      && i + |r| <= |s| && r == s[i..i + |r|]
      && (forall k :: 0 <= k < i ==> p(s[k]))
      && (forall k :: i + |r| <= k < |s| ==> p(s[k]))
  {
    var t := DropWhile(s, p);
    var r := DropWhileEnd(t, p);
    PaddedSlice(s, t, r, p);
  }

  /** A prefix `r` of the suffix `t` of `s`, where the rest of `t` is all
      `p` characters, is a slice of `s` followed by `p` characters only. */
  lemma PaddedSlice(s: string, t: string, r: string, p: char -> bool)
    requires |t| <= |s| && t == s[|s| - |t|..]
    requires |r| <= |t| && r == t[..|r|]
    requires forall k :: |r| <= k < |t| ==> p(t[k])
    ensures r == s[|s| - |t|..|s| - |t| + |r|]
    ensures forall k :: |s| - |t| + |r| <= k < |s| ==> p(s[k])
  {
    var i := |s| - |t|;
    forall k | i + |r| <= k < |s| ensures p(s[k]) {
      assert s[k] == t[k - i];
    }
  }

  /** A string that neither starts nor ends with a `p` character is its own
      `StripBy`. */
  lemma StripByUnpadded(s: string, p: char -> bool)
    requires s == [] || (!p(s[0]) && !p(s[|s| - 1]))
    ensures StripBy(s, p) == s
  {
  }

  /** `lower` keeps the length and the blanks of a string. */
  lemma LowerKeepsSpaces(s: string)
    ensures |Lower(s)| == |s|
    ensures forall i :: 0 <= i < |s| ==> (IsSpace(Lower(s)[i]) <==> IsSpace(s[i]))
  {
  }

  /** Lower-casing and stripping commute, since `lower` keeps blanks. */
  lemma LowerStrip(s: string)
    ensures Lower(Strip(s)) == Strip(Lower(s))
  {
    LowerDropWhile(s);
    LowerDropWhileEnd(DropWhile(s, IsSpace));
  }

  lemma LowerCharKeepsSpace(c: char)
    ensures IsSpace(ToLowerChar(c)) <==> IsSpace(c)
  {
  }

  lemma {:induction false} LowerDropWhile(s: string)
    ensures Lower(DropWhile(s, IsSpace)) == DropWhile(Lower(s), IsSpace)
  {
    if s != [] {
      var l := Lower(s);
      assert l[0] == ToLowerChar(s[0]);
      LowerCharKeepsSpace(s[0]);
      if IsSpace(s[0]) {
        assert l[1..] == Lower(s[1..]);
        assert DropWhile(l, IsSpace) == DropWhile(l[1..], IsSpace);
        LowerDropWhile(s[1..]);
      } else {
        assert DropWhile(s, IsSpace) == s;
        assert DropWhile(l, IsSpace) == l;
      }
    }
  }

  lemma {:induction false} LowerDropWhileEnd(s: string)
    ensures Lower(DropWhileEnd(s, IsSpace)) == DropWhileEnd(Lower(s), IsSpace)
  {
    if s != [] {
      var n := |s| - 1;
      var l := Lower(s);
      assert l[n] == ToLowerChar(s[n]);
      LowerCharKeepsSpace(s[n]);
      if IsSpace(s[n]) {
        assert l[..n] == Lower(s[..n]);
        assert DropWhileEnd(l, IsSpace) == DropWhileEnd(l[..n], IsSpace);
        LowerDropWhileEnd(s[..n]);
      } else {
        assert DropWhileEnd(s, IsSpace) == s;
        assert DropWhileEnd(l, IsSpace) == l;
      }
    }
  }

  lemma {:induction false} DropBlanksPrefix(pad: string, s: string)
    requires forall i :: 0 <= i < |pad| ==> IsSpace(pad[i])
    ensures DropWhile(pad + s, IsSpace) == DropWhile(s, IsSpace)
  {
    if pad != [] {
      assert (pad + s)[0] == pad[0];
      assert (pad + s)[1..] == pad[1..] + s;
      DropBlanksPrefix(pad[1..], s);
    } else {
      assert pad + s == s;
    }
  }

  lemma {:induction false} DropBlanksSuffix(s: string, pad: string)
    requires forall i :: 0 <= i < |pad| ==> IsSpace(pad[i])
    ensures DropWhileEnd(s + pad, IsSpace) == DropWhileEnd(s, IsSpace)
  {
    if pad != [] {
      var p := pad[..|pad| - 1];
      assert (s + pad)[|s + pad| - 1] == pad[|pad| - 1];
      assert (s + pad)[..|s + pad| - 1] == s + p;
      DropBlanksSuffix(s, p);
    } else {
      assert s + pad == s;
    }
  }

  /** Leading blanks do not change what `strip` leaves. */
  lemma StripIgnoresPrefix(pre: string, value: string)
    requires forall i :: 0 <= i < |pre| ==> IsSpace(pre[i])
    ensures Strip(pre + value) == Strip(value)
  {
    DropBlanksPrefix(pre, value);
  }

  /** Trailing blanks do not change what `strip` leaves. */
  lemma StripIgnoresSuffix(value: string, post: string)
    requires forall i :: 0 <= i < |post| ==> IsSpace(post[i])
    ensures Strip(value + post) == Strip(value)
  {
    var t := DropWhile(value, IsSpace);
    // Dropping leading blanks of `value + post` leaves `t + post`, or
    // nothing when `value` is all blanks.
    DropWhileAppend(value, post);
    if t != [] {
      DropBlanksSuffix(t, post);
    }
  }

  /** Blanks around a name do not change what `strip` leaves. */
  lemma StripIgnoresPadding(pre: string, value: string, post: string)
    requires forall i :: 0 <= i < |pre| ==> IsSpace(pre[i])
    requires forall i :: 0 <= i < |post| ==> IsSpace(post[i])
    ensures Strip(pre + value + post) == Strip(value)
  {
    assert pre + value + post == pre + (value + post);
    StripIgnoresPrefix(pre, value + post);
    StripIgnoresSuffix(value, post);
  }

  lemma {:induction false} DropWhileAppend(value: string, post: string)
    requires forall i :: 0 <= i < |post| ==> IsSpace(post[i])
    ensures DropWhile(value, IsSpace) != [] ==> DropWhile(value + post, IsSpace) == DropWhile(value, IsSpace) + post
    ensures DropWhile(value, IsSpace) == [] ==> DropWhile(value + post, IsSpace) == []
  {
    if value == [] {
      assert value + post == post + [];
      DropBlanksPrefix(post, []);
    } else if !IsSpace(value[0]) {
    } else {
      assert (value + post)[1..] == value[1..] + post;
      DropWhileAppend(value[1..], post);
    }
  }

  // ---------------------------------------------------------------------
  // Searching and splitting

  /** Index of the first `c` in `s`. */
  function IndexOf(s: string, c: char): (i: nat)
    requires c in s
    ensures i < |s| && s[i] == c && c !in s[..i]
  {
    if s[0] == c then 0 else 1 + IndexOf(s[1..], c)
  }

  /** Index of the last `c` in `s`. */
  function LastIndexOf(s: string, c: char): (i: nat)
    requires c in s
    ensures i < |s| && s[i] == c && c !in s[i + 1..]
  {
    if s[|s| - 1] == c then |s| - 1 else LastIndexOf(s[..|s| - 1], c)
  }

  /** The first `c` of `a + [c] + b` is the one after `a` when `a` has none. */
  lemma {:induction false} IndexOfAfter(a: string, c: char, b: string)
    requires c !in a
    ensures IndexOf(a + [c] + b, c) == |a|
  {
    if a != [] {
      assert (a + [c] + b)[1..] == a[1..] + [c] + b;
      IndexOfAfter(a[1..], c, b);
    }
  }

  /** The last `c` of `a + [c] + b` is the one before `b` when `b` has none. */
  lemma {:induction false} LastIndexOfBefore(a: string, c: char, b: string)
    requires c !in b
    ensures LastIndexOf(a + [c] + b, c) == |a|
  {
    if b != [] {
      var s := a + [c] + b;
      assert s[|s| - 1] == b[|b| - 1];
      assert s[..|s| - 1] == a + [c] + b[..|b| - 1];
      LastIndexOfBefore(a, c, b[..|b| - 1]);
    }
  }

  /** Python's `s.split(sep)` for a one-character separator. */
  function Split(s: string, sep: char): (parts: seq<string>)
    ensures |parts| >= 1
    ensures forall k :: 0 <= k < |parts| ==> sep !in parts[k]
    decreases |s|
  {
    if sep !in s then [s]
    else
      var i := IndexOf(s, sep);
      [s[..i]] + Split(s[i + 1..], sep)
  }

  /** Python's `sep.join(parts)`. */
  function Join(parts: seq<string>, sep: char): string
    requires |parts| >= 1
  {
    if |parts| == 1 then parts[0] else parts[0] + [sep] + Join(parts[1..], sep)
  }

  lemma {:induction false} SplitThenJoin(s: string, sep: char)
    ensures Join(Split(s, sep), sep) == s
    decreases |s|
  {
    if sep in s {
      var i := IndexOf(s, sep);
      var parts := Split(s, sep);
      var rest := Split(s[i + 1..], sep);
      assert parts == [s[..i]] + rest;
      assert parts[0] == s[..i] && parts[1..] == rest;
      SplitThenJoin(s[i + 1..], sep);
      assert Join(parts, sep) == s[..i] + [sep] + Join(rest, sep);
      assert s == s[..i] + [sep] + s[i + 1..];
    }
  }

  lemma {:induction false} JoinThenSplit(parts: seq<string>, sep: char)
    requires |parts| >= 1
    requires forall k :: 0 <= k < |parts| ==> sep !in parts[k]
    ensures Split(Join(parts, sep), sep) == parts
  {
    if |parts| > 1 {
      var s := Join(parts, sep);
      var rest := Join(parts[1..], sep);
      assert s == parts[0] + [sep] + rest;
      assert s[|parts[0]|] == sep;
      assert s[..|parts[0]|] == parts[0];
      assert IndexOf(s, sep) == |parts[0]|;
      assert s[|parts[0]| + 1..] == rest;
      JoinThenSplit(parts[1..], sep);
      assert [parts[0]] + parts[1..] == parts;
    }
  }

  /** Python's `str.split()` with no separator: the maximal runs of
      non-blank characters, in order. */
  function Words(s: string): (ws: seq<string>)
    ensures forall k :: 0 <= k < |ws| ==> IsWord(ws[k])
    decreases |s|
  {
    if s == [] then []
    else if IsSpace(s[0]) then Words(s[1..])
    else
      var w := TakeWhile(s, IsNotSpace);
      assert |w| > 0;
      assert IsWord(w);
      [w] + Words(s[|w|..])
  }

  predicate IsNotSpace(c: char) { !IsSpace(c) }

  /** A word: non-empty and free of blanks. */
  predicate IsWord(w: string) {
    w != [] && forall i :: 0 <= i < |w| ==> !IsSpace(w[i])
  }

  // ---------------------------------------------------------------------
  // Ordering of strings and sorting

  /** Python's `<=` on `str`: code point by code point, a proper prefix first. */
  predicate LexLe(a: string, b: string) {
    a == [] || (b != [] && (a[0] < b[0] || (a[0] == b[0] && LexLe(a[1..], b[1..]))))
  }

  lemma {:induction false} LexLeTotal(a: string, b: string)
    ensures LexLe(a, b) || LexLe(b, a)
  {
    if a != [] && b != [] && a[0] == b[0] {
      LexLeTotal(a[1..], b[1..]);
    }
  }

  lemma {:induction false} LexLeTrans(a: string, b: string, c: string)
    requires LexLe(a, b) && LexLe(b, c)
    ensures LexLe(a, c)
  {
    if a != [] && a[0] == b[0] && b[0] == c[0] {
      LexLeTrans(a[1..], b[1..], c[1..]);
    }
  }

  lemma {:induction false} LexLeAntisym(a: string, b: string)
    requires LexLe(a, b) && LexLe(b, a)
    ensures a == b
  {
    if a != [] {
      LexLeAntisym(a[1..], b[1..]);
      assert a == [a[0]] + a[1..];
      assert b == [b[0]] + b[1..];
    }
  }

  /** The greatest string of a non-empty list in Python's string order. */
  function MaxString(xs: seq<string>): (r: string)
    requires xs != []
    ensures r in xs
    ensures forall k :: 0 <= k < |xs| ==> LexLe(xs[k], r)
  {
    if |xs| == 1 then
      LexLeTotal(xs[0], xs[0]);
      xs[0]
    else
      var m := MaxString(xs[1..]);
      assert forall k :: 1 <= k < |xs| ==> LexLe(xs[k], m) by {
        forall k | 1 <= k < |xs| ensures LexLe(xs[k], m) { assert xs[k] == xs[1..][k - 1]; }
      }
      LexLeTotal(xs[0], m);
      if LexLe(xs[0], m) then m
      else
        LexLeTotal(xs[0], xs[0]);
        forall k | 1 <= k < |xs| ensures LexLe(xs[k], xs[0]) {
          LexLeTrans(xs[k], m, xs[0]);
        }
        xs[0]
  }

  /** `a` may precede `b` in ascending (`desc == false`) or descending order. */
  predicate InOrder(a: string, b: string, desc: bool) {
    if desc then LexLe(b, a) else LexLe(a, b)
  }

  /** `s` is ordered by `key`, ascending or descending. */
  predicate SortedBy<T>(s: seq<T>, key: T -> string, desc: bool) {
    forall i, j :: 0 <= i < j < |s| ==> InOrder(key(s[i]), key(s[j]), desc)
  }

  /** The key that sorts strings by themselves. */
  function AsIs(s: string): string { s }

  lemma InOrderTrans(a: string, b: string, c: string, desc: bool)
    requires InOrder(a, b, desc) && InOrder(b, c, desc)
    ensures InOrder(a, c, desc)
  {
    if desc { LexLeTrans(c, b, a); } else { LexLeTrans(a, b, c); }
  }

  lemma InOrderTotal(a: string, b: string, desc: bool)
    ensures InOrder(a, b, desc) || InOrder(b, a, desc)
  {
    LexLeTotal(a, b);
  }

  /** Inserts `x` into a sequence sorted by `key`, after every element it
      does not precede. */
  function Insert<T>(x: T, s: seq<T>, key: T -> string, desc: bool): seq<T> {
    if s == [] then [x]
    else if InOrder(key(x), key(s[0]), desc) then [x] + s
    else [s[0]] + Insert(x, s[1..], key, desc)
  }

  /** Python's `sorted(xs, key=key)` (`desc == false`) and
      `sorted(xs, key=key, reverse=True)`. */
  function Sort<T>(xs: seq<T>, key: T -> string, desc: bool): seq<T> {
    if xs == [] then [] else Insert(xs[0], Sort(xs[1..], key, desc), key, desc)
  }

  /** `Insert` adds `x` and keeps everything else. */
  lemma {:induction false} InsertPerm<T>(x: T, s: seq<T>, key: T -> string, desc: bool)
    ensures multiset(Insert(x, s, key, desc)) == multiset(s) + multiset{x}
  {
    if s != [] && !InOrder(key(x), key(s[0]), desc) {
      InsertPerm(x, s[1..], key, desc);
      assert s == [s[0]] + s[1..];
    }
  }

  /** An element that may precede every element of a sorted sequence may
      head it. */
  lemma ConsSorted<T>(a: T, t: seq<T>, key: T -> string, desc: bool)
    requires SortedBy(t, key, desc)
    requires forall k :: 0 <= k < |t| ==> InOrder(key(a), key(t[k]), desc)
    ensures SortedBy([a] + t, key, desc)
  {
    var r := [a] + t;
    forall i, j | 0 <= i < j < |r| ensures InOrder(key(r[i]), key(r[j]), desc) {
      if i == 0 {
        assert r[j] == t[j - 1];
      } else {
        assert r[i] == t[i - 1] && r[j] == t[j - 1];
      }
    }
  }

  /** The head of a sorted sequence, when `x` may not precede it, may
      precede every element of `Insert(x, s[1..])`. */
  lemma HeadBeforeInsert<T>(x: T, s: seq<T>, key: T -> string, desc: bool)
    requires s != [] && SortedBy(s, key, desc) && !InOrder(key(x), key(s[0]), desc)
    ensures forall k :: 0 <= k < |Insert(x, s[1..], key, desc)| ==>
              InOrder(key(s[0]), key(Insert(x, s[1..], key, desc)[k]), desc)
  {
    var t := Insert(x, s[1..], key, desc);
    InsertPerm(x, s[1..], key, desc);
    InOrderTotal(key(x), key(s[0]), desc);
    forall k | 0 <= k < |t| ensures InOrder(key(s[0]), key(t[k]), desc) {
      assert t[k] in multiset(t);
      if t[k] != x {
        assert t[k] in multiset(s[1..]);
        var m :| 0 <= m < |s[1..]| && s[1..][m] == t[k];
        assert s[m + 1] == t[k];
      }
    }
  }

  lemma {:induction false} InsertSpec<T>(x: T, s: seq<T>, key: T -> string, desc: bool)
    requires SortedBy(s, key, desc)
    ensures SortedBy(Insert(x, s, key, desc), key, desc)
    ensures multiset(Insert(x, s, key, desc)) == multiset(s) + multiset{x}
  {
    InsertPerm(x, s, key, desc);
    if s == [] {
    } else if InOrder(key(x), key(s[0]), desc) {
      forall k | 0 <= k < |s| ensures InOrder(key(x), key(s[k]), desc) {
        if k > 0 { InOrderTrans(key(x), key(s[0]), key(s[k]), desc); }
      }
      ConsSorted(x, s, key, desc);
    } else {
      assert SortedBy(s[1..], key, desc) by {
        forall i, j | 0 <= i < j < |s[1..]| ensures InOrder(key(s[1..][i]), key(s[1..][j]), desc) {
          assert s[1..][i] == s[i + 1] && s[1..][j] == s[j + 1];
        }
      }
      InsertSpec(x, s[1..], key, desc);
      HeadBeforeInsert(x, s, key, desc);
      ConsSorted(s[0], Insert(x, s[1..], key, desc), key, desc);
    }
  }

  /** `Sort` returns a permutation of its input ordered by the key. */
  lemma {:induction false} SortSpec<T>(xs: seq<T>, key: T -> string, desc: bool)
    ensures SortedBy(Sort(xs, key, desc), key, desc)
    ensures multiset(Sort(xs, key, desc)) == multiset(xs)
  {
    if xs != [] {
      SortSpec(xs[1..], key, desc);
      InsertSpec(xs[0], Sort(xs[1..], key, desc), key, desc);
      assert xs == [xs[0]] + xs[1..];
    }
  }

  // ---------------------------------------------------------------------
  // Ordered de-duplication and flattening

  predicate Distinct<T(==)>(s: seq<T>) {
    forall i, j :: 0 <= i < j < |s| ==> s[i] != s[j]
  }

  /** Every occurrence of `b` in `xs` is preceded by an occurrence of `a`:
      `a` first appears before `b` does. */
  predicate FirstSeenBefore<T(==)>(xs: seq<T>, a: T, b: T) {
    forall k :: 0 <= k < |xs| && xs[k] == b ==> a in xs[..k]
  }

  /** The elements of `xs` in order of first occurrence, each once. */
  function Dedup<T(==)>(xs: seq<T>): seq<T> {
    if xs == [] then []
    else
      var d := Dedup(xs[..|xs| - 1]);
      if xs[|xs| - 1] in d then d else d + [xs[|xs| - 1]]
  }

  lemma {:induction false} DedupMembers<T>(xs: seq<T>)
    ensures forall x :: x in Dedup(xs) ==> x in xs
    ensures forall x :: x in xs ==> x in Dedup(xs)
  {
    if xs != [] {
      var p := xs[..|xs| - 1];
      DedupMembers(p);
      assert xs == p + [xs[|xs| - 1]];
    }
  }

  lemma {:induction false} DedupDistinct<T>(xs: seq<T>)
    ensures Distinct(Dedup(xs))
  {
    if xs != [] {
      DedupDistinct(xs[..|xs| - 1]);
    }
  }

  lemma {:induction false} DedupOrder<T>(xs: seq<T>)
    ensures forall i, j :: 0 <= i < j < |Dedup(xs)| ==> FirstSeenBefore(xs, Dedup(xs)[i], Dedup(xs)[j])
  {
    if xs != [] {
      var n := |xs|;
      var p := xs[..n - 1];
      var x := xs[n - 1];
      var d := Dedup(p);
      DedupOrder(p);
      DedupMembers(p);
      var r := Dedup(xs);
      assert r == d || r == d + [x];
      forall i, j | 0 <= i < j < |r| ensures FirstSeenBefore(xs, r[i], r[j]) {
        assert r[i] == d[i];
        assert r[i] in p;
        forall k | 0 <= k < n && xs[k] == r[j] ensures r[i] in xs[..k] {
          if k < n - 1 {
            assert r[j] in p;
            assert j < |d|;
            assert FirstSeenBefore(p, d[i], d[j]);
            assert p[k] == r[j];
            assert p[..k] == xs[..k];
          } else {
            assert xs[..k] == p;
          }
        }
      }
    }
  }

  /** `Dedup` keeps each element of `xs` exactly once, in order of first occurrence. */
  lemma DedupSpec<T>(xs: seq<T>)
    ensures Distinct(Dedup(xs))
    ensures forall x :: x in Dedup(xs) <==> x in xs
    ensures forall i, j :: 0 <= i < j < |Dedup(xs)| ==> FirstSeenBefore(xs, Dedup(xs)[i], Dedup(xs)[j])
  {
    DedupMembers(xs);
    DedupDistinct(xs);
    DedupOrder(xs);
  }

  /** Occurrences of `x` in `xs`. */
  function Count<K(==)>(xs: seq<K>, x: K): nat {
    if xs == [] then 0 else Count(xs[..|xs| - 1], x) + (if xs[|xs| - 1] == x then 1 else 0)
  }

  /** pandas' `groupby(...).cumcount()`: how many earlier rows share the
      group of row `i`. */
  function CumCount<K(==)>(keys: seq<K>, i: nat): nat
    requires i < |keys|
  {
    Count(keys[..i], keys[i])
  }

  /** `[f(x) for x in xs]`, built front to back. */
  function MapSeq<A, B>(xs: seq<A>, f: A -> B): seq<B> {
    if xs == [] then [] else [f(xs[0])] + MapSeq(xs[1..], f)
  }

  lemma {:induction false} MapSeqAt<A, B>(xs: seq<A>, f: A -> B)
    ensures |MapSeq(xs, f)| == |xs|
    ensures forall k :: 0 <= k < |xs| ==> MapSeq(xs, f)[k] == f(xs[k])
  {
    if xs != [] {
      MapSeqAt(xs[1..], f);
    }
  }

  function Flatten<T>(xss: seq<seq<T>>): seq<T> {
    if xss == [] then [] else xss[0] + Flatten(xss[1..])
  }

  lemma {:induction false} FlattenMember<T>(xss: seq<seq<T>>, x: T)
    ensures x in Flatten(xss) <==> exists i :: 0 <= i < |xss| && x in xss[i]
  {
    if xss != [] {
      FlattenMember(xss[1..], x);
      if x in Flatten(xss[1..]) {
        var i :| 0 <= i < |xss[1..]| && x in xss[1..][i];
        assert x in xss[i + 1];
      }
      if exists i :: 0 <= i < |xss| && x in xss[i] {
        var i :| 0 <= i < |xss| && x in xss[i];
        if i > 0 {
          assert x in xss[1..][i - 1];
        }
      }
    }
  }

  /** A distinct sequence holds each element at most once. */
  lemma {:induction false} DistinctCountsAtMostOne<T>(s: seq<T>, x: T)
    requires Distinct(s)
    ensures multiset(s)[x] <= 1
  {
    if s != [] {
      var t := s[1..];
      assert s == [s[0]] + t;
      assert Distinct(t) by {
        forall i, j | 0 <= i < j < |t| ensures t[i] != t[j] { assert t[i] == s[i + 1] && t[j] == s[j + 1]; }
      }
      DistinctCountsAtMostOne(t, x);
      if x == s[0] {
        assert x !in t by {
          forall k | 0 <= k < |t| ensures t[k] != x { assert t[k] == s[k + 1]; }
        }
      }
    }
  }

  /** A repeated element is counted at least twice. */
  lemma RepeatCountsTwice<T>(s: seq<T>, i: nat, j: nat)
    requires i < j < |s| && s[i] == s[j]
    ensures multiset(s)[s[j]] >= 2
  {
    assert s == s[..j] + [s[j]] + s[j + 1..];
    assert s[..j][i] == s[j];
    assert s[j] in multiset(s[..j]);
  }

  /** `sorted(set(xs))`: each distinct element of `xs` once, sorted. */
  lemma SortedSetSpec(xs: seq<string>)
    ensures var r := Sort(Dedup(xs), AsIs, false);
      && SortedBy(r, AsIs, false) && Distinct(r) && forall x :: x in r <==> x in xs
  {
    var d := Dedup(xs);
    var r := Sort(d, AsIs, false);
    DedupMembers(xs);
    DedupDistinct(xs);
    SortSpec(d, AsIs, false);
    DistinctPermutation(d, r);
    forall x ensures x in r <==> x in d {
      assert x in r <==> x in multiset(r);
      assert x in d <==> x in multiset(d);
    }
  }

  lemma DistinctPermutation<T>(a: seq<T>, b: seq<T>)
    requires Distinct(a) && multiset(a) == multiset(b)
    ensures Distinct(b)
  {
    forall i, j | 0 <= i < j < |b| ensures b[i] != b[j] {
      DistinctCountsAtMostOne(a, b[j]);
      if b[i] == b[j] {
        RepeatCountsTwice(b, i, j);
      }
    }
  }

  /** No element of `a` occurs in `b`. */
  predicate Disjoint<T(==)>(a: seq<T>, b: seq<T>) {
    forall i, j :: 0 <= i < |a| && 0 <= j < |b| ==> a[i] != b[j]
  }

  /** Two duplicate-free sequences with no common element concatenate to a
      duplicate-free sequence. */
  lemma DistinctConcat<T>(a: seq<T>, b: seq<T>)
    requires Distinct(a) && Distinct(b) && Disjoint(a, b)
    ensures Distinct(a + b)
  {
    var c := a + b;
    forall i, j | 0 <= i < j < |c| ensures c[i] != c[j] {
      if j >= |a| && i < |a| {
        assert c[j] == b[j - |a|];
      }
    }
  }

  /** Duplicate-free sequences with the same elements are permutations of
      each other. */
  lemma DistinctSameElements<T>(a: seq<T>, b: seq<T>)
    requires Distinct(a) && Distinct(b)
    requires forall x :: x in a <==> x in b
    ensures multiset(a) == multiset(b)
  {
    forall x ensures multiset(a)[x] == multiset(b)[x] {
      DistinctCountsAtMostOne(a, x);
      DistinctCountsAtMostOne(b, x);
      assert x in a <==> x in multiset(a);
      assert x in b <==> x in multiset(b);
    }
  }

  /** A duplicate-free sequence, split into duplicate-free parts `placed`
      (all taken from it) and `rest` (exactly its other elements), is
      rearranged by `placed + rest`. */
  lemma PartitionPermutation<T>(xs: seq<T>, placed: seq<T>, rest: seq<T>)
    requires Distinct(xs) && Distinct(placed) && Distinct(rest)
    requires forall x :: x in placed ==> x in xs
    requires forall x :: x in rest <==> x in xs && x !in placed
    ensures Distinct(placed + rest)
    ensures multiset(placed + rest) == multiset(xs)
  {
    assert Disjoint(placed, rest) by {
      forall i, j | 0 <= i < |placed| && 0 <= j < |rest| ensures placed[i] != rest[j] {
        assert rest[j] in rest;
        assert placed[i] in placed;
      }
    }
    DistinctConcat(placed, rest);
    DistinctSameElements(placed + rest, xs);
  }

  /** `[x for x in xs if p(x)]`. */
  function Filter<T>(xs: seq<T>, p: T -> bool): seq<T> {
    if xs == [] then [] else (if p(xs[0]) then [xs[0]] else []) + Filter(xs[1..], p)
  }

  /** The filtered sequence holds exactly the elements that pass, and keeps
      a duplicate-free input duplicate-free. */
  lemma {:induction false} FilterSpec<T>(xs: seq<T>, p: T -> bool)
    ensures forall x :: x in Filter(xs, p) <==> x in xs && p(x)
    ensures Distinct(xs) ==> Distinct(Filter(xs, p))
  {
    if xs != [] {
      var t := xs[1..];
      FilterSpec(t, p);
      assert xs == [xs[0]] + t;
      if Distinct(xs) {
        assert Distinct(t) by {
          forall i, j | 0 <= i < j < |t| ensures t[i] != t[j] { assert t[i] == xs[i + 1] && t[j] == xs[j + 1]; }
        }
        assert xs[0] !in t by {
          forall k | 0 <= k < |t| ensures t[k] != xs[0] { assert t[k] == xs[k + 1]; }
        }
        var head: seq<T> := if p(xs[0]) then [xs[0]] else [];
        assert Disjoint(head, Filter(t, p));
        DistinctConcat(head, Filter(t, p));
      }
    }
  }
}

=== FILE: update_manifest.dfy ===
/** The manifest patcher (`scripts/update_manifest.py`): points an existing
    manifest at a fresh ONNX export. Reading and writing the file are left
    out; the patch is a transformation of the parsed JSON document. */
module UpdateManifest {
  import opened Wrappers
  import opened Json
  import opened PublishModel

  /** The exported models, in manifest order: the model id and the export
      sub-directory that holds its files. */
  const Exports: seq<(string, string)> :=
    [("performance_dense", "performance"), ("financial_dense", "financial"), ("market_odds", "market")]

  const ExportRoot: string := "artifacts/run_export/"
  const Placeholder: string := "PLACEHOLDER"
  const PreprocessingSuffix: string := "_preprocessing"

  /** `json.loads` produced something other than an object, so the
      `data["run_id"] = ...` assignment raises. */
  datatype PatchError = NotAnObject

  /** A placeholder entry: the file is not hashed, so the digest is the
      placeholder text and the size is zero; the local path is the path. */
  function PlaceholderEntry(id: string, path: string, format: Option<string>): Entry {
    Entry(id, path, path, Placeholder, 0, format, None, None)
  }

  function ModelEntries(): seq<Entry> {
    seq(|Exports|, k requires 0 <= k < |Exports| =>
      PlaceholderEntry(Exports[k].0, ExportRoot + Exports[k].1 + "/model.onnx", Some("onnx")))
  }

  function PreprocessingEntries(): seq<Entry> {
    seq(|Exports|, k requires 0 <= k < |Exports| =>
      PlaceholderEntry(Exports[k].0 + PreprocessingSuffix, ExportRoot + Exports[k].1 + "/preprocessing.json", None))
  }

  /** `patch_manifest`: sets `run_id`, and replaces `models` and
      `preprocessing` by the placeholder entries of the exported models.
      Every other key keeps its value, and the patch adds no key beyond
      those three. A document that is not an object is rejected. */
  function PatchManifest(data: Json, runId: string): (r: Result<Object, PatchError>)
    ensures r.Success? <==> data.JObj?
    ensures r.Success? ==> r.value.Keys == data.fields.Keys + {"run_id", "models", "preprocessing"}
    ensures r.Success? ==> forall k :: k in data.fields && k !in {"run_id", "models", "preprocessing"} ==>
                                  r.value[k] == data.fields[k]
    ensures r.Success? ==> r.value["run_id"] == JStr(runId)
  {
    if !data.JObj? then Failure(NotAnObject)
    else
      Success(data.fields["run_id" := JStr(runId)]
                         ["models" := EntriesJson(ModelEntries())]
                         ["preprocessing" := EntriesJson(PreprocessingEntries())])
  }

  /** The fields of a patched entry as read back from the JSON. */
  predicate IsPlaceholder(o: Object) {
    && "path" in o && "local_path" in o && o["local_path"] == o["path"] && o["path"].JStr?
    && "sha256" in o && o["sha256"] == JStr(Placeholder)
    && "size_bytes" in o && o["size_bytes"] == JInt(0)
  }

  /** Every item of `j` is an object and a placeholder entry. */
  predicate AllPlaceholders(j: Json) {
    j.JArr? && forall k :: 0 <= k < |j.items| ==> j.items[k].JObj? && IsPlaceholder(j.items[k].fields)
  }

  /** The `"path"` of item `k` of a list of placeholders. */
  function PathAt(j: Json, k: nat): string
    requires AllPlaceholders(j) && k < |j.items|
  {
    j.items[k].fields["path"].s
  }

  /** The JSON of a placeholder entry. */
  lemma PlaceholderJson(id: string, path: string, format: Option<string>)
    ensures var o := EntryJson(PlaceholderEntry(id, path, format));
      && IsPlaceholder(o) && o["id"] == JStr(id) && o["path"] == JStr(path)
      && ("format" in o <==> format.Some?)
      && (format.Some? ==> o["format"] == JStr(format.value))
  {
  }

  /** The model entries as JSON: item `k` is the placeholder of export `k`,
      with format `onnx` and its `model.onnx` file. */
  lemma ModelsJson(k: nat)
    requires k < |Exports|
    ensures var m := EntriesJson(ModelEntries());
      && m.items[k].JObj? && IsPlaceholder(m.items[k].fields)
      && m.items[k].fields["id"] == JStr(Exports[k].0)
      && m.items[k].fields["path"] == JStr(ExportRoot + Exports[k].1 + "/model.onnx")
      && "format" in m.items[k].fields && m.items[k].fields["format"] == JStr("onnx")
  {
    PlaceholderJson(Exports[k].0, ExportRoot + Exports[k].1 + "/model.onnx", Some("onnx"));
  }

  /** The preprocessing entries as JSON: item `k` is named after export `k`
      with the suffix, has no format, and is its `preprocessing.json`. */
  lemma PreprocessingJson(k: nat)
    requires k < |Exports|
    ensures var p := EntriesJson(PreprocessingEntries());
      && p.items[k].JObj? && IsPlaceholder(p.items[k].fields)
      && p.items[k].fields["id"] == JStr(Exports[k].0 + PreprocessingSuffix)
      && p.items[k].fields["path"] == JStr(ExportRoot + Exports[k].1 + "/preprocessing.json")
      && "format" !in p.items[k].fields
  {
    PlaceholderJson(Exports[k].0 + PreprocessingSuffix, ExportRoot + Exports[k].1 + "/preprocessing.json", None);
  }

  /** Every item `k` of the patched `models` carries format `onnx`. */
  predicate AllOnnx(m: Json) {
    m.JArr? && forall k :: 0 <= k < |m.items| ==> m.items[k].JObj? && "format" in m.items[k].fields
                                                  && m.items[k].fields["format"] == JStr("onnx")
  }

  /** The patched `models` are exactly the three exports, in order
      (`performance_dense`, `financial_dense`, `market_odds`), each with
      format `onnx` and its `model.onnx` file in its export directory. */
  lemma PatchedModels(data: Json, runId: string)
    requires data.JObj?
    ensures var m := PatchManifest(data, runId).value["models"];
      && AllPlaceholders(m) && AllOnnx(m) && |m.items| == |Exports| == 3
      && forall k :: 0 <= k < |Exports| ==>
           Ids(m)[k] == Exports[k].0 && PathAt(m, k) == ExportRoot + Exports[k].1 + "/model.onnx"
  {
    var m := EntriesJson(ModelEntries());
    assert PatchManifest(data, runId).value["models"] == m;
    forall k | 0 <= k < |m.items| ensures m.items[k].JObj? && IsPlaceholder(m.items[k].fields)
      && "format" in m.items[k].fields && m.items[k].fields["format"] == JStr("onnx")
    {
      ModelsJson(k);
    }
    forall k | 0 <= k < |Exports|
      ensures Ids(m)[k] == Exports[k].0 && PathAt(m, k) == ExportRoot + Exports[k].1 + "/model.onnx"
    {
      ModelsJson(k);
    }
  }

  /** The patched `preprocessing` list pairs with the models: item `k` is
      named after model `k` with `_preprocessing` appended and is the
      `preprocessing.json` next to that model's file. No entry has a format. */
  lemma PatchedPreprocessing(data: Json, runId: string)
    requires data.JObj?
    ensures var r := PatchManifest(data, runId).value;
      && AllPlaceholders(r["models"]) && AllPlaceholders(r["preprocessing"])
      && PairsWithModels(r["models"], r["preprocessing"])
  {
    var m := EntriesJson(ModelEntries());
    var p := EntriesJson(PreprocessingEntries());
    assert PatchManifest(data, runId).value["models"] == m;
    assert PatchManifest(data, runId).value["preprocessing"] == p;
    BothPlaceholders();
    forall k | 0 <= k < |p.items| ensures PairedAt(m, p, k) {
      PairedIndex(k);
    }
  }

  lemma BothPlaceholders()
    ensures BothPlaceholdersHold()
  {
    var m := EntriesJson(ModelEntries());
    var p := EntriesJson(PreprocessingEntries());
    forall k | 0 <= k < |p.items| ensures p.items[k].JObj? && IsPlaceholder(p.items[k].fields) {
      PreprocessingJson(k);
    }
    forall k | 0 <= k < |m.items| ensures m.items[k].JObj? && IsPlaceholder(m.items[k].fields) {
      ModelsJson(k);
    }
  }

  lemma PairedIndex(k: nat)
    requires k < |Exports|
    ensures BothPlaceholdersHold() && PairedAt(EntriesJson(ModelEntries()), EntriesJson(PreprocessingEntries()), k)
  {
    BothPlaceholders();
    var m := EntriesJson(ModelEntries());
    var p := EntriesJson(PreprocessingEntries());
    ModelsJson(k);
    PreprocessingJson(k);
    var dir := ExportRoot + Exports[k].1 + "/";
    SharedDirectory(ExportRoot + Exports[k].1);
    assert PathAt(m, k) == dir + "model.onnx";
    assert PathAt(p, k) == dir + "preprocessing.json";
  }

  /** A model file and a preprocessing file under `a` share the directory `a/`. */
  lemma SharedDirectory(a: string)
    ensures a + "/model.onnx" == (a + "/") + "model.onnx"
    ensures a + "/preprocessing.json" == (a + "/") + "preprocessing.json"
  {
    assert "/model.onnx" == "/" + "model.onnx";
    assert "/preprocessing.json" == "/" + "preprocessing.json";
  }

  predicate BothPlaceholdersHold() {
    AllPlaceholders(EntriesJson(ModelEntries())) && AllPlaceholders(EntriesJson(PreprocessingEntries()))
  }

  /** Item `k` of the preprocessing list `p` belongs to item `k` of the
      model list `m`: same name with the suffix, same directory, no format. */
  ghost predicate PairedAt(m: Json, p: Json, k: nat)
    requires AllPlaceholders(m) && AllPlaceholders(p) && k < |p.items| && k < |m.items|
  {
    && Ids(p)[k] == Ids(m)[k] + PreprocessingSuffix
    && "format" !in p.items[k].fields
    && exists dir :: PathAt(m, k) == dir + "model.onnx" && PathAt(p, k) == dir + "preprocessing.json"
  }

  ghost predicate PairsWithModels(m: Json, p: Json)
    requires AllPlaceholders(m) && AllPlaceholders(p)
  {
    && |p.items| == |m.items|
    && forall k :: 0 <= k < |p.items| ==> PairedAt(m, p, k)
  }

  /** Patching is idempotent, and a later patch overrides the run id of an
      earlier one: patching twice is patching once with the second run id. */
  lemma PatchTwice(data: Json, runId1: string, runId2: string)
    requires data.JObj?
    ensures var once := PatchManifest(data, runId1).value;
      PatchManifest(JObj(once), runId2) == PatchManifest(data, runId2)
  {
    var once := PatchManifest(data, runId1).value;
    var twice := PatchManifest(JObj(once), runId2).value;
    var direct := PatchManifest(data, runId2).value;
    assert twice.Keys == direct.Keys;
    forall k | k in twice ensures twice[k] == direct[k] {
    }
    assert twice == direct;
  }
}

=== FILE: wrappers.dfy ===
/** Failure-compatible wrappers used across the model: `Option` for Python's
    `Optional[...]`/`None`, `Result` for code paths that raise. */
module Wrappers {

  datatype Option<+T> = None | Some(value: T) {

    predicate IsFailure() {
      None?
    }

    function PropagateFailure<U>(): Option<U>
      requires None?
    {
      None
    }

    function Extract(): T
      requires Some?
    {
      value
    }

    /** The value, or `default` when absent. */
    function GetOr(default: T): T {
      match this
      case Some(v) => v
      case None => default
    }
  }

  /** An exception raised by the source is a `Failure` carrying its kind. */
  datatype Result<+R, +E> = Success(value: R) | Failure(error: E) {

    predicate IsFailure() {
      Failure?
    }

    function PropagateFailure<U>(): Result<U, E>
      requires Failure?
    {
      Failure(error)
    }

    function Extract(): R
      requires Success?
    {
      value
    }
  }

  /** Python truthiness of an optional string: set and non-empty. */
  predicate IsSet(s: Option<string>) {
    s.Some? && s.value != ""
  }

  /** Applies `f` to each element in order; the first failure aborts the
      whole run with its error. */
  function MapAll<A, B, E>(xs: seq<A>, f: A -> Result<B, E>): (r: Result<seq<B>, E>)
    ensures r.Success? ==> |r.value| == |xs| && forall k :: 0 <= k < |xs| ==> f(xs[k]) == Success(r.value[k])
    ensures r.Failure? ==> exists k :: 0 <= k < |xs| && f(xs[k]) == Failure(r.error)
                                        && forall j :: 0 <= j < k ==> f(xs[j]).Success?
  {
    if xs == [] then Success([])
    else
      match f(xs[0])
      case Failure(e) => Failure(e)
      case Success(first) =>
        match MapAll(xs[1..], f)
        case Failure(e) =>
          assert forall j :: 1 <= j < |xs| ==> xs[j] == xs[1..][j - 1];
          Failure(e)
        case Success(rest) =>
          assert forall j :: 1 <= j < |xs| ==> xs[j] == xs[1..][j - 1];
          Success([first] + rest)
  }
}
